=== FILE: README.md ===
# keylime-go collections, modelled in Dafny

This project models the collection library keylime-go: generic lists, sets and
maps, the free functions over slices, and a few small extras. Each Go file
becomes a module of pure functions and short methods over Dafny values:

- A `List[T]` or a slice is a `seq<T>`.
- The map-backed `Set[T]` (`map[T]struct{}`) is a `set<T>`.
- `Map[K, V]` is a `map<K, V>`.
- A list-backed set is a `seq<T>` that is meant to hold no value twice (`NoDup`).

The Go methods mutate their receiver through a pointer. Here a mutator returns
the receiver's new value. When the Go method also returns an `error`, the
result is a `Mutated(after, outcome)` pair. So "the list is unchanged on
error" is a statement about `after`.

Errors are the constructors of `Errors.Error`: the typed `IndexError(index,
length)`, the sentinels, and one constructor per kind of ad-hoc `errors.New`
or `fmt.Errorf` error. Revisions that report the same kind of failure in
different words share a constructor: `EmptySet` stands for every "empty set"
message of set/set.go, set.go and settype.go. Message text is not modelled.

The modules follow the files:

| module | Go source |
|---|---|
| `Lists`, `ListRemove`, `Indices`, `Selection` | list/list.go, list/helpers.go, list/conversion.go |
| `ListQueries` | list/reflective.go |
| `Slices` | list/listfunctions.go, list/functions.go |
| `LegacyList` | list.go, listfunctions.go |
| `NumList` | numlist.go |
| `HashSet` | set/set.go, set/functions.go, set/helpers.go, set/conversion.go |
| `ListSets` | set.go, settype.go, Set.go |
| `KeyValueMap` | map.go |
| `Pairs` | pair/pair.go |
| `Sequence` | sequence/sequence.go |
| `Seqs`, `Sorting`, `Errors` | shared reference definitions |

The reference definitions are:

- `Survivors(l, S)`: delete the positions in `S` from `l` all at once.
- `Keep(s, p)`: the elements satisfying `p`, in order.
- `Dedup(s)`: the first occurrence of each value, in order.
- `SortInts(s)`: insertion sort, the specification of sorting.
- `Flatten`: in-order concatenation.
- `Chunks`: cutting a sequence into pieces of a given size.
- `FoldLeft`: the left fold.
- `Elems(s)`: the set of values in `s`.

Several operations pick their next element in an unspecified order: Go's map
iteration, `rand.Intn` and `rand.Shuffle`. Their loops choose it with `:|`,
so every property holds for every order and every random draw. The ordering
algorithms are instantiated at `int`.

## Model

| member | source | states |
|---|---|---|
| Errors.NewIndexError | list/helpers.go:35-44 | The typed index error records exactly the index and length it is given, and unwraps to the `IndexOutOfBoundsError` sentinel |
| Lists.Get | list/list.go:47-57 | `Get(i)` yields the element exactly when `0 <= i < Len`, and `(zero, false)` otherwise, including on an empty list |
| Lists.Set | list/list.go:204-210 | `Set` succeeds exactly for an existing index and then writes only that slot. An invalid index gives `IndexError(index, Len)` and leaves the list unchanged |
| Lists.GetAfterSet | list/list.go:47-57 | After a successful `Set(k, v)`, `Get(k)` yields `v` and every other position reads as before |
| Lists.SingleSet | list/helpers.go:113-119 | `singleSet` returns false and changes nothing for an invalid index; otherwise it writes exactly that slot |
| Lists.SetAgreesWithSingleSet | list/list.go:204-210 | `Set` and `singleSet` write the same slot and fail on the same indices |
| Lists.Swap | list/list.go:215-224 | `Swap` checks `i` before `j` and reports the first invalid one with the list unchanged. Otherwise it exchanges exactly the two slots, leaving a permutation |
| Lists.SwapInvolution | list/list.go:215-224 | Swapping the same two positions twice restores the list, and `Swap(i, j)` equals `Swap(j, i)` |
| Lists.AppendedOver | list/list.go:194-196 | Go's `append(l[:index], values...)` writes the values over the shared backing array exactly when `index + len(values)` fits in the capacity; otherwise it reallocates and the old cells are untouched |
| Lists.InsertAsWritten | list/list.go:186-199 | `Insert` as written, for a given capacity: the same errors as `Insert`. At `Len`, or when the splice reallocates, it is the intended splice. When `len(values) <= Len - index` the result is `l[..index] + values + values + l[index+len(values)..]`: the values are doubled and as many tail elements lost. When the values run past `Len` but fit in the capacity, the tail is replaced by the first `Len - index` values |
| Lists.InsertAsWrittenRepeats | list/list.go:194-197 | Concrete discrepancy: inserting 9 at position 1 of `[1, 2, 3]` at capacity 3 leaves `[1, 9, 9, 3]`, not `[1, 9, 2, 3]` |
| Lists.Insert | list/list.go:186-199 | `Insert(index, vs)` fails with `IndexError` and the list unchanged unless `0 <= index <= Len`. Otherwise the result is the prefix, then `vs`, then the old tail |
| Lists.PopAsWritten | list/list.go:127-142 | As written, `Pop` returns the element at the given index, or the last one, with an `IndexError` or `EmptyListError` when there is none. It never changes the list |
| Lists.Pop | list/list.go:124-142 | `Pop` as its doc comment promises: the same answer as the code, with the returned element also removed |
| Lists.PopAsWrittenKeepsElement | list/list.go:124-142 | Concrete discrepancy: popping `[1, 2, 3]` leaves `[1, 2, 3]` in place, while the removing `Pop` leaves `[1, 2]` |
| Lists.Reverse | list/list.go:156-166 | The two-ended swap loop leaves the elements in reverse order |
| Lists.Slice | list/list.go:235-247 | `Slice(start, end)` reports `start < 0`, then `end > Len`, then `start > end`. Otherwise it returns exactly `l[start..end]`, so `start == Len` gives an empty slice |
| Lists.SliceSplit | list/list.go:235-247 | Slicing at any `k` in `[0, Len]` and joining the two slices gives back the list |
| Lists.Concatenate | list/list.go:147-151 | The receiver is kept as a prefix, and the length grows by the total length of the appended lists. Each appended list `lists[k]` sits, unchanged, right after the receiver and the lists before it |
| Lists.FlattenPiece | list/list.go:147-151 | In the flattening of the appended lists, `lists[k]` starts at the total length of the lists before it |
| Lists.ConcatenateSlices | list/list.go:147-151 | Both the receiver and the appended list can be sliced back out of a concatenation |
| Lists.Map | list/list.go:271-276 | `Map` keeps the length and overwrites each position with `f` of its element |
| Lists.FlatMap | list/list.go:280-287 | The list becomes the outputs of `f`, concatenated in order, with their total length |
| Lists.Any | list/list.go:298-305 | `Any` holds exactly when some element satisfies the predicate |
| Lists.All | list/list.go:308-315 | `All` holds exactly when every element does, so it is true on an empty list |
| Lists.FindBy | list/list.go:318-326 | `FindBy` returns the first satisfying element with its index, or nothing when no element satisfies the predicate |
| Lists.FindByAnyAll | list/list.go:298-326 | `FindBy` succeeds exactly when `Any` holds, and `All p` is `not Any (not p)` |
| Lists.Partition | list/list.go:330-347 | `Partition(size <= 0)` is one chunk equal to the list. Otherwise the chunks concatenate to the list, each has 1 to `size` elements, and all but the last have exactly `size` |
| Lists.ToMap | list/conversion.go:11-17 | The keys are exactly the positions `0 .. Len-1`, each mapped to its element |
| ListRemove.Remove | list/list.go:60-95 | Batch `Remove` with no indices is a no-op |
| ListRemove.RemoveSucceeds | list/list.go:60-95 | With every index valid, `Remove` succeeds and deletes exactly the named positions from the original list |
| ListRemove.RemoveFails | list/list.go:74-90 | With an invalid index, `Remove` fails with an `IndexError` carrying the list's length and the largest invalid index, and changes nothing |
| ListRemove.RemoveSpec | list/list.go:60-95 | `Remove` succeeds exactly when every index is valid. Then survivors keep their order and `Len` drops by the number of distinct indices; otherwise the list is unchanged and the error names the largest invalid index |
| ListRemove.RemoveIgnoresOrderAndDuplicates | list/list.go:74-76 | Two batches with the same set of indices have the same effect and the same error, so argument order and repeats do not matter |
| ListRemove.LargestInvalidUnique | list/list.go:80-87 | The reported index is determined by the set of indices |
| ListRemove.FirstInvalidIndex | list/list.go:78-87 | The search for the first offending index in the normalised batch finds one exactly when some index is invalid, so the fallback sentinel return is unreachable |
| ListRemove.Positions | list/list.go:260-266 | The collected positions are exactly the positions whose elements satisfy the test |
| ListRemove.FilterKeeps | list/list.go:259-268 | `Filter` keeps exactly the elements satisfying the predicate, in their original order |
| ListRemove.RemoveAnySpec | list/list.go:99-106 | `RemoveAny` never fails. It deletes exactly the valid positions named, and equals `Remove` applied to the in-range indices only |
| ListRemove.RemoveAnyExample | list/list.go:99-106 | `RemoveAny(-1, 2, 10)` on a five-element list removes only its third element |
| ListRemove.InsertThenRemove | list/list.go:186-199 | Removing the positions an `Insert` has just filled gives back the original list |
| Indices.FormatIndicesReversed | list/helpers.go:79-87 | A batch of length at most 1 is returned unchanged. Otherwise the result is strictly decreasing and holds the same set of indices |
| Indices.FormatIgnoresDedupOrder | list/helpers.go:83-84 | Sorting any duplicate-free list of the same indices gives what sorting the deduplicated batch gives, so the unspecified order of `RemoveDuplicates` does not matter |
| Indices.IndicesAreFormattedReversed | list/helpers.go:89-102 | The check is true exactly for strictly decreasing batches, including every batch of length at most 1 |
| Indices.DecreasingFrom | list/helpers.go:93-100 | The neighbour scan from position `k` holds exactly when each element from `k` on is above its successor |
| Selection.Partition | list/helpers.go:62-77 | The pivot position `p` lies in `[left, right]` and holds the old `arr[right]`. Everything in `[left, p)` is at most the pivot and everything in `(p, right]` is above it. Only `[left, right]` is permuted |
| Selection.QuickSelect | list/helpers.go:46-60 | With `left <= k <= right`, the answer is what a sorted `arr[left..right]` holds at `k`. Only `[left, right]` is permuted, and the recursion terminates because the range strictly shrinks |
| Selection.SelectAroundPivot | list/helpers.go:53-59 | The three branches after partitioning each leave the answer for `k` |
| Selection.PivotSplit | list/helpers.go:62-77 | After a partition, the sorted range is the sorted low side, then the pivot, then the sorted high side |
| ListQueries.SingleContains | list/reflective.go:97-115 | `singleContains` is false on an empty list and otherwise true exactly when an equal element occurs |
| ListQueries.Contains | list/reflective.go:6-17 | On an empty list, `Contains` is true exactly for no items. Otherwise it is true exactly when every item occurs |
| ListQueries.ContainsAny | list/reflective.go:20-31 | `ContainsAny` is false on an empty list or for no items. Otherwise it is true exactly when some item occurs |
| ListQueries.ContainsAgreesWithSliceFunctions | list/listfunctions.go:17-33 | The list methods and the free slice functions give the same membership answers |
| ListQueries.EqualsFunc | list/reflective.go:85-95 | `equalsFunc` holds exactly when the lengths agree and the comparator holds at every index |
| ListQueries.Equals | list/reflective.go:37-60 | `Equals` is false on a length mismatch and true for two empty lists. With a comparator it is `equalsFunc`; without one it is pointwise `==` |
| ListQueries.EqualsIsEquality | list/reflective.go:44-58 | Without a comparator `Equals` is list equality, and passing `==` as the comparator changes nothing |
| ListQueries.IndexOfFunc | list/reflective.go:117-124 | `indexOfFunc` returns the first index whose element satisfies the predicate, or `(-1, false)` |
| ListQueries.IndexOf | list/reflective.go:63-76 | `IndexOf` returns `(-1, false)` on an empty list or a missing item. Otherwise it returns the first index holding an equal element, as `indexOfFunc` with `==` does |
| Slices.SingleContains | list/helpers.go:104-111 | The free `singleContains` is true exactly when some element equals the value |
| Slices.Contains | list/listfunctions.go:17-24 | `Contains(list, vs...)` is true exactly when every `v` occurs, so it is vacuously true for no values |
| Slices.ContainsAny | list/listfunctions.go:26-33 | `ContainsAny` is true exactly when some `v` occurs, so it is false for no values |
| Slices.FoldLeftSnoc | list/functions.go:15-21 | Reducing one more element applies the reducer once more to the result so far |
| Slices.Reduce | list/listfunctions.go:35-41 | `Reduce` returns `initial` on an empty slice and is the left fold of the reducer |
| Slices.Flatten | list/listfunctions.go:43-55 | `Flatten` is the in-order concatenation, with length equal to the sum of the lengths |
| Slices.Map | list/listfunctions.go:66-74 | `Map` keeps the length and gives `result[i] == f(xs[i])` |
| Slices.FlatMap | list/listfunctions.go:57-64 | `FlatMap` concatenates the outputs of `f` in element order |
| Slices.IsSorted | list/listfunctions.go:88-93 | `IsSorted` is true for length at most 1, and otherwise exactly when the slice is non-decreasing |
| Slices.Sort | list/listfunctions.go:77-85 | `Sort` leaves a sorted permutation of its input, and leaves already-sorted input untouched |
| Slices.Min | list/functions.go:79-81 | On a non-empty slice, `Min` returns an element that is at most every element: the head of the sorted slice |
| Slices.Max | list/functions.go:84-86 | On a non-empty slice, `Max` returns an element that is at least every element: the last of the sorted slice |
| Slices.Find | list/listfunctions.go:123-130 | `Find` returns the smallest index holding the value, or -1 exactly when it is absent |
| Slices.LowerBound | list/listfunctions.go:139-149 | On a sorted slice, the search position separates the smaller elements from the rest and reports whether the value sits there |
| Slices.BinarySearch | list/listfunctions.go:132-150 | The result is -1 exactly for an empty input or an absent value. Otherwise it is the first position of the value in the sorted input |
| Slices.Median | list/listfunctions.go:152-173 | `Median` is zero on empty input, `sorted[n/2]` for odd `n`, and the lower middle `sorted[n/2-1]` for even `n` |
| Slices.MedianOfFour | list/listfunctions.go:167-172 | `[1, 2, 3, 4]` has median 2 |
| Slices.MedianOfFive | list/listfunctions.go:163-165 | `[5, 3, 1, 4, 2]` has median 3 |
| Slices.RemoveDuplicates | list/listfunctions.go:175-188 | Input of length at most 1 is unchanged. Otherwise each distinct element appears exactly once, in an unspecified order |
| Slices.RemoveDuplicatesOrdered | list/functions.go:98-110 | The order-preserving version leaves length at most 1 unchanged. Otherwise it deletes exactly the positions that repeat an earlier value, so the values come in the order of their first occurrences |
| Seqs.DedupDropsRepeats | list/functions.go:103-107 | Keeping each value the result lacks is deleting every position whose value occurred earlier |
| Seqs.DedupKeepsFirstOrder | list/functions.go:103-107 | Of two kept values, the earlier one in the result occurs first earlier in the input |
| NumList.Sort | numlist.go:9-17 | `Sort` yields the sorted permutation of the slice and leaves already-sorted input as it is |
| NumList.QuickSort | numlist.go:20-26 | `quicksort(arr, low, high)` leaves `arr[low..high]` sorted and a permutation of what it was, touches nothing else, and does nothing when `low >= high` |
| NumList.PartitionAt | numlist.go:29-46 | For any pivot index in `[low, high]`, the returned `i` lies in `[low, high]` with `arr[low..i) <= arr[i] < arr(i..high]`. Only `[low, high]` is permuted |
| NumList.QuickSortStep | numlist.go:20-26 | Sorting both sides of a partition sorts the whole range |
| NumList.IsSorted | numlist.go:49-59 | `IsSorted` is true exactly when no `list[i] < list[i-1]` |
| LegacyList.Get | list.go:43-53 | `Get` reports "list is empty" first, then "index out of range", and otherwise returns `l[i]` |
| LegacyList.Remove | list.go:56-65 | `Remove(i)` fails with the same errors as `Get` and the list unchanged. Otherwise it deletes exactly position `i` and `Len` drops by 1 |
| LegacyList.RemoveIsSurvivors | list.go:56-65 | A successful `Remove(i)` is the batch deletion of the single position `i` |
| LegacyList.Pop | list.go:90-100 | `Pop` removes and returns the last element; on an empty list it reports an error |
| LegacyList.Dequeue | list.go:103-110 | `Dequeue` removes and returns the first element; on an empty list it reports an error |
| LegacyList.PopDequeueOrder | list.go:90-110 | `Pop` takes back what was appended last; `Dequeue` takes from the other end |
| LegacyList.Insert | list.go:138-151 | `Insert` errors unless `0 <= index <= Len`; otherwise the result is `l[..index] + values + l[index..]` |
| LegacyList.Set | list.go:154-160 | `Set` changes only the addressed position and errors on an invalid index |
| LegacyList.Swap | list.go:163-169 | `Swap` exchanges only the two addressed positions and errors on an invalid index |
| LegacyList.MutatorsAgreeAcrossRevisions | list.go:138-169 | The two List revisions change lists identically under `Insert`, `Set` and `Swap` and fail on the same indices; only the error values differ |
| LegacyList.Slice | list.go:182-190 | `Slice` requires `0 <= start < Len` and `start <= end <= Len`, so any slice of an empty list fails. It returns `l[start..end]` |
| LegacyList.SliceRevisions | list.go:182-190 | The older `Slice` accepts exactly what the newer one accepts, except `start == Len`, and the results agree |
| LegacyList.SliceThenAppendAsWritten | list.go:182-190 | Appending to the result of `Slice`, a view of the receiver's storage, leaves the result extended by the value and writes the value into the receiver's cell `end` when `end < Len`; on error the result is a fresh one-element list |
| LegacyList.SliceThenAppend | list.go:181 | Appending to the "new list" that `Slice` documents leaves the receiver unchanged |
| LegacyList.SliceAliasing | list.go:181-190 | The view and the copy agree exactly when `end == Len` or the receiver already holds the appended value at `end` |
| LegacyList.SliceAppendOverwrites | list.go:189 | Appending 9 to `Slice(0, 1)` of `[1, 2, 3]` turns the receiver into `[1, 9, 3]`, while the documented copy leaves it `[1, 2, 3]` |
| LegacyList.Filter | list.go:192-200 | `Filter` returns a new list of exactly the matching elements, in order |
| LegacyList.ThereExists | list.go:202-209 | `ThereExists` is true exactly when some element satisfies the predicate |
| LegacyList.ForAll | list.go:211-218 | `ForAll` is true exactly when every element does |
| LegacyList.Find | list.go:221-229 | `Find` returns the first matching element, or nothing when none matches |
| LegacyList.Chunk | list.go:238-257 | `Chunk(size <= 0)` gives `[l]`. Otherwise the chunks concatenate to `l`, each of length 1 to `size`, and all but the last have exactly `size` |
| LegacyList.Shuffle | list.go:125-135 | For every random draw, `Shuffle` leaves a permutation of the list |
| LegacyList.Contains | listfunctions.go:4-11 | `Contains` is true exactly when some element equals the value, so it is false on an empty slice |
| LegacyList.Reduce | listfunctions.go:13-19 | `Reduce` returns `initial` on an empty slice and is the left fold, so `Reduce(xs + [x]) == f(Reduce(xs), x)` |
| HashSet.SingleContains | set/helpers.go:4-7 | `singleContains(x)` is true exactly when `x` is a key of the set |
| HashSet.SetOf | set/set.go:9-24 | `SetOf` and `SetWithCap` build exactly the set of the arguments, with duplicates collapsed |
| HashSet.Add | set/set.go:27-32 | `Add` leaves `s ∪ items`; adding present elements leaves the set and its `Len` unchanged |
| HashSet.Remove | set/set.go:40-45 | `Remove` leaves `s − items`; removing absent elements is a no-op |
| HashSet.AddRemoveMembership | set/set.go:27-45 | After `Add(x)`, `singleContains(x)` holds. After `Remove(x)` it does not, and the other elements are unaffected |
| HashSet.Pop | set/set.go:49-56 | `Pop` on an empty set errors and leaves it empty. Otherwise it returns some member `x` and leaves `s − {x}` |
| HashSet.Contains | set/set.go:59-66 | `Contains(items...)` is true exactly when every item is a member, so it is vacuously true |
| HashSet.ContainsAny | set/set.go:69-76 | `ContainsAny` is true exactly when some item is a member, so it is false for no items |
| HashSet.SubsetOf | set/set.go:114-125 | `SubsetOf` is true exactly when every element is in `other`, including for an empty receiver |
| HashSet.SupersetOf | set/set.go:128-130 | `SupersetOf(o)` is `o.SubsetOf(s)` |
| HashSet.Equals | set/set.go:106-111 | `Equals` holds exactly when the two sets have the same elements |
| HashSet.Union | set/set.go:133-142 | `Union` is `s ∪ o` |
| HashSet.Intersection | set/set.go:145-162 | `Intersection` is `s ∩ o`, whichever operand is iterated |
| HashSet.Difference | set/set.go:165-178 | `Difference` is the symmetric difference `(s − o) ∪ (o − s)`, the elements in exactly one operand |
| HashSet.DifferenceProperties | set/set.go:165-178 | `s.Difference(s)` is empty, and `Difference` does not depend on operand order |
| HashSet.Filter | set/set.go:181-188 | `Filter` leaves exactly `{x ∈ s \| p(x)}` |
| HashSet.MapInPlace | set/set.go:190-198 | The `Map` method replaces `s` with `{f(x) \| x ∈ s}`, with colliding images collapsed |
| HashSet.FlatMapInPlace | set/set.go:200-208 | The `FlatMap` method replaces `s` with the union of the outputs of `f` |
| HashSet.Any | set/set.go:217-224 | `Any` is true exactly when some element satisfies the predicate |
| HashSet.All | set/set.go:226-233 | `All` is true exactly when every element does, including for an empty set |
| HashSet.Clear | set/set.go:84-89 | `Clear` leaves the empty set |
| HashSet.Copy | set/set.go:92-98 | `Copy` holds the same elements |
| HashSet.Map | set/functions.go:15-21 | `Map` returns `{f(x) \| x ∈ s}`, no larger than `s`, with colliding images collapsed |
| HashSet.FlatMap | set/functions.go:24-33 | `FlatMap` returns the union of all `f(x)`; an empty output contributes nothing |
| HashSet.Flatten | set/functions.go:37-45 | `Flatten` returns the union of every set in the collection, and is empty for an empty collection |
| HashSet.Reduce | set/functions.go:5-11 | `Reduce` returns `initial` on an empty set, and otherwise is the left fold over some duplicate-free listing of the set |
| HashSet.ToSlice | set/conversion.go:6-12 | `ToSlice` lists every element exactly once, so its length is `Len()` |
| HashSet.ToList | set/conversion.go:15-17 | `ToList` holds the same elements as `ToSlice`, each once |
| ListSets.Fresh | set.go:36-43 | The values `Append` adds are exactly the arguments the set lacks, each once |
| ListSets.Append | set.go:36-43 | `Append` keeps the set as a prefix, adds only absent values in argument order, and introduces no duplicates. When every value is present it changes nothing |
| ListSets.AppendIsDedup | settype.go:33-40 | On a duplicate-free set, `Append` keeps the first occurrence of every value of the set followed by the arguments |
| ListSets.AppendOne | Set.go:30-37 | `Append(v)` of one value leaves the set when it holds `v`, and adds `v` at the end otherwise |
| ListSets.NewSet | settype.go:14-20 | `NewSet` deduplicates: it holds each distinct argument once, in first-occurrence order |
| ListSets.NewSetOfSet | Set.go:11-17 | Distinct arguments are kept exactly as given |
| ListSets.NewSetAsWritten | set.go:16-23 | set.go's `NewSet` as written stores every argument, duplicates included |
| ListSets.NewSetAsWrittenKeepsDuplicates | set.go:16-23 | Concrete discrepancy: set.go's `NewSet(1, 1)` holds `1` twice, where a deduplicating `NewSet` holds it once |
| ListSets.InsertAsWritten | set.go:49-62 | set.go's and settype.go's `Insert` as written, for a given capacity. It errors outside `[0, Len]` and is `Append` at `Len`. In the middle the values are spliced in unchecked after the prefix. When the splice reallocates, the old tail is then appended back through `Append`. When `len(vals) <= Len - index` the splice overwrites the first `len(vals)` tail elements, which are lost, and only the rest of the tail is appended back. When the values run past `Len` within the capacity, the whole tail is lost |
| ListSets.AliasedReappend | set.go:57-60 | The walk of `Append(after...)` over the aliased tail leaves, in each case of the splice, what `InsertAsWritten` states |
| ListSets.Reappend | set.go:36-43 | The walk of `Append` over a window of the backing array keeps the set as prefix and adds no duplicate |
| ListSets.ReappendTrailing | settype.go:33-40 | While `Append`'s writes land only on cells already read, the walk is the plain `Append` of the window as it was |
| ListSets.AppendForwardIsAppend | settype.go:33-40 | Walking the arguments front to back and appending each absent one is `Append` |
| ListSets.InsertAsWrittenLosesTail | settype.go:42-55 | Concrete discrepancy: inserting the present value 1 at position 1 of `{1, 2}` at capacity 2 leaves `[1, 1]`: 1 twice and 2 gone |
| ListSets.InsertAsWrittenReallocates | settype.go:42-55 | When the splice reallocates, `{1, 2}.Insert(1, 1, 3)` at capacity 2 gives `[1, 1, 3, 2]`: the tail survives and 1 is stored twice |
| ListSets.InsertSkipsPresent | Set.go:44-55 | The corrected `Insert` leaves `{1, 2}` unchanged when asked to insert the present value 1 |
| ListSets.Insert | Set.go:44-55 | `Insert` errors outside `[0, Len]` with the set unchanged. Otherwise the absent values are placed contiguously from `index`, in order, and present ones are skipped; at `Len` this is `Append`. The set stays duplicate-free |
| ListSets.InsertFrom | Set.go:48-53 | The running-index loop inserts each absent value after the ones already inserted and skips present ones |
| ListSets.InsertKeepsNoDup | Set.go:30-55 | Splicing the fresh values into a duplicate-free set keeps it duplicate-free and adds exactly the arguments |
| ListSets.Set | set.go:64-73 | `Set(index, val)` with `val` present is a nil no-op for any index. Otherwise an invalid index errors and a valid one replaces that slot; no duplicate is introduced |
| ListSets.Remove | set.go:122-129 | `Remove(i)` errors on an invalid index and otherwise deletes position `i`, so exactly `l[i]` leaves the set |
| ListSets.Get | set.go:114-120 | set.go's `Get` returns `s[i]` for a valid index and "index out of range" otherwise |
| ListSets.GetOrZero | settype.go:107-113 | settype.go's `Get` returns the zero value for an invalid index, else `s[i]` |
| ListSets.Pop | set.go:213-222 | `Pop` errors when empty and otherwise removes and returns the last element, which no longer occurs |
| ListSets.Dequeue | settype.go:214-222 | `Dequeue` errors when empty and otherwise removes and returns the first element |
| ListSets.Slice | set.go:161-169 | `Slice` requires `0 <= start < Len` and `start <= end <= Len` and returns `l[start..end]`, which is duplicate-free |
| ListSets.SliceAgreesWithLegacyList | list.go:182-190 | The set slices accept exactly the ranges the older `List.Slice` accepts, and return the same elements |
| ListSets.SubsetOf | set.go:82-87 | `SubsetOf` is true exactly when every element is in `other` |
| ListSets.SupersetOf | set.go:75-80 | `SupersetOf` is the converse check, `other.SubsetOf(s)` |
| ListSets.AppendMatching | set.go:89-97 | Appending each matching element of a sequence through `Append` gives its matching values, once each and in order |
| ListSets.Intersection | set.go:89-97 | `Intersection` holds the elements of `s`, in `s`'s order, that are also in `other` |
| ListSets.Union | set.go:99-104 | `Union` holds `s`'s elements followed by `other`'s new ones, with no duplicates |
| ListSets.Filter | set.go:232-240 | set.go's `Filter` returns a new set of the matching elements, in order |
| ListSets.FilterInPlace | settype.go:232-240 | settype.go's `Filter` keeps the matching elements in place, in order |
| ListSets.Find | settype.go:242-249 | `Find` returns `(i, true)` for the first match, else `(-1, false)`; set.go's `Find` returns the same index alone |
| ListSets.Chunk | settype.go:251-269 | `Chunk(size <= 0)` is one chunk of the whole set. Otherwise the chunks concatenate to the set, each holds 1 to `size` elements, and each is duplicate-free |
| ListSets.Swap | set.go:224-230 | `Swap` errors unless both indices exist. Otherwise it exchanges the two slots, which keeps the set duplicate-free |
| ListSets.Reverse | set.go:171-175 | `Reverse` lists the elements back to front and stays duplicate-free |
| ListSets.Shuffle | set.go:177-182 | For every random draw, `Shuffle` leaves a duplicate-free permutation |
| KeyValueMap.NewMap | map.go:5-13 | `NewMap` and `NewMapWithCapacity` give an empty map |
| KeyValueMap.NewMapFrom | map.go:15-21 | Copying every entry, in any iteration order, gives an equal map |
| KeyValueMap.ToNativeMap | map.go:80-86 | `ToNativeMap` holds the same entries |
| KeyValueMap.Clone | map.go:114-116 | `Clone` gives an equal map |
| KeyValueMap.Set | map.go:24-26 | `Set(k, v)` binds `k` to `v` and leaves every other key as it was |
| KeyValueMap.Get | map.go:29-32 | `Get` returns the bound value and true, or `(zero, false)` for an absent key |
| KeyValueMap.Delete | map.go:35-37 | `Delete` removes only the given key |
| KeyValueMap.Has | map.go:39-42 | `Has` is true exactly when the key is present |
| KeyValueMap.Len | map.go:44-46 | `Len` is the number of keys |
| KeyValueMap.IsEmpty | map.go:48-50 | `IsEmpty` holds exactly when `Len == 0`, that is, for the empty map |
| KeyValueMap.Clear | map.go:52-54 | `Clear` empties the map |
| KeyValueMap.Keys | map.go:56-62 | `Keys` lists each key exactly once and has length `Len` |
| KeyValueMap.Values | map.go:68-74 | `Values` has length `Len`, one value per key in the order the keys are visited, and every bound value occurs |
| KeyValueMap.Merge | map.go:89-93 | Setting every entry of `other`, in any order, gives `m + other` |
| KeyValueMap.MergeWins | map.go:89-93 | After `Merge` the keys are the union of both key sets, and `other`'s value wins on a shared key |
| KeyValueMap.Filter | map.go:103-111 | `Filter` returns a new map of exactly the entries the predicate accepts, with their values |
| KeyValueMap.SetThenGet | map.go:24-32 | After `Set(k, v)`, `Get(k)` returns `(v, true)` and every other key reads as before |
| KeyValueMap.DeleteThenHas | map.go:35-42 | After `Delete(k)`, `Has(k)` is false and every other key answers as before |
| KeyValueMap.ClearThenHas | map.go:39-54 | After `Clear`, no key is present |
| KeyValueMap.HasAgreesWithGet | map.go:29-42 | `Has` agrees with the flag of `Get` |
| KeyValueMap.DeleteUndoesSet | map.go:24-37 | Deleting a key just set restores the map when the key was absent before |
| Pairs.PairOf | pair/pair.go:10-12 | `PairOf(a, b)` holds `a` and `b` |
| Pairs.Unwrap | pair/pair.go:15-17 | `Unwrap` returns the two held values, which rebuild the pair |
| Pairs.UnwrapPairOf | pair/pair.go:10-17 | `PairOf(a, b).Unwrap() == (a, b)` |
| Pairs.PairsToMap | pair/pair.go:19-26 | Every key of the slice is present and no other. Each holds the value of the last pair with that key; an empty slice gives an empty map; the map is no larger than the slice |
| Pairs.CollectWritten | pair/pair.go:21-24 | Writing the pairs in order leaves exactly the slice's keys, each with its last writer's value |
| Pairs.LaterPairWins | pair/pair.go:21-24 | For a repeated key, the value of the last pair wins |
| Sequence.Decode | sequence/sequence.go:9-18 | One argument is `(0, n, 1)`, two are `(start, stop, 1)`, three are `(start, stop, step)`; zero or more than three arguments send nothing |
| Sequence.Sequence | sequence/sequence.go:3-29 | The values sent are the decoded range |
| Sequence.RangeShape | sequence/sequence.go:20-26 | The range is empty for a non-positive step or `start >= stop`. Otherwise it starts at `start`, climbs by exactly `step`, stays in `[start, stop)` and ends at the last such value |
| Sequence.YieldOneArgument | sequence/sequence.go:10-11 | With one argument `n`, the values are `0, 1, …, n-1` |
| Sequence.YieldTwoArguments | sequence/sequence.go:12-13 | With two arguments, the values are `start, start+1, …, stop-1` |
| Sequence.YieldNothing | sequence/sequence.go:16-22 | Zero or more than three arguments, or a non-positive step, send nothing |

## Left out

- Capacity: `Cap`, `Capacity`, `Grow` and the capacity arguments of `ListWithCap`, `NewListWithCapacity`, `SetWithCap` and `NewMapWithCapacity` are not modelled, because capacity is not observable in a sequence value. The one place where capacity changes a result, the aliasing `append` of `Insert`, takes the capacity as a parameter (`Lists.InsertAsWritten`, `ListSets.InsertAsWritten`).
- Lists.Insert: states the intended splice, not the code as written. In list/list.go:194-197 `prev` and `after` share the backing array, so `append(prev, values...)` overwrites the start of the tail before it is re-appended whenever `index + len(values)` fits in the capacity, in particular whenever `len(values) <= Len - index`. `Lists.InsertAsWritten` models that (see "## Findings"); the rest of the model uses the intended splice.
- LegacyList.Insert: the same as `Lists.Insert`, for the identical code of list.go:146-149. Its as-written behaviour is `Lists.InsertAsWritten` with the "index %d out of bounds" error.
- Storage independence: `Copy`, `copyList`, list/conversion.go `ToSlice`, `Clone` and `ToNativeMap` are the identity on values. That the copy is independent of later mutation cannot be stated without a heap model. `Copy(nil) == nil` collapses into copying the empty list, because Dafny has no nil sequence.
- Slices.BinarySearch: sorts `NewList[T](slice...)`, which receives the caller's slice itself. Whether the caller's slice is then sorted in place depends on the `list` package's `NewList`, whose body is not part of this model, so the model does not say whether the argument is left unmodified.
- Shared backing arrays: `LegacyList.Slice`, `ListSets.Slice`, `ListSets.Chunk` and `LegacyList.Chunk` return independent values, but several of the Go results are views of the receiver's backing array: list.go:189 returns `(*l)[start:end]`, set.go:167 stores `(s.list)[start:end]` in the new set, settype.go:158 returns `(*s)[start:end]`, settype.go:265 builds each chunk as `setSlice[i:end]`, and for a size of zero or less list.go:241 and settype.go:253 return the receiver itself as the only chunk. Appending to such a view writes into the receiver's cell `end` whenever `end < Len`, so with settype.go `{1, 2, 3}.Slice(0, 1)` followed by `Append(3)` the receiver becomes `[1, 3, 3]`. `LegacyList.SliceThenAppendAsWritten` models this for list.go (see "## Findings"); the set revisions are not modelled separately. list/list.go's `Slice` and the chunks of list.go:253 and set.go:251-258 are copies, so they are unaffected.
- Randomness is a free choice. The `rand.Intn` pivot of numlist.go is an arbitrary index in `[low, high]`, and each swap of `Shuffle` (list.go, set.go) picks an arbitrary `j <= i`. The `Shuffle` of list/list.go repeats list.go's word for word. settype.go's `Shuffle`, which seeds from the clock and calls `rand.Shuffle`, is not modelled separately; its result is a permutation like set.go's.
- Reflection: `isComparable` and the `reflect.DeepEqual` branches of list/reflective.go (`Contains`, `ContainsAny`, `Equals`, `IndexOf` and `singleContains` for non-comparable `T`) are not modelled. That includes the `IndexOf` branch that compares an item with itself. Dafny equality stands for Go's `==` on comparable types.
- Floating point: `Average` and float instantiations of `cmp.Ordered` are not modelled, because NaN breaks the total order. Every ordering algorithm is proved at `int`.
- `Sum` (list/listfunctions.go, list/functions.go) is not modelled; it is `+=` over an arbitrary ordered type, including strings.
- Text: the `String` methods and the message text of `IndexError.Error` and the ad-hoc errors are fmt formatting and not part of this model.
- Concurrency: `Iter` of set.go and the goroutine and channel of sequence/sequence.go are not modelled. `Sequence` is modelled as the sequence of values it sends.
- `ForEach` (every revision and map.go): its only effect is the callback's side effects.
- `ListKeys` and `ListValues` of map.go wrap `Keys` and `Values` in a `List` and are not modelled separately.
- queue.go, stack.go, priorityqueue.go, queue/priorityqueue/priorityqueue.go, main/main.go, essentials/essentials.go and linearcollection.go are not part of this model: wrappers, a demo, type aliases and an interface.
- Code that repeats another revision word for word is modelled once. The `Contains` scans of the list-backed sets (set.go:26-33, settype.go:23-30, Set.go:20-27) are `ListQueries.SingleContains`, which `ListSets` calls; the free `Contains` of listfunctions.go:4-11 is `LegacyList.Contains`. Set.go's `Extend` is `ListSets.Append`. The free functions of list/functions.go are the `Slices` methods of list/listfunctions.go. settype.go's `Append`, `Set`, `Remove`, `Pop`, `Swap` and `Reverse` are the set.go ones.
- Set.go embeds a `List` of its own package whose source is not part of this model. Its `Set` is modelled as delegating to a `List.Set` that behaves like list.go's: an "index %d out of bounds" error for an invalid index, else one slot written.
- ListSets.Insert: Set.go:50 calls that unseen `List.Insert(index, v)` once per absent value. The model stands in `LegacyList.Insert`, the intended splice. If that `List.Insert` were list.go's code as written, each single-value insert in the middle would hit the aliasing of `Lists.InsertAsWritten`: `{1, 2}.Insert(0, 3)` would give `[3, 3, 2]`, and the set would not stay duplicate-free. `ListSets.InsertFrom` rests on the same stand-in.
- Integer width: Go `int` is 64-bit and the model's integers are unbounded. No operation here does arithmetic that can overflow on a list that fits in memory, except `Sequence`'s `i += step`, which the model does not wrap.
- Slices.Min: requires a non-empty slice, because Go's `slices.Min`, which the Go code calls, panics on an empty one. Slices.Max: the same.
- ListRemove.Remove: its own contract states only the no-index case; the full behaviour is stated by `RemoveSpec`, `RemoveSucceeds` and `RemoveFails`.
- HashSet.Pop: the element popped is some member, not a particular one, because Go's map iteration order is unspecified.

## Findings

| source | as written | input that shows it | evidently intended | confidence | as-written member | corrected member |
|---|---|---|---|---|---|---|
| list/list.go:127-142 | `Pop` returns the element but never shrinks the list, although its doc comment at line 124 says it removes it | `[1, 2, 3].Pop()` returns 3 and the list stays `[1, 2, 3]` | the returned element is removed, as `Pop` of list.go does | not executed | Lists.PopAsWritten (Lists.PopAsWrittenKeepsElement) | Lists.Pop |
| set.go:16-23 | `NewSet` appends every argument through `List.Append`, which does not check for duplicates | `NewSet(1, 1)` holds `1` twice | each distinct value once, as `NewSet` of settype.go and Set.go does | not executed | ListSets.NewSetAsWritten (ListSets.NewSetAsWrittenKeepsDuplicates) | ListSets.NewSet |
| list/list.go:194-197, list.go:146-149 | in the middle, `prev := l[:index]` and `after := l[index:]` share one backing array, so `append(prev, values...)` writes over `after` before `after` is appended back, unless it must reallocate | `[1, 2, 3].Insert(1, 9)` at capacity 3 gives `[1, 9, 9, 3]` | the values are spliced in and the old tail follows intact | not executed | Lists.InsertAsWritten (Lists.InsertAsWrittenRepeats) | Lists.Insert |
| set.go:57-61, settype.go:50-54 | a mid-set `Insert` splices the values in without checking whether the set already holds them. As in the list, the splice also overwrites the tail it then re-appends, unless it must reallocate | at capacity 2, `{1, 2}.Insert(1, 1)` gives `[1, 1]`, and `{1, 2}.Insert(1, 1, 3)` gives `[1, 1, 3, 2]` | only absent values are inserted and the old elements are kept, as in Set.go:48-53 | not executed | ListSets.InsertAsWritten (ListSets.InsertAsWrittenLosesTail, ListSets.InsertAsWrittenReallocates) | ListSets.Insert |
| list.go:181-190 | `Slice` returns `(*l)[start:end]`, which shares the receiver's backing array, although its doc comment at line 181 says it returns a new list | `l := [1, 2, 3]; t := l.Slice(0, 1); t.Append(9)` leaves `l` as `[1, 9, 3]` | a new list independent of the receiver, as list/list.go:245-246 makes by copying first | not executed | LegacyList.SliceThenAppendAsWritten (LegacyList.SliceAppendOverwrites, LegacyList.SliceAliasing) | LegacyList.SliceThenAppend |

=== FILE: errors.dfy ===
/**
  Error values and failure-carrying results shared by every collection.

  The Go library reports failures as `error` values: a typed `IndexError`
  that remembers the offending index and the length of the list, two
  sentinels, and a handful of ad-hoc `errors.New`/`fmt.Errorf` values whose
  only content is the numbers they format.  Each kind becomes one
  constructor here; message text is not modelled.
 */
module Errors {

  datatype Error =
    /** The typed index error of the list package: offending index and length at failure time. */
    | IndexError(index: int, length: int)
    /** Sentinel that every `IndexError` unwraps to. */
    | IndexOutOfBounds
    /** Sentinel (and ad-hoc) error for an operation that needs an element. */
    | EmptyList
    /** Ad-hoc "index out of range" of the older List revision and of set.go's `Get`. */
    | IndexOutOfRange
    /** Ad-hoc "index %d out of bounds". */
    | OutOfBounds(at: int)
    /** Ad-hoc "indices %d or %d out of bounds" / "invalid indices for swap". */
    | BadSwap(i: int, j: int)
    /** Ad-hoc "invalid index" of the older List revision's Slice. */
    | InvalidIndex
    /** Ad-hoc "start must be less than or equal to end" / "end index must be greater than start index". */
    | BadSliceOrder
    /** Ad-hoc "invalid slice range [%d:%d]" of the list-backed sets. */
    | InvalidSliceRange(start: int, end: int)
    /** Ad-hoc "pop: empty set" / "cannot pop from empty set" / "cannot dequeue from empty set". */
    | EmptySet

  /** `errors.Unwrap`: an `IndexError` wraps the `IndexOutOfBounds` sentinel; nothing else wraps anything. */
  function Unwrap(e: Error): Option<Error>
  {
    if e.IndexError? then Some(IndexOutOfBounds) else None
  }

  /** `NewIndexError`: a typed index error recording exactly its two arguments. */
  function NewIndexError(index: int, length: int): (e: Error)
    ensures e.IndexError? && e.index == index && e.length == length
    ensures Unwrap(e) == Some(IndexOutOfBounds)
  {
    IndexError(index, length)
  }

  datatype Option<+T> = None | Some(value: T)

  /** A Go `(value, error)` pair in which exactly one side is meaningful. */
  datatype Result<+T> = Ok(value: T) | Err(error: Error)

  /** A Go `error` return with no value: `nil` is `Pass`. */
  datatype Outcome = Pass | Fail(error: Error)

  /** The receiver after an in-place operation together with the `error` it returned. */
  datatype Mutated<+S> = Mutated(after: S, outcome: Outcome)
}

=== FILE: hashset.dfy ===
/**
  The map-backed `Set[T]` of the `ks` package (set/set.go with
  set/functions.go, set/helpers.go and set/conversion.go).  A Go
  `map[T]struct{}` holds exactly a finite set of keys, so a set value is a
  Dafny `set<T>`.  Go visits map keys in an unspecified order; every loop
  over a set here picks its next element with `:|`, so each property holds
  for every iteration order.
 */
module HashSet {

  import opened Errors
  import opened Seqs
  import Slices

  /** `{f(x) | x ∈ s}`: the reference for both `Map`s. */
  function Image<T, U>(s: set<T>, f: T -> U): set<U>
  {
    set x | x in s :: f(x)
  }

  /** Every value some `f(x)` lists, for `x ∈ s`: the reference for both `FlatMap`s. */
  predicate InFlatImage<T, U(==)>(s: set<T>, f: T -> seq<U>, y: U)
  {
    exists x :: x in s && y in f(x)
  }

  /** `singleContains`: the key lookup `_, exists := s[item]`. */
  function SingleContains<T>(s: set<T>, item: T): (r: bool)
    ensures r <==> item in s
  {
    item in s
  }

  /** `SetOf(items...)` (and `SetWithCap`, whose capacity is not modelled): one insertion per argument. */
  function SetOf<T>(items: seq<T>): (r: set<T>)
    ensures r == Elems(items)
    ensures |r| <= |items|
  {
    ElemsCard(items);
    Add({}, items)
  }

  /** A sequence holds at most as many distinct values as it has positions. */
  lemma {:induction false} ElemsCard<T>(s: seq<T>)
    ensures |Elems(s)| <= |s|
  {
    if |s| > 0 {
      var n := |s| - 1;
      ElemsCard(s[..n]);
      assert s == s[..n] + [s[n]];
      assert Elems(s) == Elems(s[..n]) + {s[n]};
    }
  }

  /** `Add(items...)`: the set gains the items; items already present change nothing. */
  function Add<T>(s: set<T>, items: seq<T>): (r: set<T>)
    ensures r == s + Elems(items)
    ensures Elems(items) <= s ==> r == s && |r| == |s|
    decreases |items|
  {
    if |items| == 0 then s
    else
      assert Elems(items) == {items[0]} + Elems(items[1..]);
      Add(s + {items[0]}, items[1..])
  }

  /** `Remove(items...)`: the set loses the items; absent items change nothing. */
  function Remove<T>(s: set<T>, items: seq<T>): (r: set<T>)
    ensures r == s - Elems(items)
    ensures s !! Elems(items) ==> r == s
    decreases |items|
  {
    if |items| == 0 then s
    else
      assert Elems(items) == {items[0]} + Elems(items[1..]);
      Remove(s - {items[0]}, items[1..])
  }

  /** After `Add(x)` the set holds `x`; after `Remove(x)` it does not. */
  lemma AddRemoveMembership<T>(s: set<T>, x: T)
    ensures SingleContains(Add(s, [x]), x) && !SingleContains(Remove(s, [x]), x)
    ensures Add(s, [x]) - {x} == s - {x} && Remove(s, [x]) + {x} == s + {x}
  {
    var single := [x];
    assert Elems(single) == {x} by {
      assert single[0] == x;
    }
    var added, removed := Add(s, single), Remove(s, single);
    assert added == s + {x};
    assert removed == s - {x};
  }

  /** `Pop`: "pop: empty set" on an empty set; otherwise some element, removed. */
  method Pop<T>(s: set<T>) returns (after: set<T>, r: Result<T>)
    ensures |s| == 0 ==> after == s && r == Err(EmptySet)
    ensures |s| > 0 ==> r.Ok? && r.value in s && after == s - {r.value}
    ensures |s| > 0 ==> |after| == |s| - 1
  {
    if s == {} {
      return s, Err(EmptySet);
    }
    var item :| item in s;
    return s - {item}, Ok(item);
  }

  /** `Contains(items...)`: every item is a member; true for no items. */
  function Contains<T>(s: set<T>, items: seq<T>): (r: bool)
    ensures r <==> Elems(items) <= s
  {
    if |items| == 0 then true
    else
      assert Elems(items) == {items[0]} + Elems(items[1..]);
      SingleContains(s, items[0]) && Contains(s, items[1..])
  }

  /** `ContainsAny(items...)`: some item is a member; false for no items. */
  function ContainsAny<T>(s: set<T>, items: seq<T>): (r: bool)
    ensures |items| == 0 ==> !r
    ensures r <==> exists k :: 0 <= k < |items| && items[k] in s
  {
    if |items| == 0 then false
    else
      assert forall k :: 1 <= k < |items| ==> items[k] == items[1..][k - 1];
      SingleContains(s, items[0]) || ContainsAny(s, items[1..])
  }

  /** `SubsetOf`: true for an empty receiver, else a scan of the receiver for an element `other` lacks. */
  method SubsetOf<T>(s: set<T>, other: set<T>) returns (r: bool)
    ensures r <==> s <= other
  {
    if |s| == 0 {
      return true;
    }
    var rest := s;
    while rest != {}
      invariant rest <= s
      invariant s - rest <= other
      decreases |rest|
    {
      var item :| item in rest;
      if !SingleContains(other, item) {
        return false;
      }
      rest := rest - {item};
    }
    return true;
  }

  /** `SupersetOf(other)`: `other.SubsetOf(s)`. */
  method SupersetOf<T>(s: set<T>, other: set<T>) returns (r: bool)
    ensures r <==> other <= s
  {
    r := SubsetOf(other, s);
  }

  /** `Equals`: false on a size mismatch, else superset and subset. */
  method Equals<T>(s: set<T>, other: set<T>) returns (r: bool)
    ensures r <==> s == other
  {
    if |s| != |other| {
      return false;
    }
    var sup := SupersetOf(s, other);
    var sub := SubsetOf(s, other);
    r := sup && sub;
  }

  /** Every element of `t` enters `acc`: the body of `Union`'s loops and of `Flatten`'s inner loop. */
  method AddAll<T>(acc: set<T>, t: set<T>) returns (r: set<T>)
    ensures r == acc + t
  {
    r := acc;
    var rest := t;
    while rest != {}
      invariant rest <= t
      invariant r == acc + (t - rest)
      decreases |rest|
    {
      var item :| item in rest;
      r := r + {item};
      rest := rest - {item};
    }
  }

  /** `Union`: a new set with the elements of both. */
  method Union<T>(s: set<T>, other: set<T>) returns (r: set<T>)
    ensures r == s + other
  {
    r := AddAll({}, s);
    r := AddAll(r, other);
  }

  /** The elements of `t` that `u` also holds: the loop of `Intersection`. */
  method KeepShared<T>(t: set<T>, u: set<T>) returns (r: set<T>)
    ensures r == t * u
  {
    r := {};
    var rest := t;
    while rest != {}
      invariant rest <= t
      invariant r == (t - rest) * u
      decreases |rest|
    {
      var item :| item in rest;
      if SingleContains(u, item) {
        r := r + {item};
      }
      rest := rest - {item};
    }
  }

  /** `Intersection`: iterates over the smaller operand, with the same result either way. */
  method Intersection<T>(s: set<T>, other: set<T>) returns (r: set<T>)
    ensures r == s * other
    ensures |r| <= |s| && |r| <= |other|
  {
    if |s| < |other| {
      r := KeepShared(s, other);
    } else {
      r := KeepShared(other, s);
    }
    assert r <= s && r <= other;
    SubsetCard(r, s);
    SubsetCard(r, other);
  }

  lemma SubsetCard<T>(a: set<T>, b: set<T>)
    requires a <= b
    ensures |a| <= |b|
  {
    assert b == a + (b - a);
  }

  /** The elements of `t` that `u` lacks: each loop of `Difference`. */
  method KeepUnshared<T>(acc: set<T>, t: set<T>, u: set<T>) returns (r: set<T>)
    ensures r == acc + (t - u)
  {
    r := acc;
    var rest := t;
    while rest != {}
      invariant rest <= t
      invariant r == acc + ((t - rest) - u)
      decreases |rest|
    {
      var item :| item in rest;
      if !SingleContains(u, item) {
        r := r + {item};
      }
      rest := rest - {item};
    }
  }

  /** `Difference`, which is the symmetric difference: the elements in exactly one operand. */
  method Difference<T>(s: set<T>, other: set<T>) returns (r: set<T>)
    ensures r == (s - other) + (other - s)
    ensures forall x :: x in r <==> (x in s) != (x in other)
  {
    r := KeepUnshared({}, s, other);
    r := KeepUnshared(r, other, s);
  }

  /**
    A property check on `Difference`, not an operation of the set: the
    symmetric difference of a set with itself is empty, and it does not
    depend on operand order.  It is a method because `Difference` is one.
   */
  method DifferenceProperties<T>(s: set<T>, other: set<T>) returns (self: set<T>, forward: set<T>, backward: set<T>)
    ensures self == {}
    ensures forward == backward
  {
    self := Difference(s, s);
    forward := Difference(s, other);
    backward := Difference(other, s);
  }

  /** `Filter`: deletes, in place, every element failing the predicate. */
  method Filter<T>(s: set<T>, p: T -> bool) returns (r: set<T>)
    ensures forall x :: x in r <==> x in s && p(x)
  {
    r := s;
    var rest := s;
    while rest != {}
      invariant rest <= s && r <= s
      invariant forall x :: x in s - rest ==> (x in r <==> p(x))
      invariant forall x :: x in rest ==> x in r
      decreases |rest|
    {
      var item :| item in rest;
      if !p(item) {
        r := r - {item};
      }
      rest := rest - {item};
    }
  }

  /** `Map` of set/functions.go: the images of the elements, colliding images collapsed. */
  method Map<T, U(==)>(s: set<T>, f: T -> U) returns (r: set<U>)
    ensures r == Image(s, f)
    ensures |r| <= |s|
  {
    r := {};
    var rest := s;
    while rest != {}
      invariant rest <= s
      invariant r == Image(s - rest, f)
      invariant |r| <= |s - rest|
      decreases |rest|
    {
      var item :| item in rest;
      MapStep(s, rest, item, f, r);
      r := r + {f(item)};
      rest := rest - {item};
    }
  }

  /** One turn of the `Map` loop: adding `f(item)` extends the image to one more element. */
  lemma MapStep<T, U>(s: set<T>, rest: set<T>, item: T, f: T -> U, r: set<U>)
    requires rest <= s && item in rest
    requires r == Image(s - rest, f) && |r| <= |s - rest|
    ensures r + {f(item)} == Image(s - (rest - {item}), f)
    ensures |r + {f(item)}| <= |s - (rest - {item})|
  {
    var done := s - rest;
    assert s - (rest - {item}) == done + {item};
    forall y | y in Image(done + {item}, f) ensures y in r + {f(item)} {
      var z :| z in done + {item} && y == f(z);
      if z != item {
        assert z in done;
      }
    }
  }

  /** The method `Map`: the receiver becomes the image of its elements under `f`. */
  method MapInPlace<T>(s: set<T>, f: T -> T) returns (r: set<T>)
    ensures r == Image(s, f)
    ensures |r| <= |s|
  {
    r := Map(s, f);
  }

  /** `FlatMap` of set/functions.go: the union of the outputs of `f`; an empty output adds nothing. */
  method FlatMap<T, U(==)>(s: set<T>, f: T -> seq<U>) returns (r: set<U>)
    ensures forall y :: y in r <==> InFlatImage(s, f, y)
  {
    r := {};
    var rest := s;
    while rest != {}
      invariant rest <= s
      invariant forall y :: y in r <==> InFlatImage(s - rest, f, y)
      decreases |rest|
    {
      var item :| item in rest;
      var mapped := f(item);
      FlatMapStep(r, s - rest, item, f, r + Elems(mapped));
      assert s - (rest - {item}) == (s - rest) + {item};
      var next := r;
      if |mapped| > 0 {
        next := Add(r, mapped);
      } else {
        assert Elems(mapped) == {};
      }
      r := next;
      rest := rest - {item};
    }
  }

  /** One turn of the `FlatMap` loop: adding the outputs for `x` extends the union from `done` to `done + {x}`. */
  lemma FlatMapStep<T, U>(r: set<U>, done: set<T>, x: T, f: T -> seq<U>, next: set<U>)
    requires forall y :: y in r <==> InFlatImage(done, f, y)
    requires next == r + Elems(f(x))
    ensures forall y :: y in next <==> InFlatImage(done + {x}, f, y)
  {
    forall y ensures y in next <==> InFlatImage(done + {x}, f, y) {
      FlatImageStep(done, x, f, y);
    }
  }

  /** One more element contributes exactly its own outputs. */
  lemma FlatImageStep<T, U>(A: set<T>, x: T, f: T -> seq<U>, y: U)
    ensures InFlatImage(A + {x}, f, y) <==> InFlatImage(A, f, y) || y in f(x)
  {
    if InFlatImage(A + {x}, f, y) {
      var z :| z in A + {x} && y in f(z);
      if z != x {
        assert z in A;
      }
    }
    if InFlatImage(A, f, y) {
      var z :| z in A && y in f(z);
      assert z in A + {x};
    }
    if y in f(x) {
      assert x in A + {x};
    }
  }

  /** The method `FlatMap`: the receiver becomes the union of the outputs of `f`. */
  method FlatMapInPlace<T>(s: set<T>, f: T -> seq<T>) returns (r: set<T>)
    ensures forall y :: y in r <==> InFlatImage(s, f, y)
  {
    r := FlatMap(s, f);
  }

  /** `Flatten`: the union of every set of the collection; empty for an empty collection. */
  method Flatten<T>(collection: seq<set<T>>) returns (r: set<T>)
    ensures forall x :: x in r <==> exists i :: 0 <= i < |collection| && x in collection[i]
    ensures |collection| == 0 ==> r == {}
  {
    r := {};
    var i := 0;
    while i < |collection|
      invariant 0 <= i <= |collection|
      invariant forall x :: x in r <==> exists k :: 0 <= k < i && x in collection[k]
    {
      r := AddAll(r, collection[i]);
      i := i + 1;
    }
  }

  /**
    `Reduce`: the reducer folded over the elements in the order Go's map
    iteration happens to visit them, returned as `order`; `initial` for an
    empty set.
   */
  method Reduce<T, U>(s: set<T>, initial: U, reducer: (U, T) -> U) returns (r: U, order: seq<T>)
    ensures |s| == 0 ==> r == initial
    ensures NoDup(order) && Elems(order) == s
    ensures r == Slices.FoldLeft(order, initial, reducer)
  {
    order := ToSlice(s);
    r := Slices.Reduce(order, initial, reducer);
  }

  /** `Clear`: deletes every element. */
  method Clear<T>(s: set<T>) returns (r: set<T>)
    ensures r == {}
  {
    r := s;
    var rest := s;
    while rest != {}
      invariant rest <= s
      invariant r == rest
      decreases |rest|
    {
      var item :| item in rest;
      r := r - {item};
      rest := rest - {item};
    }
  }

  /** `Copy`: a new set holding the same elements. */
  method Copy<T>(s: set<T>) returns (r: set<T>)
    ensures r == s
  {
    r := AddAll({}, s);
  }

  /** `Any`: some element satisfies the predicate. */
  method Any<T>(s: set<T>, p: T -> bool) returns (r: bool)
    ensures r <==> exists x :: x in s && p(x)
  {
    var rest := s;
    while rest != {}
      invariant rest <= s
      invariant forall x :: x in s - rest ==> !p(x)
      decreases |rest|
    {
      var item :| item in rest;
      if p(item) {
        return true;
      }
      rest := rest - {item};
    }
    return false;
  }

  /** `All`: every element satisfies the predicate; true for an empty set. */
  method All<T>(s: set<T>, p: T -> bool) returns (r: bool)
    ensures r <==> forall x :: x in s ==> p(x)
  {
    var rest := s;
    while rest != {}
      invariant rest <= s
      invariant forall x :: x in s - rest ==> p(x)
      decreases |rest|
    {
      var item :| item in rest;
      if !p(item) {
        return false;
      }
      rest := rest - {item};
    }
    return true;
  }

  /** `ToSlice`: every element once, in iteration order. */
  method ToSlice<T>(s: set<T>) returns (r: seq<T>)
    ensures NoDup(r) && Elems(r) == s
    ensures |r| == |s|
  {
    r := Enumerate(s);
  }


  /** `ToList`: a list built from `ToSlice`, so the same elements, each once. */
  method ToList<T>(s: set<T>) returns (r: seq<T>)
    ensures NoDup(r) && Elems(r) == s && |r| == |s|
  {
    r := ToSlice(s);
  }
}

=== FILE: indices.dfy ===
/**
  Normalising a batch of indices before a multi-index removal
  (`formatIndicesReversed` and `indicesAreFormattedReversed` of
  list/helpers.go): duplicates dropped, sorted, then reversed, so the
  largest index comes first and no index repeats.
 */
module Indices {

  import opened Seqs
  import opened Sorting

  /**
    `formatIndicesReversed`: a batch of at most one index is returned as it
    is; a longer one loses its duplicates, is sorted and reversed.
   */
  function FormatIndicesReversed(s: seq<int>): (r: seq<int>)
    ensures |s| <= 1 ==> r == s
    ensures StrictlyDecreasing(r)
    ensures Elems(r) == Elems(s)
    ensures |r| <= |s| && (|s| > 0 ==> |r| > 0)
  {
    if |s| <= 1 then s
    else
      var d := Dedup(s);
      var t := SortInts(d);
      SortIntsSpec(d);
      NoDupPermutation(d, t);
      MultisetElems(d, t);
      SortedDistinctReversed(t);
      ReversedElems(t);
      assert s[0] in Elems(s);
      Reversed(t)
  }

  /**
    The Go code removes duplicates through a Go map, whose order is
    unspecified; sorting afterwards makes every such order give the same
    batch as the first-occurrence order used by `FormatIndicesReversed`.
   */
  lemma FormatIgnoresDedupOrder(s: seq<int>, d: seq<int>)
    requires NoDup(d) && Elems(d) == Elems(s)
    ensures SortInts(d) == SortInts(Dedup(s))
  {
    NoDupMultiset(d, Dedup(s));
    SortIntsPermutation(d, Dedup(s));
  }

  /** Every index from position `k` on is above its successor: the loop of `indicesAreFormattedReversed`. */
  function DecreasingFrom(s: seq<int>, k: nat): (r: bool)
    requires k < |s|
    ensures r <==> forall m :: k <= m < |s| - 1 ==> s[m] > s[m + 1]
    decreases |s| - k
  {
    if k == |s| - 1 then true
    else if s[k] <= s[k + 1] then false
    else DecreasingFrom(s, k + 1)
  }

  /** `indicesAreFormattedReversed`: true exactly for strictly decreasing batches. */
  function IndicesAreFormattedReversed(s: seq<int>): (r: bool)
    ensures r <==> StrictlyDecreasing(s)
  {
    AdjacentDecreasing(s);
    if |s| <= 1 then true else DecreasingFrom(s, 0)
  }

  /** Strict decrease between neighbours is strict decrease throughout. */
  lemma {:induction false} AdjacentDecreasing(s: seq<int>)
    ensures (forall m :: 0 <= m < |s| - 1 ==> s[m] > s[m + 1]) <==> StrictlyDecreasing(s)
  {
    if |s| > 1 && forall m :: 0 <= m < |s| - 1 ==> s[m] > s[m + 1] {
      var t := s[1..];
      assert forall m :: 0 <= m < |t| - 1 ==> t[m] > t[m + 1] by {
        forall m | 0 <= m < |t| - 1 ensures t[m] > t[m + 1] {
          assert t[m] == s[m + 1] && t[m + 1] == s[m + 2];
        }
      }
      AdjacentDecreasing(t);
      forall i, j | 0 <= i < j < |s| ensures s[i] > s[j] {
        if i == 0 {
          assert s[0] > s[1];
          if j > 1 {
            assert s[1] == t[0] && s[j] == t[j - 1];
          }
        } else {
          assert s[i] == t[i - 1] && s[j] == t[j - 1];
        }
      }
    }
  }
}

=== FILE: kvmap.dfy ===
/**
  The generic `Map[K, V]` of map.go, as a Dafny `map<K, V>` value.  The Go
  methods mutate the map through a pointer; here every mutator returns the
  new map.  Go's map iteration order is unspecified, so the operations that
  list entries (`Keys`, `Values`) promise nothing about order, and the
  loops that copy, merge or filter entries visit the keys in an arbitrary
  order.
 */
module KeyValueMap {

  import opened Seqs
  import HashSet

  /** `NewMap` (and `NewMapWithCapacity`, whose capacity is not observable): an empty map. */
  function NewMap<K, V>(): (r: map<K, V>)
    ensures |r| == 0
    ensures forall k :: k !in r
  {
    map[]
  }

  /**
    `NewMapFrom(m)`: a new map filled by copying every entry of `m`, one key
    at a time in the map's iteration order.  It is also the loop of
    `ToNativeMap`.
   */
  method NewMapFrom<K(==), V>(m: map<K, V>) returns (r: map<K, V>)
    ensures r == m
  {
    r := map[];
    var rest := m.Keys;
    while rest != {}
      invariant rest <= m.Keys
      invariant r.Keys == m.Keys - rest
      invariant forall k :: k in r ==> r[k] == m[k]
      decreases |rest|
    {
      var key :| key in rest;
      r := r[key := m[key]];
      rest := rest - {key};
    }
  }

  /** `ToNativeMap`: a plain Go map holding the same entries. */
  method ToNativeMap<K(==), V>(m: map<K, V>) returns (r: map<K, V>)
    ensures r == m
  {
    r := NewMapFrom(m);
  }

  /** `Clone`: `NewMapFrom` of `ToNativeMap`, so an equal map. */
  method Clone<K(==), V>(m: map<K, V>) returns (r: map<K, V>)
    ensures r == m
  {
    var native := ToNativeMap(m);
    r := NewMapFrom(native);
  }

  /** `Set(key, value)`: binds `key` to `value` and leaves every other key as it was. */
  function Set<K, V>(m: map<K, V>, key: K, value: V): (r: map<K, V>)
    ensures key in r && r[key] == value
    ensures r.Keys == m.Keys + {key}
    ensures forall k :: k in m && k != key ==> r[k] == m[k]
  {
    m[key := value]
  }

  /** `Get(key)`: the bound value and `true`, or the zero value (passed as `zero`) and `false`. */
  function Get<K, V>(m: map<K, V>, key: K, zero: V): (r: (V, bool))
    ensures r.1 <==> key in m
    ensures key in m ==> r.0 == m[key]
    ensures key !in m ==> r.0 == zero
  {
    if key in m then (m[key], true) else (zero, false)
  }

  /** `Delete(key)`: `key` is gone; every other key keeps its binding. */
  function Delete<K, V>(m: map<K, V>, key: K): (r: map<K, V>)
    ensures key !in r
    ensures r.Keys == m.Keys - {key}
    ensures forall k :: k in r ==> r[k] == m[k]
  {
    m - {key}
  }

  /** `Has(key)`: whether `key` is bound. */
  function Has<K, V>(m: map<K, V>, key: K): (r: bool)
    ensures r <==> key in m
  {
    key in m
  }

  /** `Len`: the number of bound keys. */
  function Len<K, V>(m: map<K, V>): (r: nat)
    ensures r == |m.Keys|
  {
    |m|
  }

  /** `IsEmpty`: `Len() == 0`, that is, no key is bound. */
  function IsEmpty<K, V>(m: map<K, V>): (r: bool)
    ensures r <==> Len(m) == 0
    ensures r <==> m == map[]
  {
    if |m| == 0 then
      assert m.Keys == {};
      true
    else
      assert exists k :: k in m.Keys;
      false
  }

  /** `Clear`: a fresh empty map. */
  function Clear<K, V>(m: map<K, V>): (r: map<K, V>)
    ensures IsEmpty(r)
    ensures r.Keys == {}
  {
    map[]
  }

  /** `Keys`: every key once, in iteration order. */
  method Keys<K(==), V>(m: map<K, V>) returns (r: seq<K>)
    ensures |r| == Len(m)
    ensures NoDup(r)
    ensures Elems(r) == m.Keys
  {
    r := HashSet.ToSlice(m.Keys);
  }

  /**
    `Values`: one value per key, in the iteration order `order` (which is
    what `Keys` would return on the same pass), so values bound to several
    keys occur several times.
   */
  method Values<K(==), V>(m: map<K, V>) returns (r: seq<V>, order: seq<K>)
    ensures |r| == Len(m) && |order| == |r|
    ensures NoDup(order) && Elems(order) == m.Keys
    ensures forall i :: 0 <= i < |r| ==> order[i] in m && r[i] == m[order[i]]
    ensures forall k :: k in m ==> m[k] in r
  {
    order := Keys(m);
    r := [];
    var i := 0;
    while i < |order|
      invariant 0 <= i <= |order| && |r| == i
      invariant forall j :: 0 <= j < i ==> r[j] == m[order[j]]
    {
      assert order[i] in Elems(order);
      r := r + [m[order[i]]];
      i := i + 1;
    }
    forall k | k in m ensures m[k] in r {
      assert k in Elems(order);
      var j :| 0 <= j < |order| && order[j] == k;
      assert r[j] == m[k];
    }
  }

  /** `Merge(other)`: every entry of `other` is `Set` into the receiver, so `other` wins on a shared key. */
  method Merge<K(==), V>(m: map<K, V>, other: map<K, V>) returns (r: map<K, V>)
    ensures r == m + other
  {
    r := m;
    var rest := other.Keys;
    while rest != {}
      invariant rest <= other.Keys
      invariant r == m + Restrict(other, other.Keys - rest)
      decreases |rest|
    {
      var key :| key in rest;
      MergeStep(m, other, rest, key);
      r := Set(r, key, other[key]);
      rest := rest - {key};
    }
    assert other.Keys - rest == other.Keys;
    assert Restrict(other, other.Keys) == other;
  }

  /** The entries of `m` whose keys lie in `keys`. */
  function Restrict<K, V>(m: map<K, V>, keys: set<K>): map<K, V>
    requires keys <= m.Keys
  {
    map k | k in keys :: m[k]
  }

  /** One turn of the loop of `Merge`: `key` moves from the keys still to write to the written ones. */
  lemma MergeStep<K, V>(m: map<K, V>, other: map<K, V>, rest: set<K>, key: K)
    requires rest <= other.Keys && key in rest
    ensures m + Restrict(other, other.Keys - (rest - {key})) == (m + Restrict(other, other.Keys - rest))[key := other[key]]
  {
    assert other.Keys - (rest - {key}) == (other.Keys - rest) + {key};
  }

  /** What `Merge` leaves: the keys of both maps, with `other`'s value on a shared key and the receiver's elsewhere. */
  lemma MergeWins<K, V>(m: map<K, V>, other: map<K, V>)
    ensures (m + other).Keys == m.Keys + other.Keys
    ensures forall k :: k in other ==> (m + other)[k] == other[k]
    ensures forall k :: k in m && k !in other ==> (m + other)[k] == m[k]
    ensures |m + other| <= |m| + |other|
  {
    assert (m + other).Keys == m.Keys + other.Keys;
  }

  /** `Filter(predicate)`: a new map of exactly the entries `accept` accepts; the receiver is not touched. */
  method Filter<K(==), V>(m: map<K, V>, accept: (K, V) -> bool) returns (r: map<K, V>)
    ensures forall k :: k in r <==> k in m && accept(k, m[k])
    ensures forall k :: k in r ==> r[k] == m[k]
    ensures |r| <= |m|
  {
    r := NewMap();
    var rest := m.Keys;
    while rest != {}
      invariant rest <= m.Keys
      invariant forall k :: k in r <==> k in m.Keys - rest && accept(k, m[k])
      invariant forall k :: k in r ==> r[k] == m[k]
      decreases |rest|
    {
      var key :| key in rest;
      if accept(key, m[key]) {
        r := Set(r, key, m[key]);
      }
      rest := rest - {key};
    }
    assert r.Keys <= m.Keys;
    HashSet.SubsetCard(r.Keys, m.Keys);
  }

  /** Reading back a key just set gives the new value; every other key reads as before. */
  lemma SetThenGet<K, V>(m: map<K, V>, key: K, value: V, other: K, zero: V)
    ensures Get(Set(m, key, value), key, zero) == (value, true)
    ensures other != key ==> Get(Set(m, key, value), other, zero) == Get(m, other, zero)
  {
  }

  /** After `Delete(key)`, `Has(key)` is false and every other key answers as before. */
  lemma DeleteThenHas<K, V>(m: map<K, V>, key: K, other: K)
    ensures !Has(Delete(m, key), key)
    ensures other != key ==> Has(Delete(m, key), other) == Has(m, other)
  {
  }

  /** After `Clear`, no key is present. */
  lemma ClearThenHas<K, V>(m: map<K, V>, key: K)
    ensures !Has(Clear(m), key)
  {
  }

  /** `Has` answers as the flag of `Get`, whatever zero value `Get` is given. */
  lemma HasAgreesWithGet<K, V>(m: map<K, V>, key: K, zero: V)
    ensures Has(m, key) == Get(m, key, zero).1
  {
  }

  /** Deleting a key that was just set restores the map when the key was absent before. */
  lemma DeleteUndoesSet<K, V>(m: map<K, V>, key: K, value: V)
    ensures key !in m ==> Delete(Set(m, key, value), key) == m
  {
  }
}

=== FILE: legacylist.dfy ===
/**
  The older revision of `List[T]` (list.go at the repository root) and the
  two free functions of listfunctions.go.  Its errors are ad-hoc values
  rather than the typed `IndexError` of the later revision, it has a
  removing `Pop` and a `Dequeue`, and its `Slice` demands a strictly valid
  start index.
 */
module LegacyList {

  import opened Errors
  import opened Seqs
  import Lists
  import Slices

  /** `Get`: "list is empty" first, then "index out of range", else the element. */
  function Get<T>(l: seq<T>, i: int): (r: Result<T>)
    ensures |l| == 0 ==> r == Err(EmptyList)
    ensures |l| > 0 && !(0 <= i < |l|) ==> r == Err(IndexOutOfRange)
    ensures r.Ok? <==> 0 <= i < |l|
    ensures r.Ok? ==> r.value == l[i]
  {
    if |l| == 0 then Err(EmptyList)
    else if !Lists.ValidIndex(l, i) then Err(IndexOutOfRange)
    else Ok(l[i])
  }

  /** `Remove(i)`: the same two errors as `Get`, leaving the list as it was; else position `i` is cut out. */
  function Remove<T>(l: seq<T>, i: int): (m: Mutated<seq<T>>)
    ensures m.outcome.Pass? <==> Get(l, i).Ok?
    ensures m.outcome.Fail? ==> m.after == l && m.outcome.error == Get(l, i).error
    ensures m.outcome.Pass? ==> |m.after| == |l| - 1
    ensures m.outcome.Pass? ==> m.after[..i] == l[..i] && m.after[i..] == l[i + 1..]
  {
    if |l| == 0 then Mutated(l, Fail(EmptyList))
    else if !Lists.ValidIndex(l, i) then Mutated(l, Fail(IndexOutOfRange))
    else Mutated(l[..i] + l[i + 1..], Pass)
  }

  /** A successful `Remove(i)` deletes exactly position `i`: the one-element case of deleting a set of positions. */
  lemma RemoveIsSurvivors<T>(l: seq<T>, i: int)
    requires 0 <= i < |l|
    ensures Remove(l, i).after == Survivors(l, {i})
  {
    SurvivorsSuffix(l, {i}, i + 1);
    var front := l[..i + 1];
    assert front[..i] == l[..i];
    assert Survivors(front, {i}) == Survivors(l[..i], {i});
    SurvivorsNone(l[..i], {i});
  }

  /** `Pop`: removes and returns the last element; "list is empty" otherwise. */
  function Pop<T>(l: seq<T>): (r: (seq<T>, Result<T>))
    ensures |l| == 0 ==> r == (l, Err(EmptyList))
    ensures |l| > 0 ==> r.1.Ok? && r.0 + [r.1.value] == l
  {
    if |l| == 0 then (l, Err(EmptyList))
    else (l[..|l| - 1], Ok(l[|l| - 1]))
  }

  /** `Dequeue`: `Get(0)` and then `Remove(0)`, so it removes and returns the first element. */
  function Dequeue<T>(l: seq<T>): (r: (seq<T>, Result<T>))
    ensures |l| == 0 ==> r == (l, Err(EmptyList))
    ensures |l| > 0 ==> r.1.Ok? && [r.1.value] + r.0 == l
  {
    if |l| == 0 then (l, Err(EmptyList))
    else
      var item := Get(l, 0).value;
      var m := Remove(l, 0);
      assert m.after == l[1..];
      (m.after, Ok(item))
  }

  /** `Append` followed by `Pop` is the identity (stack order); on a non-empty list `Dequeue` takes from the other end (queue order). */
  lemma PopDequeueOrder<T>(l: seq<T>, x: T)
    ensures Pop(l + [x]) == (l, Ok(x))
    ensures |l| > 0 ==> Dequeue(l + [x]) == (l[1..] + [x], Ok(l[0]))
  {
    assert (l + [x])[..|l|] == l;
    if |l| > 0 {
      assert (l + [x])[1..] == l[1..] + [x];
    }
  }

  /** `Insert`: an index outside `[0, Len]` is an "index %d out of bounds" error; else the values are spliced in. */
  function Insert<T>(l: seq<T>, index: int, values: seq<T>): (m: Mutated<seq<T>>)
    ensures m.outcome.Pass? <==> 0 <= index <= |l|
    ensures m.outcome.Fail? ==> m == Mutated(l, Fail(OutOfBounds(index)))
    ensures m.outcome.Pass? ==> m.after == l[..index] + values + l[index..]
  {
    if !Lists.ValidIndexLoose(l, index) then Mutated(l, Fail(OutOfBounds(index)))
    else if index == |l| then
      assert l[index..] == [];
      Mutated(l + values, Pass)
    else Mutated(l[..index] + values + l[index..], Pass)
  }

  /** `Set`: an invalid index is "index %d out of bounds"; else exactly one slot is written. */
  function Set<T>(l: seq<T>, index: int, value: T): (m: Mutated<seq<T>>)
    ensures m.outcome.Pass? <==> 0 <= index < |l|
    ensures m.outcome.Fail? ==> m == Mutated(l, Fail(OutOfBounds(index)))
    ensures |m.after| == |l|
    ensures forall k :: 0 <= k < |l| && k != index ==> m.after[k] == l[k]
    ensures m.outcome.Pass? ==> m.after[index] == value
  {
    if !Lists.ValidIndex(l, index) then Mutated(l, Fail(OutOfBounds(index)))
    else Mutated(l[index := value], Pass)
  }

  /** `Swap`: one error naming both indices when either is invalid; else the two slots are exchanged. */
  function Swap<T>(l: seq<T>, i: int, j: int): (m: Mutated<seq<T>>)
    ensures m.outcome.Pass? <==> 0 <= i < |l| && 0 <= j < |l|
    ensures m.outcome.Fail? ==> m == Mutated(l, Fail(BadSwap(i, j)))
    ensures m.outcome.Pass? ==> |m.after| == |l| && m.after[i] == l[j] && m.after[j] == l[i]
    ensures m.outcome.Pass? ==> forall k :: 0 <= k < |l| && k != i && k != j ==> m.after[k] == l[k]
  {
    if !Lists.ValidIndex(l, i) || !Lists.ValidIndex(l, j) then Mutated(l, Fail(BadSwap(i, j)))
    else Mutated(Seqs.Swap(l, i, j), Pass)
  }

  /** The two revisions change lists identically under `Insert`, `Set` and `Swap`; only the error values differ. */
  lemma MutatorsAgreeAcrossRevisions<T>(l: seq<T>, index: int, values: seq<T>, value: T, i: int, j: int)
    ensures Insert(l, index, values).after == Lists.Insert(l, index, values).after
    ensures Insert(l, index, values).outcome.Pass? <==> Lists.Insert(l, index, values).outcome.Pass?
    ensures Set(l, index, value) .after == Lists.Set(l, index, value).after
    ensures Set(l, index, value).outcome.Pass? <==> Lists.Set(l, index, value).outcome.Pass?
    ensures Swap(l, i, j).after == Lists.Swap(l, i, j).after
    ensures Swap(l, i, j).outcome.Pass? <==> Lists.Swap(l, i, j).outcome.Pass?
  {
  }

  /**
    `Slice`: "invalid index" unless `start` is an existing position and
    `end` is at most `Len`, then "end index must be greater than start
    index" for `end < start`; else `l[start..end]`.
   */
  function Slice<T>(l: seq<T>, start: int, end: int): (r: Result<seq<T>>)
    ensures r.Ok? <==> 0 <= start < |l| && start <= end <= |l|
    ensures !(0 <= start < |l|) || !(0 <= end <= |l|) ==> r == Err(InvalidIndex)
    ensures 0 <= start < |l| && 0 <= end < start ==> r == Err(BadSliceOrder)
    ensures r.Ok? ==> |r.value| == end - start
    ensures r.Ok? ==> forall k :: 0 <= k < end - start ==> r.value[k] == l[start + k]
  {
    if !Lists.ValidIndex(l, start) || !Lists.ValidIndexLoose(l, end) then Err(InvalidIndex)
    else if end < start then Err(BadSliceOrder)
    else Ok(l[start..end])
  }

  /**
    `Slice` followed by `Append(x)` on its result, as written.  `Slice`
    returns `(*l)[start:end]`, a view of the receiver's backing array whose
    capacity reaches to the receiver's, so the append writes `x` in place
    into cell `end`; when that cell is part of the receiver the receiver
    changes too.  On error the result is `nil`, and appending to it
    allocates.  The pair is the receiver afterwards and the extended result.
   */
  function SliceThenAppendAsWritten<T>(l: seq<T>, start: int, end: int, x: T): (r: (seq<T>, seq<T>))
    ensures Slice(l, start, end).Err? ==> r == (l, [x])
    ensures Slice(l, start, end).Ok? ==> r.1 == Slice(l, start, end).value + [x]
    ensures |r.0| == |l| && forall k :: 0 <= k < |l| && k != end ==> r.0[k] == l[k]
    ensures Slice(l, start, end).Ok? && end < |l| ==> r.0[end] == x
  {
    match Slice(l, start, end)
    case Err(_) => (l, [x])
    case Ok(t) => (if end < |l| then l[end := x] else l, t + [x])
  }

  /**
    `Slice` as its documentation states it, "a new list", which is what
    list/list.go's revision does by slicing a copy: appending to the result
    leaves the receiver as it was.
   */
  function SliceThenAppend<T>(l: seq<T>, start: int, end: int, x: T): (r: (seq<T>, seq<T>))
    ensures r.0 == l
    ensures Slice(l, start, end).Err? ==> r.1 == [x]
    ensures Slice(l, start, end).Ok? ==> r.1 == Slice(l, start, end).value + [x]
  {
    match Slice(l, start, end)
    case Err(_) => (l, [x])
    case Ok(t) => (l, t + [x])
  }

  /** The view and the copy agree exactly when the append lands past the receiver's end or rewrites the value already there. */
  lemma SliceAliasing<T>(l: seq<T>, start: int, end: int, x: T)
    requires Slice(l, start, end).Ok?
    ensures SliceThenAppendAsWritten(l, start, end, x) == SliceThenAppend(l, start, end, x) <==> end == |l| || l[end] == x
  {
    if end < |l| {
      if l[end] == x {
        assert l[end := x] == l;
      } else {
        assert SliceThenAppendAsWritten(l, start, end, x).0[end] != l[end];
      }
    }
  }

  /** The discrepancy: appending 9 to `Slice(0, 1)` of `[1, 2, 3]` turns the receiver into `[1, 9, 3]`. */
  lemma SliceAppendOverwrites()
    ensures SliceThenAppendAsWritten([1, 2, 3], 0, 1, 9) == ([1, 9, 3], [1, 9])
    ensures SliceThenAppend([1, 2, 3], 0, 1, 9) == ([1, 2, 3], [1, 9])
  {
    var l := [1, 2, 3];
    assert Lists.ValidIndex(l, 0) && Lists.ValidIndexLoose(l, 1);
    assert l[0..1] == [1];
    assert Slice(l, 0, 1) == Ok([1]);
    assert l[1 := 9] == [1, 9, 3];
    assert [1] + [9] == [1, 9];
    assert SliceThenAppendAsWritten(l, 0, 1, 9) == (l[1 := 9], [1] + [9]);
  }

  /**
    The two `Slice` revisions return the same slices, except that this one
    rejects `start == Len`: in particular every slice of an empty list
    fails here, while the later revision returns the empty slice.
   */
  lemma SliceRevisions<T>(l: seq<T>, start: int, end: int)
    ensures Slice(l, start, end).Ok? <==> Lists.Slice(l, start, end).Ok? && start != |l|
    ensures Slice(l, start, end).Ok? ==> Slice(l, start, end) == Lists.Slice(l, start, end)
    ensures Slice(l, |l|, |l|).Err? && Lists.Slice(l, |l|, |l|) == Ok([])
  {
  }

  /** `Filter`: a new list of the matching elements, in order. */
  method Filter<T>(l: seq<T>, f: T -> bool) returns (r: seq<T>)
    ensures r == Keep(l, f)
    ensures forall k :: 0 <= k < |r| ==> f(r[k])
    ensures forall k :: 0 <= k < |l| && f(l[k]) ==> l[k] in r
  {
    r := [];
    var i := 0;
    while i < |l|
      invariant 0 <= i <= |l|
      invariant r == Keep(l[..i], f)
    {
      KeepAppend(l[..i], [l[i]], f);
      assert l[..i + 1] == l[..i] + [l[i]];
      if f(l[i]) {
        r := r + [l[i]];
      }
      i := i + 1;
    }
    assert l[..i] == l;
    KeepMembers(l, f);
  }

  /** Every element satisfying the predicate survives `Keep`. */
  lemma {:induction false} KeepMembers<T>(l: seq<T>, f: T -> bool)
    ensures forall k :: 0 <= k < |l| && f(l[k]) ==> l[k] in Keep(l, f)
  {
    if |l| > 0 {
      var n := |l| - 1;
      KeepMembers(l[..n], f);
      KeepAppend(l[..n], [l[n]], f);
      assert l[..n] + [l[n]] == l;
      forall k | 0 <= k < |l| && f(l[k]) ensures l[k] in Keep(l, f) {
        if k < n {
          assert l[k] == l[..n][k];
        }
      }
    }
  }

  /** `ThereExists`: a scan for an element satisfying the predicate. */
  method ThereExists<T>(l: seq<T>, f: T -> bool) returns (r: bool)
    ensures r <==> Lists.Any(l, f)
  {
    var i := 0;
    while i < |l|
      invariant 0 <= i <= |l|
      invariant forall k :: 0 <= k < i ==> !f(l[k])
    {
      if f(l[i]) {
        return true;
      }
      i := i + 1;
    }
    return false;
  }

  /** `ForAll`: a scan for an element violating the predicate. */
  method ForAll<T>(l: seq<T>, f: T -> bool) returns (r: bool)
    ensures r <==> Lists.All(l, f)
  {
    var i := 0;
    while i < |l|
      invariant 0 <= i <= |l|
      invariant forall k :: 0 <= k < i ==> f(l[k])
    {
      if !f(l[i]) {
        return false;
      }
      i := i + 1;
    }
    return true;
  }

  /** `Find`: the first matching element; `None` stands for `(zero, false)`. */
  method Find<T>(l: seq<T>, f: T -> bool) returns (r: Option<T>)
    ensures r.None? <==> forall k :: 0 <= k < |l| ==> !f(l[k])
    ensures r.Some? ==> exists i :: 0 <= i < |l| && l[i] == r.value && f(l[i]) && forall k :: 0 <= k < i ==> !f(l[k])
    ensures r.Some? ==> r.value == Lists.FindBy(l, f).value.0
  {
    var i := 0;
    while i < |l|
      invariant 0 <= i <= |l|
      invariant forall k :: 0 <= k < i ==> !f(l[k])
    {
      if f(l[i]) {
        FirstMatchUnique(l, f, i, Lists.FindBy(l, f).value.1);
        return Some(l[i]);
      }
      i := i + 1;
    }
    return None;
  }

  /** Two positions that are each the first match are the same position. */
  lemma FirstMatchUnique<T>(l: seq<T>, f: T -> bool, i: int, j: int)
    requires 0 <= i < |l| && 0 <= j < |l| && f(l[i]) && f(l[j])
    requires forall k :: 0 <= k < i ==> !f(l[k])
    requires forall k :: 0 <= k < j ==> !f(l[k])
    ensures i == j
  {
  }

  /** `Chunk(size)`: the whole list as one chunk for `size <= 0`; else the chunks of `size` elements. */
  method Chunk<T>(l: seq<T>, size: int) returns (chunks: seq<seq<T>>)
    ensures size <= 0 ==> chunks == [l]
    ensures Flatten(chunks) == l
    ensures size > 0 ==> forall k :: 0 <= k < |chunks| ==> 1 <= |chunks[k]| <= size
    ensures size > 0 ==> forall k :: 0 <= k < |chunks| - 1 ==> |chunks[k]| == size
  {
    if size <= 0 {
      assert Flatten([l]) == l + Flatten([]);
      return [l];
    }
    chunks := Lists.CutChunks(l, size);
    ChunksSpec(l, size);
  }

  /**
    `Shuffle`: for `i` from the last index down to 1, swap `i` with a
    position drawn from `[0, i]`.  Whatever the draws, the result is a
    permutation of the list.
   */
  method Shuffle<T>(l: seq<T>) returns (r: seq<T>)
    ensures |r| == |l|
    ensures multiset(r) == multiset(l)
  {
    r := l;
    if |l| <= 1 {
      return;
    }
    var i := |l| - 1;
    while i > 0
      invariant 0 <= i < |l| && |r| == |l|
      invariant multiset(r) == multiset(l)
    {
      var j :| 0 <= j <= i;
      r := Seqs.Swap(r, i, j);
      i := i - 1;
    }
  }

  /** listfunctions.go `Contains`: a scan for an equal element, false on an empty slice. */
  method Contains<T(==)>(list: seq<T>, value: T) returns (r: bool)
    ensures r <==> value in list
    ensures r == Slices.SingleContains(list, value)
  {
    var i := 0;
    while i < |list|
      invariant 0 <= i <= |list|
      invariant value !in list[..i]
    {
      if list[i] == value {
        return true;
      }
      assert list[..i + 1] == list[..i] + [list[i]];
      i := i + 1;
    }
    assert list[..i] == list;
    return false;
  }

  /** listfunctions.go `Reduce`: the left fold, `initial` on an empty slice. */
  method Reduce<T, U>(list: seq<T>, initial: U, f: (U, T) -> U) returns (r: U)
    ensures |list| == 0 ==> r == initial
    ensures r == Slices.FoldLeft(list, initial, f)
  {
    r := initial;
    var i := 0;
    while i < |list|
      invariant 0 <= i <= |list|
      invariant r == Slices.FoldLeft(list[..i], initial, f)
    {
      Slices.FoldLeftSnoc(list[..i], list[i], initial, f);
      assert list[..i + 1] == list[..i] + [list[i]];
      r := f(r, list[i]);
      i := i + 1;
    }
    assert list[..i] == list;
  }
}

=== FILE: listremove.dfy ===
/**
  Batch removal from a `List[T]` (`Remove`, `RemoveAny` and `Filter` of
  list/list.go).  `Remove` normalises its indices to a strictly decreasing
  batch, checks every one of them before touching the list, and then
  deletes them from the largest down, so each deletion leaves the positions
  still to come where they were.  The reference is `Survivors`: delete a
  set of positions from the original list all at once.
 */
module ListRemove {

  import opened Errors
  import opened Seqs
  import opened Sorting
  import opened Indices
  import opened Lists

  /** Every index of the batch names an existing position. */
  predicate AllValid<T>(l: seq<T>, indices: seq<int>)
  {
    forall k :: 0 <= k < |indices| ==> 0 <= indices[k] < |l|
  }

  /**
    `Remove(indices...)`.  No index: nothing happens.  One index: an
    `IndexError` if it is invalid, else that position goes.  More: the batch
    is normalised unless it already is strictly decreasing; the first
    invalid index of the normalised batch is reported (the Go fallback
    `IndexOutOfBoundsError` after that search is unreachable, since the
    search runs only when some index is invalid); otherwise the largest
    index is deleted and the rest of the batch is removed recursively.
   */
  function Remove<T>(l: seq<T>, indices: seq<int>): (m: Mutated<seq<T>>)
    ensures |indices| == 0 ==> m == Mutated(l, Pass)
    decreases |indices|
  {
    if |indices| == 0 then Mutated(l, Pass)
    else if |indices| == 1 then
      var index := indices[0];
      if !ValidIndex(l, index) then Mutated(l, Fail(NewIndexError(index, |l|)))
      else Mutated(l[..index] + l[index + 1..], Pass)
    else
      var ix := Normalised(indices);
      var bad := FirstInvalidIndex(l, ix);
      if bad >= 0 then Mutated(l, Fail(NewIndexError(ix[bad], |l|)))
      else Remove(l[..ix[0]] + l[ix[0] + 1..], ix[1..])
  }

  /** The batch `Remove` works through after its length check. */
  function Normalised(indices: seq<int>): (ix: seq<int>)
    ensures StrictlyDecreasing(ix) && Elems(ix) == Elems(indices)
    ensures |ix| <= |indices| && (|indices| > 0 ==> |ix| > 0)
  {
    if IndicesAreFormattedReversed(indices) then indices else FormatIndicesReversed(indices)
  }

  /** The first position of the batch holding an invalid index, or -1 when every index is valid. */
  function FirstInvalidIndex<T>(l: seq<T>, ix: seq<int>): (bad: int)
    ensures -1 <= bad < |ix|
    ensures bad == -1 <==> AllValid(l, ix)
    ensures bad >= 0 ==> !ValidIndex(l, ix[bad]) && forall j :: 0 <= j < bad ==> ValidIndex(l, ix[j])
  {
    FirstIndex(ix, (i: int) => !ValidIndex(l, i))
  }

  /** A successful batch deletes exactly the named positions from the original list. */
  lemma {:induction false} RemoveSucceeds<T>(l: seq<T>, indices: seq<int>)
    requires AllValid(l, indices)
    ensures Remove(l, indices) == Mutated(Survivors(l, Elems(indices)), Pass)
    decreases |indices|
  {
    if |indices| == 0 {
      assert Elems(indices) == {};
      SurvivorsNone(l, {});
    } else if |indices| == 1 {
      RemoveSingle(l, indices);
    } else {
      var ix := Normalised(indices);
      var i := ix[0];
      RemoveBatchStep(l, indices);
      RemoveSucceeds(l[..i] + l[i + 1..], ix[1..]);
      SurvivorsBatchStep(l, Elems(indices), ix);
    }
  }

  lemma RemoveSingle<T>(l: seq<T>, indices: seq<int>)
    requires |indices| == 1 && AllValid(l, indices)
    ensures Remove(l, indices) == Mutated(Survivors(l, Elems(indices)), Pass)
  {
    var i := indices[0];
    assert Elems(indices) == {i};
    RemoveLargestFirst(l, {i}, i);
    assert {i} - {i} == {};
    SurvivorsNone(l[..i] + l[i + 1..], {});
  }

  /** One turn of a valid batch: the largest index goes, and the rest of the batch is still valid. */
  lemma RemoveBatchStep<T>(l: seq<T>, indices: seq<int>)
    requires |indices| > 1 && AllValid(l, indices)
    ensures var ix := Normalised(indices);
      && 0 <= ix[0] < |l|
      && AllValid(l[..ix[0]] + l[ix[0] + 1..], ix[1..])
      && Remove(l, indices) == Remove(l[..ix[0]] + l[ix[0] + 1..], ix[1..])
  {
    var ix := Normalised(indices);
    SameElemsValid(l, indices, ix);
    DecreasingTailValid(l, ix);
    RemoveUnfolds(l, indices);
  }

  /** A batch holding the same indices as a valid batch is valid. */
  lemma SameElemsValid<T>(l: seq<T>, a: seq<int>, b: seq<int>)
    requires AllValid(l, a) && Elems(b) == Elems(a)
    ensures AllValid(l, b)
  {
    forall j | 0 <= j < |b| ensures 0 <= b[j] < |l| {
      assert b[j] in Elems(a);
    }
  }

  /** Once the largest index of a valid decreasing batch is deleted, the rest of the batch is valid for what is left. */
  lemma DecreasingTailValid<T>(l: seq<T>, ix: seq<int>)
    requires |ix| > 0 && AllValid(l, ix) && StrictlyDecreasing(ix)
    ensures AllValid(l[..ix[0]] + l[ix[0] + 1..], ix[1..])
  {
    var rest := ix[1..];
    forall j | 0 <= j < |rest| ensures 0 <= rest[j] < |l| - 1 {
      assert rest[j] == ix[j + 1] && ix[0] > ix[j + 1];
    }
  }

  /** With no invalid index in the normalised batch, `Remove` deletes the largest index and goes on with the rest. */
  lemma RemoveUnfolds<T>(l: seq<T>, indices: seq<int>)
    requires |indices| > 1 && AllValid(l, Normalised(indices))
    ensures var ix := Normalised(indices);
      Remove(l, indices) == Remove(l[..ix[0]] + l[ix[0] + 1..], ix[1..])
  {
    assert FirstInvalidIndex(l, Normalised(indices)) == -1;
  }

  /** Deleting the largest position of a decreasing batch first, then the rest, deletes the whole batch. */
  lemma SurvivorsBatchStep<T>(l: seq<T>, S: set<int>, ix: seq<int>)
    requires |ix| > 0 && StrictlyDecreasing(ix) && Elems(ix) == S
    requires forall j :: 0 <= j < |ix| ==> 0 <= ix[j] < |l|
    ensures Survivors(l[..ix[0]] + l[ix[0] + 1..], Elems(ix[1..])) == Survivors(l, S)
  {
    var i := ix[0];
    var rest := ix[1..];
    assert Elems(rest) == S - {i} by {
      assert ix == [i] + rest;
      forall j | 0 <= j < |rest| ensures rest[j] != i {
        assert rest[j] == ix[j + 1];
      }
    }
    forall j | j in S ensures j <= i {
      var q :| 0 <= q < |ix| && ix[q] == j;
    }
    assert i in S;
    RemoveLargestFirst(l, S, i);
  }

  /**
    A batch naming a position that does not exist fails with an
    `IndexError` for the largest such index and leaves the list as it was.
   */
  lemma RemoveFails<T>(l: seq<T>, indices: seq<int>)
    requires !AllValid(l, indices)
    ensures Remove(l, indices).after == l
    ensures Remove(l, indices).outcome.Fail?
    ensures Remove(l, indices).outcome.error.IndexError?
    ensures Remove(l, indices).outcome.error.length == |l|
    ensures LargestInvalid(l, indices, Remove(l, indices).outcome.error.index)
  {
    if |indices| > 1 {
      var ix := Normalised(indices);
      var bad := FirstInvalid(l, indices);
      FirstInvalidIsLargest(l, indices, bad);
    }
  }

  /** A batch with an invalid index has one in its normalised form too. */
  lemma FirstInvalid<T>(l: seq<T>, indices: seq<int>) returns (bad: int)
    requires !AllValid(l, indices)
    ensures bad == FirstInvalidIndex(l, Normalised(indices))
    ensures 0 <= bad < |Normalised(indices)|
  {
    var ix := Normalised(indices);
    var k :| 0 <= k < |indices| && !(0 <= indices[k] < |l|);
    assert indices[k] in Elems(ix);
    bad := FirstInvalidIndex(l, ix);
  }

  /** In a decreasing batch, the first invalid index is the largest invalid index of the original batch. */
  lemma FirstInvalidIsLargest<T>(l: seq<T>, indices: seq<int>, bad: int)
    requires bad == FirstInvalidIndex(l, Normalised(indices))
    requires 0 <= bad < |Normalised(indices)|
    ensures LargestInvalid(l, indices, Normalised(indices)[bad])
  {
    var ix := Normalised(indices);
    var e := ix[bad];
    assert e in Elems(indices);
    forall k' | 0 <= k' < |indices| && !(0 <= indices[k'] < |l|) ensures indices[k'] <= e {
      assert indices[k'] in Elems(ix);
      var q :| 0 <= q < |ix| && ix[q] == indices[k'];
      assert !(q < bad);
    }
  }

  /** `e` is an invalid index of the batch and no invalid index of the batch is larger. */
  predicate LargestInvalid<T>(l: seq<T>, indices: seq<int>, e: int)
  {
    && e in indices
    && !(0 <= e < |l|)
    && forall k :: 0 <= k < |indices| && !(0 <= indices[k] < |l|) ==> indices[k] <= e
  }

  /** The largest invalid index of a batch is determined by its set of indices. */
  lemma LargestInvalidUnique<T>(l: seq<T>, a: seq<int>, b: seq<int>, e: int, e': int)
    requires Elems(a) == Elems(b)
    requires LargestInvalid(l, a, e) && LargestInvalid(l, b, e')
    ensures e == e'
  {
    assert e in Elems(b) && e' in Elems(a);
    var i :| 0 <= i < |b| && b[i] == e;
    var j :| 0 <= j < |a| && a[j] == e';
  }

  /**
    `Remove` in one statement: it succeeds exactly when every index is
    valid, then deletes the distinct positions named and shrinks the list
    by their number; otherwise it reports the largest invalid index and
    changes nothing.
   */
  lemma RemoveSpec<T>(l: seq<T>, indices: seq<int>)
    ensures Remove(l, indices).outcome.Pass? <==> AllValid(l, indices)
    ensures AllValid(l, indices) ==> Remove(l, indices).after == Survivors(l, Elems(indices))
    ensures AllValid(l, indices) ==> |Remove(l, indices).after| == |l| - |Elems(indices)|
    ensures !AllValid(l, indices) ==> Remove(l, indices).after == l
    ensures !AllValid(l, indices) ==> Remove(l, indices).outcome.error.IndexError?
    ensures !AllValid(l, indices) ==> LargestInvalid(l, indices, Remove(l, indices).outcome.error.index)
  {
    if AllValid(l, indices) {
      RemoveSucceeds(l, indices);
      SurvivorsLength(l, Elems(indices));
      forall j | j in Elems(indices) ensures 0 <= j < |l| {
        var k :| 0 <= k < |indices| && indices[k] == j;
      }
      CountBelowCard(Elems(indices), |l|);
    } else {
      RemoveFails(l, indices);
    }
  }

  /** Neither the order of the indices nor repeated indices change what `Remove` does. */
  lemma RemoveIgnoresOrderAndDuplicates<T>(l: seq<T>, a: seq<int>, b: seq<int>)
    requires Elems(a) == Elems(b)
    ensures Remove(l, a) == Remove(l, b)
  {
    if AllValid(l, a) {
      forall k | 0 <= k < |b| ensures 0 <= b[k] < |l| {
        assert b[k] in Elems(a);
      }
      RemoveSucceeds(l, a);
      RemoveSucceeds(l, b);
    } else {
      assert !AllValid(l, b) by {
        var k :| 0 <= k < |a| && !(0 <= a[k] < |l|);
        assert a[k] in Elems(b);
      }
      RemoveFails(l, a);
      RemoveFails(l, b);
      var ma, mb := Remove(l, a), Remove(l, b);
      LargestInvalidUnique(l, a, b, ma.outcome.error.index, mb.outcome.error.index);
      assert ma.outcome == Fail(IndexError(ma.outcome.error.index, |l|));
      assert mb.outcome == Fail(IndexError(mb.outcome.error.index, |l|));
    }
  }

  /** The positions whose elements satisfy `q`, in increasing order: the index list the Go `Filter` collects. */
  function Positions<T>(l: seq<T>, q: T -> bool): (r: seq<int>)
    ensures forall k :: 0 <= k < |r| ==> 0 <= r[k] < |l| && q(l[r[k]])
    ensures forall i :: 0 <= i < |l| && q(l[i]) ==> i in r
  {
    if |l| == 0 then []
    else Positions(l[..|l| - 1], q) + (if q(l[|l| - 1]) then [|l| - 1] else [])
  }

  /** `Filter`: removes, through `Remove`, every position whose element fails the predicate. */
  function Filter<T>(l: seq<T>, p: T -> bool): (r: seq<T>)
  {
    Remove(l, Positions(l, x => !p(x))).after
  }

  /** `Filter` keeps exactly the elements satisfying the predicate, in their original order. */
  lemma FilterKeeps<T>(l: seq<T>, p: T -> bool)
    ensures Filter(l, p) == Keep(l, p)
  {
    var P := Positions(l, x => !p(x));
    RemoveSucceeds(l, P);
    forall i | 0 <= i < |l| ensures i in Elems(P) <==> !p(l[i]) {
      if i in Elems(P) {
        var k :| 0 <= k < |P| && P[k] == i;
      }
    }
    SurvivorsKeep(l, Elems(P), p);
  }

  /** Deleting the positions of the elements that fail `p` is keeping those that satisfy it. */
  lemma {:induction false} SurvivorsKeep<T>(l: seq<T>, S: set<int>, p: T -> bool)
    requires forall i :: 0 <= i < |l| ==> (i in S <==> !p(l[i]))
    ensures Survivors(l, S) == Keep(l, p)
  {
    if |l| > 0 {
      var n := |l| - 1;
      SurvivorsKeep(l[..n], S, p);
      assert l == l[..n] + [l[n]];
      KeepAppend(l[..n], [l[n]], p);
    }
  }

  /**
    `RemoveAny`: normalises the batch, filters it down to the valid
    indices, and removes those; whatever `Remove` reports is discarded.
   */
  function RemoveAny<T>(l: seq<T>, indices: seq<int>): (r: seq<T>)
  {
    var valid := Filter(FormatIndicesReversed(indices), (i: int) => ValidIndex(l, i));
    Remove(l, valid).after
  }

  /**
    `RemoveAny` never fails and deletes exactly the valid positions named;
    it is `Remove` applied to the in-range indices only.
   */
  lemma RemoveAnySpec<T>(l: seq<T>, indices: seq<int>)
    ensures RemoveAny(l, indices) == Survivors(l, Elems(indices))
    ensures RemoveAny(l, indices) == Remove(l, Keep(indices, (i: int) => ValidIndex(l, i))).after
  {
    var p := (i: int) => ValidIndex(l, i);
    var f := FormatIndicesReversed(indices);
    FilterKeeps(f, p);
    var valid := Keep(f, p);
    var direct := Keep(indices, p);
    KeptValid(l, f);
    KeptValid(l, indices);
    RemoveSucceeds(l, valid);
    RemoveSucceeds(l, direct);
    KeepSameElems(f, indices, p);
    ValidNamed(l, indices);
    SurvivorsAgree(l, Elems(valid), Elems(indices));
  }

  /** Keeping the valid indices of a batch leaves a batch of valid indices. */
  lemma KeptValid<T>(l: seq<T>, indices: seq<int>)
    ensures AllValid(l, Keep(indices, (i: int) => ValidIndex(l, i)))
  {
  }

  /** Keeping the same elements of two sequences that hold the same values gives sequences holding the same values. */
  lemma KeepSameElems<T>(a: seq<T>, b: seq<T>, p: T -> bool)
    requires Elems(a) == Elems(b)
    ensures Elems(Keep(a, p)) == Elems(Keep(b, p))
  {
    forall x | x in Keep(a, p) ensures x in Keep(b, p) {
      assert x in Elems(b);
    }
    forall x | x in Keep(b, p) ensures x in Keep(a, p) {
      assert x in Elems(a);
    }
  }

  /** An existing position is named by the valid part of a batch exactly when the batch names it. */
  lemma ValidNamed<T>(l: seq<T>, indices: seq<int>)
    ensures forall j :: 0 <= j < |l| ==> (j in Elems(Keep(indices, (i: int) => ValidIndex(l, i))) <==> j in Elems(indices))
  {
    var direct := Keep(indices, (i: int) => ValidIndex(l, i));
    forall j | 0 <= j < |l| ensures j in Elems(direct) <==> j in Elems(indices) {
      if j in Elems(indices) {
        var k :| 0 <= k < |indices| && indices[k] == j;
      }
    }
  }

  /**
    `RemoveAny(-1, 2, 10)` on a five-element list, such as
    `[10, 20, 30, 40, 50]`, drops only the element at 2.
   */
  lemma RemoveAnyExample<T>(l: seq<T>, indices: seq<int>)
    requires |l| == 5 && indices == [-1, 2, 10]
    ensures RemoveAny(l, indices) == [l[0], l[1], l[3], l[4]]
  {
    RemoveAnySpec(l, indices);
    SurvivorsExample(l, Elems(indices));
  }

  lemma SurvivorsExample<T>(l: seq<T>, S: set<int>)
    requires |l| == 5 && S == Elems([-1, 2, 10])
    ensures Survivors(l, S) == [l[0], l[1], l[3], l[4]]
  {
    forall j | 0 <= j < |l| ensures j in S <==> j in {2} {
      assert j in S <==> j in [-1, 2, 10];
    }
    SurvivorsAgree(l, S, {2});
    RemoveLargestFirst(l, {2}, 2);
    assert {2} - {2} == {};
    SurvivorsNone(l[..2] + l[3..], {});
  }

  /** The positions `lo, lo + 1, …, hi - 1`. */
  function Range(lo: int, hi: int): (r: seq<int>)
    requires lo <= hi
    ensures |r| == hi - lo
    ensures forall k :: 0 <= k < |r| ==> r[k] == lo + k
  {
    seq(hi - lo, k requires 0 <= k < hi - lo => lo + k)
  }

  /** Removing the positions an `Insert` filled gives back the original list. */
  lemma InsertThenRemove<T>(l: seq<T>, index: int, values: seq<T>)
    requires 0 <= index <= |l|
    ensures Remove(Insert(l, index, values).after, Range(index, index + |values|)) == Mutated(l, Pass)
  {
    var a, c := l[..index], l[index..];
    var x := Insert(l, index, values).after;
    assert x == a + values + c;
    var R := Range(index, index + |values|);
    assert AllValid(x, R);
    RemoveSucceeds(x, R);
    SurvivorsBlock(a, values, c);
    assert a + c == l;
  }

  /** Deleting the positions of the middle block of `a + b + c` leaves `a + c`. */
  lemma SurvivorsBlock<T>(a: seq<T>, b: seq<T>, c: seq<T>)
    ensures Survivors(a + b + c, Elems(Range(|a|, |a| + |b|))) == a + c
  {
    var x := a + b + c;
    var R := Range(|a|, |a| + |b|);
    var S := Elems(R);
    forall j ensures j in S <==> |a| <= j < |a| + |b| {
      if |a| <= j < |a| + |b| {
        assert R[j - |a|] == j;
      }
    }
    var k := |a| + |b|;
    SurvivorsSuffix(x, S, k);
    assert x[k..] == c;
    SurvivorsDropTail(x[..k], S, |a|);
    assert x[..k][..|a|] == a;
  }

  /** Deleting a whole tail `[k, |x|)` and nothing before it leaves the prefix. */
  lemma {:induction false} SurvivorsDropTail<T>(x: seq<T>, S: set<int>, k: int)
    requires 0 <= k <= |x|
    requires forall j :: k <= j < |x| ==> j in S
    requires forall j :: 0 <= j < k ==> j !in S
    ensures Survivors(x, S) == x[..k]
    decreases |x| - k
  {
    if |x| == k {
      SurvivorsNone(x, S);
      assert x[..k] == x;
    } else {
      var n := |x| - 1;
      SurvivorsDropTail(x[..n], S, k);
      assert x[..n][..k] == x[..k];
    }
  }
}

=== FILE: lists.dfy ===
/**
  The index-checked operations of the generic `List[T]` (list/list.go and
  list/helpers.go).  A list is the sequence of its elements; an operation
  that mutates the receiver returns the receiver's new value together with
  the `error` it reports (`Mutated`), so "the list is unchanged on error" is
  a statement about that value.
 */
module Lists {

  import opened Errors
  import opened Seqs

  /** `ValidIndex`: an existing position. */
  predicate ValidIndex<T>(l: seq<T>, i: int)
  {
    0 <= i < |l|
  }

  /** `validIndexLoose`: an existing position or the one just past the end. */
  predicate ValidIndexLoose<T>(l: seq<T>, i: int)
  {
    0 <= i <= |l|
  }

  /** `Get`: the element at `i` when it exists; `None` stands for `(zero, false)`. */
  function Get<T>(l: seq<T>, i: int): (r: Option<T>)
    ensures r.Some? <==> 0 <= i < |l|
    ensures r.Some? ==> r.value == l[i]
  {
    if |l| == 0 then None
    else if !ValidIndex(l, i) then None
    else Some(l[i])
  }

  /** `Set`: replaces position `index`; an invalid index is an `IndexError` and changes nothing. */
  function Set<T>(l: seq<T>, index: int, value: T): (m: Mutated<seq<T>>)
    ensures m.outcome.Pass? <==> 0 <= index < |l|
    ensures m.outcome.Fail? ==> m.after == l && m.outcome.error == IndexError(index, |l|)
    ensures |m.after| == |l|
    ensures m.outcome.Pass? ==> m.after[index] == value
    ensures forall k :: 0 <= k < |l| && k != index ==> m.after[k] == l[k]
  {
    if !ValidIndex(l, index) then Mutated(l, Fail(NewIndexError(index, |l|)))
    else Mutated(l[index := value], Pass)
  }

  /** After a successful `Set(k, v)`, `Get(k)` yields `v` and every other position reads as before. */
  lemma GetAfterSet<T>(l: seq<T>, index: int, value: T, k: int)
    requires 0 <= index < |l|
    ensures Get(Set(l, index, value).after, index) == Some(value)
    ensures k != index ==> Get(Set(l, index, value).after, k) == Get(l, k)
  {
  }

  /** `singleSet`: `false` and no change for an invalid index, otherwise exactly one slot written. */
  function SingleSet<T>(l: seq<T>, index: int, value: T): (r: (bool, seq<T>))
    ensures r.0 <==> 0 <= index < |l|
    ensures !r.0 ==> r.1 == l
    ensures r.0 ==> r.1 == l[index := value]
  {
    if !ValidIndex(l, index) then (false, l)
    else (true, l[index := value])
  }

  /** `Set` and `singleSet` write the same slot and fail on the same indices. */
  lemma SetAgreesWithSingleSet<T>(l: seq<T>, index: int, value: T)
    ensures Set(l, index, value).after == SingleSet(l, index, value).1
    ensures Set(l, index, value).outcome.Pass? <==> SingleSet(l, index, value).0
  {
  }

  /** `Swap`: exchanges `i` and `j`; `i` is checked before `j`, and on error nothing changes. */
  function Swap<T>(l: seq<T>, i: int, j: int): (m: Mutated<seq<T>>)
    ensures m.outcome.Pass? <==> 0 <= i < |l| && 0 <= j < |l|
    ensures !(0 <= i < |l|) ==> m == Mutated(l, Fail(IndexError(i, |l|)))
    ensures 0 <= i < |l| && !(0 <= j < |l|) ==> m == Mutated(l, Fail(IndexError(j, |l|)))
    ensures m.outcome.Pass? ==> |m.after| == |l| && m.after[i] == l[j] && m.after[j] == l[i]
    ensures m.outcome.Pass? ==> forall k :: 0 <= k < |l| && k != i && k != j ==> m.after[k] == l[k]
    ensures multiset(m.after) == multiset(l)
  {
    if !ValidIndex(l, i) then Mutated(l, Fail(NewIndexError(i, |l|)))
    else if !ValidIndex(l, j) then Mutated(l, Fail(NewIndexError(j, |l|)))
    else Mutated(Seqs.Swap(l, i, j), Pass)
  }

  /** Swapping twice restores the list, and the swap is symmetric in its two indices. */
  lemma SwapInvolution<T>(l: seq<T>, i: int, j: int)
    requires 0 <= i < |l| && 0 <= j < |l|
    ensures Swap(Swap(l, i, j).after, i, j).after == l
    ensures Swap(l, i, j) == Swap(l, j, i)
  {
    assert Seqs.Swap(Seqs.Swap(l, i, j), i, j) == l;
    assert Seqs.Swap(l, i, j) == Seqs.Swap(l, j, i);
  }

  /**
    `Insert(index, values...)`: an index outside `[0, Len]` is an
    `IndexError` and changes nothing; otherwise the values are spliced in
    before position `index` (appended when `index == Len`).
   */
  function Insert<T>(l: seq<T>, index: int, values: seq<T>): (m: Mutated<seq<T>>)
    ensures m.outcome.Pass? <==> 0 <= index <= |l|
    ensures m.outcome.Fail? ==> m.after == l && m.outcome.error == IndexError(index, |l|)
    ensures m.outcome.Pass? ==> |m.after| == |l| + |values|
    ensures m.outcome.Pass? ==> m.after[..index] == l[..index]
    ensures m.outcome.Pass? ==> m.after[index..index + |values|] == values
    ensures m.outcome.Pass? ==> m.after[index + |values|..] == l[index..]
  {
    if !ValidIndexLoose(l, index) then Mutated(l, Fail(NewIndexError(index, |l|)))
    else if index == |l| then Mutated(l + values, Pass)
    else Mutated(l[..index] + values + l[index..], Pass)
  }

  /**
    The first `|l|` cells of the backing array after Go's
    `append(l[:index], values...)` on a slice of capacity `capacity`.  When
    `index + |values|` fits in the capacity the values are written over the
    array in place; otherwise a new array is allocated and the old cells
    stay as they were.
   */
  function AppendedOver<T>(l: seq<T>, index: int, values: seq<T>, capacity: int): (a: seq<T>)
    requires 0 <= index <= |l| <= capacity
    ensures |a| == |l|
    ensures a[..index] == l[..index]
    ensures index + |values| > capacity ==> a == l
    ensures index + |values| <= capacity ==>
      forall k :: index <= k < |l| ==> a[k] == if k < index + |values| then values[k - index] else l[k]
  {
    if index + |values| > capacity then l
    else if index + |values| <= |l| then l[..index] + values + l[index + |values|..]
    else (l[..index] + values)[..|l|]
  }

  /**
    `Insert(index, values...)` of list/list.go (and list.go) as written,
    for a receiver whose backing array has capacity `capacity`.  In the
    middle, `after := l[index:]` shares the array with `prev := l[:index]`,
    so when `append(prev, values...)` writes in place it overwrites the
    start of `after` before `after` is appended back.  The old tail then
    survives only when the append had to reallocate.
   */
  function InsertAsWritten<T>(l: seq<T>, index: int, values: seq<T>, capacity: int): (m: Mutated<seq<T>>)
    requires |l| <= capacity
    ensures m.outcome == Insert(l, index, values).outcome
    ensures m.outcome.Fail? ==> m.after == l
    ensures m.outcome.Pass? ==> |m.after| == |l| + |values| && m.after[..index] + values == m.after[..index + |values|]
    ensures m.outcome.Pass? ==> m.after[..index] == l[..index]
    ensures m.outcome.Pass? && (index == |l| || index + |values| > capacity) ==> m == Insert(l, index, values)
    ensures m.outcome.Pass? && index + |values| <= |l| ==> m.after == l[..index] + values + values + l[index + |values|..]
    ensures m.outcome.Pass? && |l| < index + |values| <= capacity ==> m.after == l[..index] + values + values[..|l| - index]
  {
    if !ValidIndexLoose(l, index) then Mutated(l, Fail(NewIndexError(index, |l|)))
    else if index == |l| then Mutated(l + values, Pass)
    else
      var after := AppendedOver(l, index, values, capacity)[index..];
      var r := l[..index] + values + after;
      assert r[..index] == l[..index];
      assert r[..index + |values|] == l[..index] + values;
      assert index + |values| <= |l| ==> after == values + l[index + |values|..];
      assert |l| < index + |values| <= capacity ==> after == values[..|l| - index];
      assert index + |values| > capacity ==> after == l[index..];
      Mutated(r, Pass)
  }

  /**
    The discrepancy: inserting `9` at position 1 of a full `[1, 2, 3]` of
    capacity 3 leaves `[1, 9, 9, 3]`; the 2 is lost and the 9 doubled.
   */
  lemma InsertAsWrittenRepeats()
    ensures InsertAsWritten([1, 2, 3], 1, [9], 3).after == [1, 9, 9, 3]
    ensures Insert([1, 2, 3], 1, [9]).after == [1, 9, 2, 3]
  {
    assert [1, 2, 3][..1] + [9] + [9] + [1, 2, 3][2..] == [1, 9, 9, 3];
    assert [1, 2, 3][..1] + [9] + [1, 2, 3][1..] == [1, 9, 2, 3];
  }

  /**
    `Pop` as written: with one index argument it reports `l[i]` (an
    `IndexError` for an invalid `i`); otherwise it reports the last element
    (`EmptyList` for an empty list).  In neither case does it remove
    anything.
   */
  function PopAsWritten<T>(l: seq<T>, i: seq<int>): (r: (seq<T>, Result<T>))
    ensures r.0 == l
    ensures |i| == 1 ==> (r.1.Ok? <==> 0 <= i[0] < |l|)
    ensures |i| == 1 && r.1.Ok? ==> r.1.value == l[i[0]]
    ensures |i| == 1 && r.1.Err? ==> r.1.error == IndexError(i[0], |l|)
    ensures |i| != 1 ==> (r.1.Ok? <==> |l| > 0)
    ensures |i| != 1 && r.1.Ok? ==> r.1.value == l[|l| - 1]
    ensures |i| != 1 && r.1.Err? ==> r.1.error == EmptyList
  {
    if |i| == 1 then
      var idx := i[0];
      if !ValidIndex(l, idx) then (l, Err(NewIndexError(idx, |l|)))
      else (l, Ok(l[idx]))
    else if |l| == 0 then (l, Err(EmptyList))
    else (l, Ok(l[|l| - 1]))
  }

  /** `Pop` as documented: reports the same element and also removes it. */
  function Pop<T>(l: seq<T>, i: seq<int>): (r: (seq<T>, Result<T>))
    ensures r.1 == PopAsWritten(l, i).1
    ensures r.1.Err? ==> r.0 == l
    ensures r.1.Ok? ==> |r.0| == |l| - 1
    ensures r.1.Ok? && |i| == 1 ==> r.0 == l[..i[0]] + l[i[0] + 1..]
    ensures r.1.Ok? && |i| != 1 ==> r.0 + [r.1.value] == l
  {
    if |i| == 1 then
      var idx := i[0];
      if !ValidIndex(l, idx) then (l, Err(NewIndexError(idx, |l|)))
      else (l[..idx] + l[idx + 1..], Ok(l[idx]))
    else if |l| == 0 then (l, Err(EmptyList))
    else (l[..|l| - 1], Ok(l[|l| - 1]))
  }

  /** The discrepancy: popping `[1, 2, 3]` leaves all three elements in place. */
  lemma PopAsWrittenKeepsElement()
    ensures PopAsWritten([1, 2, 3], []) == ([1, 2, 3], Ok(3))
    ensures Pop([1, 2, 3], []) == ([1, 2], Ok(3))
  {
    assert [1, 2, 3][..2] == [1, 2];
  }

  /** `Reverse`: the two-index swap loop from both ends towards the middle. */
  method Reverse<T>(l: seq<T>) returns (r: seq<T>)
    ensures |r| == |l|
    ensures forall k :: 0 <= k < |l| ==> r[k] == l[|l| - 1 - k]
  {
    if |l| <= 1 {
      return l;
    }
    r := l;
    var i, j := 0, |l| - 1;
    while i < j
      invariant 0 <= i <= j + 1 && i + j == |l| - 1 && j < |l|
      invariant |r| == |l|
      invariant forall k :: 0 <= k < i ==> r[k] == l[|l| - 1 - k] && r[|l| - 1 - k] == l[k]
      invariant forall k :: i <= k <= j ==> r[k] == l[k]
    {
      r := Seqs.Swap(r, i, j);
      i, j := i + 1, j - 1;
    }
  }

  /**
    `Slice(start, end)`: `start < 0` and `end > Len` are index errors
    (checked in that order), `start > end` is an ordering error; otherwise
    a copy of `l[start..end]`, empty when `start == end`, even at `Len`.
   */
  function Slice<T>(l: seq<T>, start: int, end: int): (r: Result<seq<T>>)
    ensures r.Ok? <==> 0 <= start <= end <= |l|
    ensures start < 0 ==> r == Err(IndexError(start, |l|))
    ensures 0 <= start && end > |l| ==> r == Err(IndexError(end, |l|))
    ensures 0 <= start && end <= |l| && start > end ==> r == Err(BadSliceOrder)
    ensures r.Ok? ==> |r.value| == end - start
    ensures r.Ok? ==> forall k :: 0 <= k < end - start ==> r.value[k] == l[start + k]
  {
    if start < 0 then Err(NewIndexError(start, |l|))
    else if end > |l| then Err(NewIndexError(end, |l|))
    else if start > end then Err(BadSliceOrder)
    else Ok(l[start..end])
  }

  /** Cutting at any `k` in `[0, Len]` and joining the two slices gives back the list. */
  lemma SliceSplit<T>(l: seq<T>, k: int)
    requires 0 <= k <= |l|
    ensures Slice(l, 0, k).Ok? && Slice(l, k, |l|).Ok?
    ensures Slice(l, 0, k).value + Slice(l, k, |l|).value == l
  {
    assert l[..k] + l[k..] == l;
  }

  /** `x` sits in `r` at position `at`. */
  ghost predicate PieceAt<T>(r: seq<T>, at: int, x: seq<T>)
  {
    0 <= at && at + |x| <= |r| && r[at..at + |x|] == x
  }

  /**
    `Concatenate(lists...)`: appends the lists, in order, after the
    receiver.  The `k`-th list sits right after the receiver and the lists
    before it.
   */
  function Concatenate<T>(l: seq<T>, lists: seq<seq<T>>): (r: seq<T>)
    ensures |r| == |l| + TotalLength(lists)
    ensures r[..|l|] == l
    ensures forall k :: 0 <= k < |lists| ==> PieceAt(r, |l| + TotalLength(lists[..k]), lists[k])
  {
    FlattenLength(lists);
    var f := Flatten(lists);
    assert forall k :: 0 <= k < |lists| ==> PieceAt(l + f, |l| + TotalLength(lists[..k]), lists[k]) by {
      forall k | 0 <= k < |lists|
        ensures PieceAt(l + f, |l| + TotalLength(lists[..k]), lists[k])
      {
        FlattenPiece(lists, k);
        PieceAfter(l, f, TotalLength(lists[..k]), lists[k]);
      }
    }
    l + f
  }

  /** The flattening of `lists` holds `lists[k]` right after the lists before it. */
  lemma FlattenPiece<T>(lists: seq<seq<T>>, k: int)
    requires 0 <= k < |lists|
    ensures PieceAt(Flatten(lists), TotalLength(lists[..k]), lists[k])
  {
    var a := lists[..k];
    var b := lists[k + 1..];
    assert lists[..k + 1] == a + [lists[k]];
    assert lists == lists[..k + 1] + b;
    FlattenSnoc(a, lists[k]);
    FlattenConcat(lists[..k + 1], b);
    FlattenLength(a);
    var f := Flatten(a);
    assert (f + lists[k] + Flatten(b))[|f|..|f| + |lists[k]|] == lists[k];
  }

  /** A piece of `f` is a piece of `l + f`, shifted by `|l|`. */
  lemma PieceAfter<T>(l: seq<T>, f: seq<T>, at: int, x: seq<T>)
    requires PieceAt(f, at, x)
    ensures PieceAt(l + f, |l| + at, x)
  {
    assert (l + f)[|l| + at..|l| + at + |x|] == f[at..at + |x|];
  }

  /** The receiver's part of a concatenation can be sliced back out, and so can each appended list. */
  lemma ConcatenateSlices<T>(l: seq<T>, x: seq<T>)
    ensures Slice(Concatenate(l, [x]), 0, |l|) == Ok(l)
    ensures Slice(Concatenate(l, [x]), |l|, |l| + |x|) == Ok(x)
  {
    assert Flatten([x]) == x + Flatten([]);
    assert Concatenate(l, [x]) == l + x;
    assert (l + x)[..|l|] == l;
    assert (l + x)[|l|..|l| + |x|] == x;
  }

  /** `Map`: overwrites every position with `f` of its element. */
  method Map<T>(l: seq<T>, f: T -> T) returns (r: seq<T>)
    ensures |r| == |l|
    ensures forall k :: 0 <= k < |l| ==> r[k] == f(l[k])
  {
    r := l;
    var i := 0;
    while i < |l|
      invariant 0 <= i <= |l| && |r| == |l|
      invariant forall k :: 0 <= k < i ==> r[k] == f(l[k])
      invariant forall k :: i <= k < |l| ==> r[k] == l[k]
    {
      r := r[i := f(r[i])];
      i := i + 1;
    }
  }

  /** `FlatMap`: the list becomes the outputs of `f`, concatenated in order. */
  method FlatMap<T>(l: seq<T>, f: T -> seq<T>) returns (r: seq<T>)
    ensures r == Flatten(seq(|l|, k requires 0 <= k < |l| => f(l[k])))
    ensures |r| == TotalLength(seq(|l|, k requires 0 <= k < |l| => f(l[k])))
  {
    r := [];
    var i := 0;
    while i < |l|
      invariant 0 <= i <= |l|
      invariant r == Flatten(seq(i, k requires 0 <= k < i => f(l[k])))
    {
      var parts := seq(i, k requires 0 <= k < i => f(l[k]));
      assert seq(i + 1, k requires 0 <= k < i + 1 => f(l[k])) == parts + [f(l[i])];
      FlattenSnoc(parts, f(l[i]));
      r := r + f(l[i]);
      i := i + 1;
    }
    FlattenLength(seq(|l|, k requires 0 <= k < |l| => f(l[k])));
  }

  /** `Any`: some element satisfies the predicate. */
  function Any<T>(l: seq<T>, p: T -> bool): (r: bool)
    ensures r <==> exists k :: 0 <= k < |l| && p(l[k])
  {
    if |l| == 0 then false else p(l[0]) || Any(l[1..], p)
  }

  /** `All`: every element satisfies the predicate; true for an empty list. */
  function All<T>(l: seq<T>, p: T -> bool): (r: bool)
    ensures r <==> forall k :: 0 <= k < |l| ==> p(l[k])
  {
    if |l| == 0 then true else p(l[0]) && All(l[1..], p)
  }

  /** `FindBy`: the first element satisfying the predicate and its index; `None` is `(zero, -1, false)`. */
  function FindBy<T>(l: seq<T>, p: T -> bool): (r: Option<(T, int)>)
    ensures r.Some? ==> 0 <= r.value.1 < |l| && r.value.0 == l[r.value.1] && p(r.value.0)
    ensures r.Some? ==> forall k :: 0 <= k < r.value.1 ==> !p(l[k])
    ensures r.None? <==> forall k :: 0 <= k < |l| ==> !p(l[k])
  {
    if |l| == 0 then None
    else if p(l[0]) then Some((l[0], 0))
    else match FindBy(l[1..], p)
      case None => None
      case Some((x, k)) => Some((x, k + 1))
  }

  /** `FindBy` succeeds exactly when `Any` holds, and `All` is the negation of `Any` of the negation. */
  lemma FindByAnyAll<T>(l: seq<T>, p: T -> bool)
    ensures FindBy(l, p).Some? <==> Any(l, p)
    ensures All(l, p) <==> !Any(l, x => !p(x))
  {
  }

  /**
    `Partition(size)`: a single copy of the list for `size <= 0`;
    otherwise the loop `for i := 0; i < len; i += size` cutting
    `l[i..min(i + size, len)]`.
   */
  method Partition<T>(l: seq<T>, size: int) returns (parts: seq<seq<T>>)
    ensures size <= 0 ==> parts == [l]
    ensures Flatten(parts) == l
    ensures size > 0 ==> forall k :: 0 <= k < |parts| ==> 1 <= |parts[k]| <= size
    ensures size > 0 ==> forall k :: 0 <= k < |parts| - 1 ==> |parts[k]| == size
    ensures size > 0 ==> parts == Chunks(l, size)
  {
    if size <= 0 {
      assert Flatten([l]) == l + Flatten([]);
      return [l];
    }
    parts := CutChunks(l, size);
    ChunksSpec(l, size);
  }

  /**
    The chunking loop shared by `Partition` and the older `Chunk`: cut
    `l[i..min(i + size, len)]` for `i = 0, size, 2 * size, …`.
   */
  method CutChunks<T>(l: seq<T>, size: int) returns (parts: seq<seq<T>>)
    requires size > 0
    ensures parts == Chunks(l, size)
  {
    parts := [];
    var i := 0;
    while i < |l|
      invariant 0 <= i <= |l|
      invariant parts + Chunks(l[i..], size) == Chunks(l, size)
    {
      var end := i + size;
      if end > |l| {
        end := |l|;
      }
      ChunksStep(l, i, end, size);
      assert (parts + [l[i..end]]) + Chunks(l[end..], size) == parts + Chunks(l[i..], size);
      parts := parts + [l[i..end]];
      i := end;
    }
    assert Chunks(l[i..], size) == [];
  }

  /** One turn of the chunking loop: the chunk at `i` followed by the chunks from `end`. */
  lemma ChunksStep<T>(l: seq<T>, i: int, end: int, size: int)
    requires 0 <= i < |l| && size > 0
    requires end == if i + size > |l| then |l| else i + size
    ensures Chunks(l[i..], size) == [l[i..end]] + Chunks(l[end..], size)
  {
    assert l[i..][..end - i] == l[i..end];
    assert l[i..][end - i..] == l[end..];
  }

  /** `ToMap`: position `i` maps to `l[i]`, for exactly the positions of the list. */
  method ToMap<T>(l: seq<T>) returns (r: map<int, T>)
    ensures forall i :: i in r <==> 0 <= i < |l|
    ensures forall i :: 0 <= i < |l| ==> r[i] == l[i]
  {
    r := map[];
    var i := 0;
    while i < |l|
      invariant 0 <= i <= |l|
      invariant forall k :: k in r <==> 0 <= k < i
      invariant forall k :: 0 <= k < i ==> r[k] == l[k]
    {
      r := r[i := l[i]];
      i := i + 1;
    }
  }
}

=== FILE: listsets.dfy ===
/**
  The three list-backed set revisions: the struct wrapping a `List`
  (set.go), the slice type (settype.go) and the struct embedding a `List`
  (Set.go).  Each is a sequence that is meant to hold no value twice
  (`NoDup`).  Where the revisions share code (`Contains`, `Append`, `Set`,
  `Slice`, …) the operation is defined once; where they differ, each
  variant is named after its behaviour.
 */
module ListSets {

  import opened Errors
  import opened Seqs
  import Lists
  import LegacyList
  import ListQueries

  /**
    The values `Append(vals...)` adds: walking the arguments in order, each
    one that neither the set nor an earlier added value holds.  The
    membership test is the `Contains` scan shared by all three revisions.
   */
  function Fresh<T(==)>(l: seq<T>, vals: seq<T>): (r: seq<T>)
    ensures forall x :: x in r ==> x in vals && x !in l
    ensures forall x :: x in vals ==> x in l || x in r
    ensures NoDup(r)
    decreases |vals|
  {
    if |vals| == 0 then []
    else
      var n := |vals| - 1;
      var f := Fresh(l, vals[..n]);
      assert forall x :: x in vals ==> x in vals[..n] || x == vals[n] by {
        assert vals == vals[..n] + [vals[n]];
      }
      assert forall x :: x in vals[..n] ==> x in vals;
      if ListQueries.SingleContains(l + f, vals[n]) then f
      else f + [vals[n]]
  }

  /**
    `Append(vals...)`: the set followed by the values it did not hold, each
    once and in argument order; appending only values already held changes
    nothing.
   */
  function Append<T(==)>(l: seq<T>, vals: seq<T>): (r: seq<T>)
    ensures |l| <= |r| && r[..|l|] == l
    ensures Elems(r) == Elems(l) + Elems(vals)
    ensures forall k :: |l| <= k < |r| ==> r[k] in vals && r[k] !in l
    ensures NoDup(l) ==> NoDup(r)
    ensures (forall x :: x in vals ==> x in l) ==> r == l
  {
    var f := Fresh(l, vals);
    var r := l + f;
    assert forall k :: |l| <= k < |r| ==> r[k] == f[k - |l|];
    NoDupConcat(l, f);
    assert r[..|l|] == l;
    assert (forall x :: x in vals ==> x in l) ==> |f| == 0 by {
      if |f| > 0 {
        assert f[0] in f;
      }
    }
    r
  }

  /** On a duplicate-free set, `Append` keeps the first occurrence of every value of `l + vals`. */
  lemma AppendIsDedup<T>(l: seq<T>, vals: seq<T>)
    requires NoDup(l)
    ensures Append(l, vals) == Dedup(l + vals)
  {
    FreshIsDedup(l, vals);
  }

  lemma {:induction false} FreshIsDedup<T>(l: seq<T>, vals: seq<T>)
    requires NoDup(l)
    ensures l + Fresh(l, vals) == Dedup(l + vals)
    decreases |vals|
  {
    var c := l + vals;
    if |vals| == 0 {
      DedupOfNoDup(l);
      assert c == l;
    } else {
      var n := |vals| - 1;
      FreshIsDedup(l, vals[..n]);
      var f := Fresh(l, vals[..n]);
      var x := vals[n];
      assert c[..|c| - 1] == l + vals[..n];
      assert c[|c| - 1] == x;
      var d := Dedup(c[..|c| - 1]);
      assert Dedup(c) == if x in d then d else d + [x];
      assert l + (f + [x]) == d + [x];
    }
  }

  /** `NewSet` of settype.go and Set.go: `Append` of every argument to an empty set. */
  function NewSet<T(==)>(vals: seq<T>): (r: seq<T>)
    ensures r == Dedup(vals)
    ensures NoDup(r) && Elems(r) == Elems(vals)
  {
    AppendIsDedup([], vals);
    assert [] + vals == vals;
    Append([], vals)
  }

  /** Building a set from values that are already distinct keeps them as given. */
  lemma NewSetOfSet<T>(vals: seq<T>)
    ensures NoDup(vals) ==> NewSet(vals) == vals
  {
    if NoDup(vals) {
      DedupOfNoDup(vals);
    }
  }

  /** `NewSet` of set.go as written: `List.Append` of every argument, which checks nothing. */
  function NewSetAsWritten<T>(vals: seq<T>): (r: seq<T>)
    ensures r == vals
  {
    if |vals| == 0 then []
    else
      var n := |vals| - 1;
      assert vals == vals[..n] + [vals[n]];
      NewSetAsWritten(vals[..n]) + [vals[n]]
  }

  /** The discrepancy: set.go builds a "set" holding `1` twice, where the deduplicating `NewSet` holds it once. */
  lemma NewSetAsWrittenKeepsDuplicates()
    ensures NewSetAsWritten([1, 1]) == [1, 1]
    ensures !NoDup(NewSetAsWritten([1, 1]))
    ensures NewSet([1, 1]) == [1]
  {
    assert Dedup([1]) == [1];
    assert [1, 1][..1] == [1];
  }

  /**
    `Insert(index, vals...)` of set.go and settype.go as written, for a set
    whose backing array has capacity `capacity`.  An index outside
    `[0, Len]` is an error and at `Len` it is `Append`.  In the middle,
    `append(prev, vals...)` splices the values in after `l[..index]` with no
    membership check, and `Append(after...)` then walks `after := l[index:]`,
    which shares the backing array with the set being rebuilt.
   */
  function InsertAsWritten<T(==)>(l: seq<T>, index: int, vals: seq<T>, capacity: int): (m: Mutated<seq<T>>)
    requires |l| <= capacity
    ensures m.outcome.Pass? <==> 0 <= index <= |l|
    ensures m.outcome.Fail? ==> m == Mutated(l, Fail(OutOfBounds(index)))
    ensures m.outcome.Pass? && index == |l| ==> m.after == Append(l, vals)
    ensures m.outcome.Pass? && index < |l| ==> index + |vals| <= |m.after| && m.after[..index + |vals|] == l[..index] + vals
    ensures m.outcome.Pass? && index < |l| && index + |vals| > capacity ==> m.after == Append(l[..index] + vals, l[index..])
    ensures m.outcome.Pass? && index < |l| && index + |vals| <= |l| ==> m.after == Append(l[..index] + vals, l[index + |vals|..])
    ensures m.outcome.Pass? && index < |l| && |l| < index + |vals| <= capacity ==> m.after == l[..index] + vals
  {
    if !Lists.ValidIndexLoose(l, index) then Mutated(l, Fail(OutOfBounds(index)))
    else if index == |l| then Mutated(Append(l, vals), Pass)
    else
      var r := Reappend(l[..index] + vals, Lists.AppendedOver(l, index, vals, capacity), index, 0);
      AliasedReappend(l, index, vals, capacity);
      Mutated(r, Pass)
  }

  /** What the walk over the aliased tail leaves, in each of the three cases of Go's `append`. */
  lemma AliasedReappend<T>(l: seq<T>, index: int, vals: seq<T>, capacity: int)
    requires 0 <= index < |l| <= capacity
    ensures var r := Reappend(l[..index] + vals, Lists.AppendedOver(l, index, vals, capacity), index, 0);
      && (index + |vals| > capacity ==> r == Append(l[..index] + vals, l[index..]))
      && (index + |vals| <= |l| ==> r == Append(l[..index] + vals, l[index + |vals|..]))
      && (|l| < index + |vals| <= capacity ==> r == l[..index] + vals)
  {
    var cur := l[..index] + vals;
    var a := Lists.AppendedOver(l, index, vals, capacity);
    if index + |vals| > capacity {
      ReappendTrailing(cur, a, index, 0);
      AppendForwardIsAppend(cur, l[index..]);
    } else {
      var stop := if index + |vals| <= |l| then |vals| else |l| - index;
      assert forall p :: index <= p < index + stop ==> a[p] == cur[p];
      ReappendSkips(cur, a, index, 0, stop);
      if index + |vals| <= |l| {
        ReappendTrailing(cur, a, index, stop);
        assert a[index + |vals|..] == l[index + |vals|..];
        AppendForwardIsAppend(cur, l[index + |vals|..]);
      }
    }
  }

  /**
    The loop `Append(after...)` when `after` is the window `a[index..]` of
    the backing array `a` that the set `cur` may still share: the `k`-th
    value read is `a[index + k]` as the array holds it at that moment, and
    each value the set lacks is appended, which writes it into `a` while the
    set's length is below `|a|`.
   */
  function Reappend<T(==)>(cur: seq<T>, a: seq<T>, index: nat, k: nat): (r: seq<T>)
    requires index + k <= |a|
    ensures |cur| <= |r| && r[..|cur|] == cur
    ensures NoDup(cur) ==> NoDup(r)
    decreases |a| - index - k
  {
    if index + k == |a| then cur
    else
      var v := a[index + k];
      if ListQueries.SingleContains(cur, v) then Reappend(cur, a, index, k + 1)
      else
        assert NoDup(cur) ==> NoDup(cur + [v]) by {
          if NoDup(cur) {
            NoDupSnoc(cur, v);
          }
        }
        var a' := if |cur| < |a| then a[|cur| := v] else a;
        var r := Reappend(cur + [v], a', index, k + 1);
        assert r[..|cur|] == (cur + [v])[..|cur|];
        r
  }

  /** Values the set already holds are skipped and change nothing. */
  lemma {:induction false} ReappendSkips<T>(cur: seq<T>, a: seq<T>, index: nat, k: nat, k': nat)
    requires k <= k' && index + k' <= |a|
    requires forall p :: index + k <= p < index + k' ==> a[p] in cur
    ensures Reappend(cur, a, index, k) == Reappend(cur, a, index, k')
    decreases k' - k
  {
    if k < k' {
      ReappendSkips(cur, a, index, k + 1, k');
    }
  }

  /** `Append(vals...)` walked front to back: each value the set lacks is appended. */
  function AppendForward<T(==)>(cur: seq<T>, vals: seq<T>): seq<T>
    decreases |vals|
  {
    if |vals| == 0 then cur
    else AppendForward(if vals[0] in cur then cur else cur + [vals[0]], vals[1..])
  }

  /** The front-to-back walk adds exactly the fresh values, so it is `Append`. */
  lemma {:induction false} AppendForwardIsAppend<T>(cur: seq<T>, vals: seq<T>)
    ensures AppendForward(cur, vals) == cur + Fresh(cur, vals) == Append(cur, vals)
    decreases |vals|
  {
    if |vals| == 0 {
      assert Fresh(cur, vals) == [];
    } else {
      var v := vals[0];
      var rest := vals[1..];
      assert vals == [v] + rest;
      FreshCons(cur, v, rest);
      if v in cur {
        AppendForwardIsAppend(cur, rest);
      } else {
        AppendForwardIsAppend(cur + [v], rest);
        ConsShape(cur, v, Fresh(cur + [v], rest), Fresh(cur, vals));
      }
    }
  }

  lemma ConsShape<T>(cur: seq<T>, v: T, g: seq<T>, f: seq<T>)
    requires f == [v] + g
    ensures (cur + [v]) + g == cur + f
  {
  }

  /**
    While every write lands on a cell already read (or on no shared cell at
    all), the walk sees the window as it was, so it is the plain `Append`.
   */
  lemma {:induction false} ReappendTrailing<T>(cur: seq<T>, a: seq<T>, index: nat, k: nat)
    requires index + k <= |a|
    requires |cur| <= index + k || |cur| >= |a|
    ensures Reappend(cur, a, index, k) == AppendForward(cur, a[index + k..])
    decreases |a| - index - k
  {
    var w := a[index + k..];
    if index + k < |a| {
      var v := a[index + k];
      assert w[0] == v && w[1..] == a[index + k + 1..];
      if v in cur {
        ReappendTrailing(cur, a, index, k + 1);
      } else {
        var a' := if |cur| < |a| then a[|cur| := v] else a;
        assert a'[index + k + 1..] == w[1..];
        ReappendTrailing(cur + [v], a', index, k + 1);
      }
    }
  }

  /** The fresh values of `[v] + rest`: `v` itself when the set lacks it, then the fresh values of the rest. */
  lemma {:induction false} FreshCons<T>(c: seq<T>, v: T, rest: seq<T>)
    ensures Fresh(c, [v] + rest) == if v in c then Fresh(c, rest) else [v] + Fresh(c + [v], rest)
    decreases |rest|
  {
    if |rest| == 0 {
      FreshSnoc(c, [], v);
      assert [] + [v] == [v] == [v] + rest;
    } else {
      var n := |rest| - 1;
      var r := rest[..n];
      var x := rest[n];
      FreshCons(c, v, r);
      assert [v] + rest == ([v] + r) + [x] && rest == r + [x];
      FreshSnoc(c, [v] + r, x);
      if v in c {
        FreshSnoc(c, r, x);
      } else {
        FreshSnoc(c + [v], r, x);
        ConsSnocShape(c, v, Fresh(c + [v], r), x, Fresh(c, [v] + r), Fresh(c, [v] + r + [x]), Fresh(c + [v], r + [x]));
      }
    }
  }

  /** The step of `FreshCons` for an absent `v`, stated over the sequences involved. */
  lemma ConsSnocShape<T>(c: seq<T>, v: T, f: seq<T>, x: T, a: seq<T>, b: seq<T>, g: seq<T>)
    requires a == [v] + f
    requires b == if x in c + a then a else a + [x]
    requires g == if x in (c + [v]) + f then f else f + [x]
    ensures b == [v] + g
  {
    assert c + a == (c + [v]) + f;
    assert (x in c + a) == (x in (c + [v]) + f);
    if x !in c + a {
      assert a + [x] == [v] + (f + [x]);
    }
  }

  /**
    The discrepancy, on a full set of capacity 2: inserting the present
    value `1` at position 1 of `{1, 2}` writes it over the 2 in place, so the
    set ends as `[1, 1]`, holding 1 twice and 2 no more.
   */
  lemma InsertAsWrittenLosesTail()
    ensures InsertAsWritten([1, 2], 1, [1], 2).after == [1, 1]
    ensures !NoDup(InsertAsWritten([1, 2], 1, [1], 2).after)
    ensures 2 !in InsertAsWritten([1, 2], 1, [1], 2).after
  {
    var l := [1, 2];
    assert l[..1] + [1] == [1, 1];
    assert l[2..] == [];
    var after := InsertAsWritten(l, 1, [1], 2).after;
    assert after == [1, 1];
    assert after[0] == after[1];
  }

  /** When the splice must reallocate (`{1, 2}.Insert(1, 1, 3)` at capacity 2) the old tail survives, but 1 is still stored twice. */
  lemma InsertAsWrittenReallocates()
    ensures InsertAsWritten([1, 2], 1, [1, 3], 2).after == [1, 1, 3, 2]
  {
    var l := [1, 2];
    assert l[..1] + [1, 3] == [1, 1, 3];
    assert l[1..] == [2];
    assert [2][..0] == [];
    assert Fresh([1, 1, 3], [2]) == [2];
  }

  /** The corrected `Insert` leaves `{1, 2}` as it is when asked to insert the present value 1. */
  lemma InsertSkipsPresent()
    ensures Insert([1, 2], 1, [1]) == Mutated([1, 2], Pass)
  {
    var l := [1, 2];
    assert [1][..0] == [];
    assert Fresh(l, [1]) == [];
    assert l[..1] + [] + l[1..] == l;
  }

  /**
    `Insert(index, vals...)` of Set.go: an index outside `[0, Len]` is an
    error; otherwise each value not yet held is inserted at a running
    position that advances only after an insertion.  The new values sit
    together from `index` on, in argument order, and no value is stored
    twice.
   */
  function Insert<T(==)>(l: seq<T>, index: int, vals: seq<T>): (m: Mutated<seq<T>>)
    ensures m.outcome.Pass? <==> 0 <= index <= |l|
    ensures m.outcome.Fail? ==> m == Mutated(l, Fail(OutOfBounds(index)))
    ensures m.outcome.Pass? ==> m.after == l[..index] + Fresh(l, vals) + l[index..]
    ensures m.outcome.Pass? ==> Elems(m.after) == Elems(l) + Elems(vals)
    ensures m.outcome.Pass? && index == |l| ==> m.after == Append(l, vals)
    ensures NoDup(l) ==> NoDup(m.after)
  {
    if !Lists.ValidIndexLoose(l, index) then Mutated(l, Fail(OutOfBounds(index)))
    else
      var r := InsertFrom(l, index, vals);
      InsertKeepsNoDup(l, index, vals);
      assert l[index..] == [] ==> l[..index] == l;
      Mutated(r, Pass)
  }

  /** The loop of Set.go's `Insert`, as the state after each argument. */
  function InsertFrom<T(==)>(l: seq<T>, index: int, vals: seq<T>): (r: seq<T>)
    requires 0 <= index <= |l|
    ensures r == l[..index] + Fresh(l, vals) + l[index..]
    decreases |vals|
  {
    if |vals| == 0 then
      assert Fresh(l, vals) == [];
      l[..index] + l[index..]
    else
      var n := |vals| - 1;
      var s := InsertFrom(l, index, vals[..n]);
      var f := Fresh(l, vals[..n]);
      var at := index + |f|;
      assert vals[..n] + [vals[n]] == vals;
      FreshSnoc(l, vals[..n], vals[n]);
      SpliceStep(l, index, f, vals[n]);
      if ListQueries.SingleContains(s, vals[n]) then s
      else
        LegacyList.Insert(s, at, [vals[n]]).after
  }

  /** Inserting `x` right after the values spliced in at `index` extends the splice. */
  lemma SpliceStep<T>(l: seq<T>, index: int, f: seq<T>, x: T)
    requires 0 <= index <= |l|
    ensures var s := l[..index] + f + l[index..];
      && s[..index + |f|] + [x] + s[index + |f|..] == l[..index] + (f + [x]) + l[index..]
      && (x in s <==> x in l + f)
  {
    var s := l[..index] + f + l[index..];
    assert s[..index + |f|] == l[..index] + f;
    assert s[index + |f|..] == l[index..];
    assert l == l[..index] + l[index..];
    assert multiset(s) == multiset(l + f);
    assert x in s <==> x in multiset(s);
    assert x in l + f <==> x in multiset(l + f);
  }

  /** One more argument adds itself to the fresh values exactly when neither the set nor the earlier fresh values hold it. */
  lemma FreshSnoc<T>(l: seq<T>, vals: seq<T>, x: T)
    ensures Fresh(l, vals + [x]) == if x in l + Fresh(l, vals) then Fresh(l, vals) else Fresh(l, vals) + [x]
  {
    var v := vals + [x];
    assert v[..|v| - 1] == vals;
    var a := Append(l, vals);
    assert a == l + Fresh(l, vals);
    if x !in a {
      assert (a + [x])[|l|..] == a[|l|..] + [x];
    }
  }

  /** Set.go's `Insert` keeps a duplicate-free set duplicate-free: it only rearranges `Append`'s result. */
  lemma InsertKeepsNoDup<T>(l: seq<T>, index: int, vals: seq<T>)
    requires 0 <= index <= |l|
    ensures NoDup(l) ==> NoDup(l[..index] + Fresh(l, vals) + l[index..])
    ensures Elems(l[..index] + Fresh(l, vals) + l[index..]) == Elems(l) + Elems(vals)
  {
    var f := Fresh(l, vals);
    var a := Append(l, vals);
    var r := l[..index] + f + l[index..];
    assert a == l + f;
    assert l == l[..index] + l[index..];
    assert multiset(r) == multiset(a);
    MultisetElems(r, a);
    PermutationKeepsNoDup(a, r);
  }

  /**
    `Set(index, val)` of all three revisions: a value already held makes it
    a successful no-op for any index; otherwise an invalid index is an
    error and a valid one overwrites that slot (Set.go delegates this part
    to `List.Set`).
   */
  function Set<T(==)>(l: seq<T>, index: int, val: T): (m: Mutated<seq<T>>)
    ensures val in l ==> m == Mutated(l, Pass)
    ensures val !in l ==> (m.outcome.Pass? <==> 0 <= index < |l|)
    ensures m.outcome.Fail? ==> m == Mutated(l, Fail(OutOfBounds(index)))
    ensures val !in l && 0 <= index < |l| ==> m.after == l[index := val]
    ensures NoDup(l) ==> NoDup(m.after)
  {
    if ListQueries.SingleContains(l, val) then Mutated(l, Pass)
    else LegacyList.Set(l, index, val)
  }

  /** `Remove(i)` of set.go and settype.go: an error for an invalid index, else position `i` is cut out. */
  function Remove<T(==)>(l: seq<T>, i: int): (m: Mutated<seq<T>>)
    ensures m.outcome.Pass? <==> 0 <= i < |l|
    ensures m.outcome.Fail? ==> m == Mutated(l, Fail(OutOfBounds(i)))
    ensures m.outcome.Pass? ==> m.after == l[..i] + l[i + 1..]
    ensures NoDup(l) && m.outcome.Pass? ==> NoDup(m.after) && Elems(m.after) == Elems(l) - {l[i]}
  {
    if !Lists.ValidIndex(l, i) then Mutated(l, Fail(OutOfBounds(i)))
    else
      var r := l[..i] + l[i + 1..];
      RemoveKeepsNoDup(l, i);
      Mutated(r, Pass)
  }

  lemma RemoveKeepsNoDup<T>(l: seq<T>, i: int)
    requires 0 <= i < |l|
    ensures NoDup(l) ==> NoDup(l[..i] + l[i + 1..]) && Elems(l[..i] + l[i + 1..]) == Elems(l) - {l[i]}
  {
    if NoDup(l) {
      assert l == l[..i] + [l[i]] + l[i + 1..];
      NoDupConcat(l[..i] + [l[i]], l[i + 1..]);
      NoDupConcat(l[..i], [l[i]]);
      NoDupConcat(l[..i], l[i + 1..]);
    }
  }

  /** `Get` of set.go: "index out of range" for an invalid index. */
  function Get<T>(l: seq<T>, i: int): (r: Result<T>)
    ensures r.Ok? <==> 0 <= i < |l|
    ensures r.Err? ==> r.error == IndexOutOfRange
    ensures r.Ok? ==> r.value == l[i]
  {
    if !Lists.ValidIndex(l, i) then Err(IndexOutOfRange) else Ok(l[i])
  }

  /** `Get` of settype.go: the zero value of the element type, passed as `zero`, for an invalid index. */
  function GetOrZero<T>(l: seq<T>, i: int, zero: T): (r: T)
    ensures 0 <= i < |l| ==> r == l[i]
    ensures !(0 <= i < |l|) ==> r == zero
    ensures Get(l, i).Ok? ==> r == Get(l, i).value
  {
    if !Lists.ValidIndex(l, i) then zero else l[i]
  }

  /** `Pop` of set.go and settype.go: "cannot pop from empty set", else the last element, removed. */
  function Pop<T(==)>(l: seq<T>): (r: (seq<T>, Result<T>))
    ensures |l| == 0 ==> r == (l, Err(EmptySet))
    ensures |l| > 0 ==> r.1.Ok? && r.0 + [r.1.value] == l
    ensures |l| > 0 && NoDup(l) ==> NoDup(r.0) && r.1.value !in r.0
  {
    if |l| == 0 then (l, Err(EmptySet))
    else
      var n := |l| - 1;
      assert l == l[..n] + [l[n]];
      NoDupConcat(l[..n], [l[n]]);
      (l[..n], Ok(l[n]))
  }

  /** `Dequeue` of settype.go: an error when empty, else the first element, removed. */
  function Dequeue<T(==)>(l: seq<T>): (r: (seq<T>, Result<T>))
    ensures |l| == 0 ==> r == (l, Err(EmptySet))
    ensures |l| > 0 ==> r.1.Ok? && [r.1.value] + r.0 == l
    ensures |l| > 0 && NoDup(l) ==> NoDup(r.0) && r.1.value !in r.0
  {
    if |l| == 0 then (l, Err(EmptySet))
    else
      assert l == [l[0]] + l[1..];
      NoDupConcat([l[0]], l[1..]);
      (l[1..], Ok(l[0]))
  }

  /**
    `Slice(start, end)` of set.go and settype.go: "invalid slice range"
    unless `start` is an existing position and `start <= end <= Len`.
   */
  function Slice<T(==)>(l: seq<T>, start: int, end: int): (r: Result<seq<T>>)
    ensures r.Ok? <==> 0 <= start < |l| && start <= end <= |l|
    ensures r.Err? ==> r.error == InvalidSliceRange(start, end)
    ensures r.Ok? ==> r.value == l[start..end]
    ensures r.Ok? && NoDup(l) ==> NoDup(r.value)
  {
    if !Lists.ValidIndex(l, start) || end < start || end > |l| then Err(InvalidSliceRange(start, end))
    else
      assert l == l[..start] + l[start..end] + l[end..];
      NoDupConcat(l[..start] + l[start..end], l[end..]);
      NoDupConcat(l[..start], l[start..end]);
      Ok(l[start..end])
  }

  /** The set slices accept exactly the ranges the older `List.Slice` accepts and return the same elements. */
  lemma SliceAgreesWithLegacyList<T>(l: seq<T>, start: int, end: int)
    ensures Slice(l, start, end).Ok? <==> LegacyList.Slice(l, start, end).Ok?
    ensures Slice(l, start, end).Ok? ==> Slice(l, start, end).value == LegacyList.Slice(l, start, end).value
  {
  }

  lemma ElemsSubset<T>(a: seq<T>, b: seq<T>)
    ensures Elems(a) <= Elems(b) <==> forall k :: 0 <= k < |a| ==> a[k] in b
  {
    if forall k :: 0 <= k < |a| ==> a[k] in b {
      forall x | x in Elems(a) ensures x in Elems(b) {
        var k :| 0 <= k < |a| && a[k] == x;
      }
    } else {
      var k :| 0 <= k < |a| && a[k] !in b;
      assert a[k] in Elems(a);
    }
  }

  /** `SubsetOf`: `ForAll` over the receiver of membership in `other`. */
  function SubsetOf<T(==)>(s: seq<T>, other: seq<T>): (r: bool)
    ensures r <==> Elems(s) <= Elems(other)
  {
    ElemsSubset(s, other);
    Lists.All(s, (v: T) => ListQueries.SingleContains(other, v))
  }

  /** `SupersetOf`: `ForAll` over `other` of membership in the receiver. */
  function SupersetOf<T(==)>(s: seq<T>, other: seq<T>): (r: bool)
    ensures r <==> Elems(other) <= Elems(s)
    ensures r == SubsetOf(other, s)
  {
    ElemsSubset(other, s);
    Lists.All(other, (v: T) => ListQueries.SingleContains(s, v))
  }

  /** `Append(v)` of a single value: the set itself when it holds `v`, else `v` added at the end. */
  lemma AppendOne<T>(l: seq<T>, x: T)
    ensures Append(l, [x]) == if x in l then l else l + [x]
  {
    assert [x][..0] == [];
    assert Fresh(l, [x][..0]) == [];
  }

  /**
    The loop shared by set.go's `Filter` and `Intersection`: a new set into
    which each element of `s` satisfying `p` is appended in turn.  It keeps
    the first occurrence of every matching value.
   */
  method AppendMatching<T(==)>(s: seq<T>, p: T -> bool) returns (r: seq<T>)
    ensures r == Dedup(Keep(s, p))
    ensures NoDup(r)
    ensures forall x :: x in r <==> x in s && p(x)
    ensures NoDup(s) ==> r == Keep(s, p)
  {
    r := [];
    var i := 0;
    while i < |s|
      invariant 0 <= i <= |s|
      invariant r == Dedup(Keep(s[..i], p))
    {
      AppendMatchingStep(s, i, p);
      if p(s[i]) {
        r := Append(r, [s[i]]);
      }
      i := i + 1;
    }
    assert s[..i] == s;
    DedupKeepFacts(s, p);
  }

  /** One turn of the loop of `AppendMatching`. */
  lemma AppendMatchingStep<T>(s: seq<T>, i: int, p: T -> bool)
    requires 0 <= i < |s|
    ensures Dedup(Keep(s[..i + 1], p)) == if p(s[i]) then Append(Dedup(Keep(s[..i], p)), [s[i]]) else Dedup(Keep(s[..i], p))
  {
    var x := s[i];
    var ka := Keep(s[..i], p);
    assert s[..i + 1] == s[..i] + [x];
    KeepSnoc(s[..i], x, p);
    if p(x) {
      DedupSnoc(ka, x);
      AppendOne(Dedup(ka), x);
    }
  }

  lemma KeepSnoc<T>(t: seq<T>, x: T, p: T -> bool)
    ensures Keep(t + [x], p) == if p(x) then Keep(t, p) + [x] else Keep(t, p)
  {
    KeepAppend(t, [x], p);
    assert Keep([x], p) == if p(x) then [x] else [];
  }

  lemma DedupSnoc<T>(t: seq<T>, x: T)
    ensures Dedup(t + [x]) == if x in Dedup(t) then Dedup(t) else Dedup(t) + [x]
  {
    var c := t + [x];
    assert c[..|c| - 1] == t;
  }

  lemma DedupKeepFacts<T>(s: seq<T>, p: T -> bool)
    ensures forall x :: x in Dedup(Keep(s, p)) <==> x in s && p(x)
    ensures NoDup(s) ==> Dedup(Keep(s, p)) == Keep(s, p)
  {
    assert forall x :: x in Dedup(Keep(s, p)) <==> x in Elems(Keep(s, p));
    if NoDup(s) {
      KeepNoDup(s, p);
      DedupOfNoDup(Keep(s, p));
    }
  }

  /** `Intersection`: each element of the receiver that `other` holds, appended in the receiver's order. */
  method Intersection<T(==)>(s: seq<T>, other: seq<T>) returns (r: seq<T>)
    ensures NoDup(r)
    ensures Elems(r) == Elems(s) * Elems(other)
    ensures NoDup(s) ==> r == Keep(s, (v: T) => v in other)
  {
    r := AppendMatching(s, (v: T) => ListQueries.SingleContains(other, v));
    assert Keep(s, (v: T) => ListQueries.SingleContains(other, v)) == Keep(s, (v: T) => v in other) by {
      KeepSame(s, (v: T) => ListQueries.SingleContains(other, v), (v: T) => v in other);
    }
  }

  lemma {:induction false} KeepSame<T>(s: seq<T>, p: T -> bool, q: T -> bool)
    requires forall x :: p(x) == q(x)
    ensures Keep(s, p) == Keep(s, q)
  {
    if |s| > 0 {
      KeepSame(s[1..], p, q);
    }
  }

  /** `Union`: the receiver's elements, then `other`'s, each appended through `Append`. */
  function Union<T(==)>(s: seq<T>, other: seq<T>): (r: seq<T>)
    ensures NoDup(r)
    ensures Elems(r) == Elems(s) + Elems(other)
    ensures NoDup(s) ==> |s| <= |r| && r[..|s|] == s
    ensures forall k :: |NewSet(s)| <= k < |r| ==> r[k] in other && r[k] !in s
  {
    var u := NewSet(s);
    NewSetOfSet(s);
    Append(u, other)
  }

  /** `Filter` of set.go: a new set of the matching elements, appended through `Append`. */
  method Filter<T(==)>(s: seq<T>, f: T -> bool) returns (r: seq<T>)
    ensures NoDup(r)
    ensures forall x :: x in r <==> x in s && f(x)
    ensures NoDup(s) ==> r == Keep(s, f)
  {
    r := AppendMatching(s, f);
  }

  /** `Filter` of settype.go: the matching elements, kept in place and in order. */
  method FilterInPlace<T(==)>(s: seq<T>, f: T -> bool) returns (r: seq<T>)
    ensures r == Keep(s, f)
    ensures NoDup(s) ==> NoDup(r)
  {
    r := LegacyList.Filter(s, f);
    if NoDup(s) {
      KeepNoDup(s, f);
    }
  }

  /** `Find` of settype.go (set.go returns only the index): the first matching position, or `(-1, false)`. */
  method Find<T>(s: seq<T>, f: T -> bool) returns (i: int, found: bool)
    ensures found <==> exists k :: 0 <= k < |s| && f(s[k])
    ensures found ==> 0 <= i < |s| && f(s[i]) && forall k :: 0 <= k < i ==> !f(s[k])
    ensures !found ==> i == -1
    ensures (i, found) == ListQueries.IndexOfFunc(s, f)
  {
    i := 0;
    while i < |s|
      invariant 0 <= i <= |s|
      invariant forall k :: 0 <= k < i ==> !f(s[k])
    {
      if f(s[i]) {
        return i, true;
      }
      i := i + 1;
    }
    return -1, false;
  }

  /**
    `Chunk(size)` of settype.go (and of set.go, through `List.Chunk`): the
    whole set as one chunk for `size <= 0`, else consecutive chunks of
    `size` elements.  Chunks of a duplicate-free set are duplicate-free.
   */
  method Chunk<T(==)>(s: seq<T>, size: int) returns (chunks: seq<seq<T>>)
    ensures size <= 0 ==> chunks == [s]
    ensures Flatten(chunks) == s
    ensures size > 0 ==> forall k :: 0 <= k < |chunks| ==> 1 <= |chunks[k]| <= size
    ensures NoDup(s) ==> forall k :: 0 <= k < |chunks| ==> NoDup(chunks[k])
  {
    chunks := LegacyList.Chunk(s, size);
    if NoDup(s) {
      FlattenPartsNoDup(chunks);
    }
  }

  /** Every part of a duplicate-free concatenation is duplicate-free. */
  lemma {:induction false} FlattenPartsNoDup<T>(c: seq<seq<T>>)
    requires NoDup(Flatten(c))
    ensures forall k :: 0 <= k < |c| ==> NoDup(c[k])
  {
    if |c| > 0 {
      NoDupConcat(c[0], Flatten(c[1..]));
      FlattenPartsNoDup(c[1..]);
      forall k | 0 < k < |c| ensures NoDup(c[k]) {
        assert c[k] == c[1..][k - 1];
      }
    }
  }

  /** `Swap` of set.go and settype.go: "invalid indices for swap" unless both exist; a swap keeps the set duplicate-free. */
  function Swap<T(==)>(l: seq<T>, i: int, j: int): (m: Mutated<seq<T>>)
    ensures m.outcome.Pass? <==> 0 <= i < |l| && 0 <= j < |l|
    ensures m.outcome.Fail? ==> m == Mutated(l, Fail(BadSwap(i, j)))
    ensures m.outcome.Pass? ==> m.after == LegacyList.Swap(l, i, j).after
    ensures multiset(m.after) == multiset(l)
    ensures NoDup(l) ==> NoDup(m.after)
  {
    if !Lists.ValidIndex(l, i) || !Lists.ValidIndex(l, j) then Mutated(l, Fail(BadSwap(i, j)))
    else
      var r := Seqs.Swap(l, i, j);
      PermutationKeepsNoDup(l, r);
      Mutated(r, Pass)
  }

  lemma PermutationKeepsNoDup<T>(a: seq<T>, b: seq<T>)
    requires multiset(a) == multiset(b)
    ensures NoDup(a) ==> NoDup(b)
  {
    if NoDup(a) {
      NoDupPermutation(a, b);
    }
  }

  /** `Reverse` of set.go and settype.go: the elements back to front, still duplicate-free. */
  method Reverse<T(==)>(l: seq<T>) returns (r: seq<T>)
    ensures r == Reversed(l)
    ensures NoDup(l) ==> NoDup(r)
  {
    r := Lists.Reverse(l);
    if NoDup(l) {
      forall i, j | 0 <= i < j < |r| ensures r[i] != r[j] {
        assert r[i] == l[|l| - 1 - i] && r[j] == l[|l| - 1 - j];
      }
    }
  }

  /**
    `Shuffle` of set.go: for each position `i` from the front, swap it with
    a position drawn from `[0, i]`.  Whatever the draws, the result is a
    permutation, so the set stays duplicate-free.
   */
  method Shuffle<T(==)>(l: seq<T>) returns (r: seq<T>)
    ensures multiset(r) == multiset(l)
    ensures NoDup(l) ==> NoDup(r)
  {
    r := l;
    var i := 0;
    while i < |l|
      invariant 0 <= i <= |l| && |r| == |l|
      invariant multiset(r) == multiset(l)
    {
      var j :| 0 <= j <= i;
      r := Seqs.Swap(r, i, j);
      i := i + 1;
    }
    if NoDup(l) {
      NoDupPermutation(l, r);
    }
  }
}

=== FILE: numlist.dfy ===
/**
  The in-place quicksort of numlist.go, instantiated at `int`.  The Go code
  sorts through a pointer to a slice; here every call receives the slice and
  returns it rearranged.  The pivot position, drawn with `rand.Intn`, is an
  arbitrary choice in the range, so the proofs hold for every random
  sequence.
 */
module NumList {

  import opened Seqs
  import opened Sorting
  import opened Selection

  /** `b` is `a` with `[lo, hi]` sorted in place and nothing else touched. */
  predicate SortedRange(a: seq<int>, b: seq<int>, lo: int, hi: int)
  {
    && |b| == |a|
    && 0 <= lo <= hi + 1 <= |a|
    && Sorted(b[lo..hi + 1])
    && multiset(b[lo..hi + 1]) == multiset(a[lo..hi + 1])
    && SameOutside(a, b, lo, hi)
  }

  /**
    `Sort`: a slice of length at most one, or one already sorted, is left as
    it is; otherwise quicksort runs over the whole slice.  Either way the
    result is the sorted permutation of the input.
   */
  method Sort(s: seq<int>) returns (r: seq<int>)
    ensures r == SortInts(s)
    ensures Sorted(s) ==> r == s
  {
    if |s| <= 1 {
      SortIntsOfSorted(s);
      return s;
    }
    var sorted := IsSorted(s);
    if sorted {
      SortIntsOfSorted(s);
      return s;
    }
    r := QuickSort(s, 0, |s| - 1);
    assert s[0..|s|] == s && r[0..|s|] == r;
    SortIntsSpec(s);
    SortedUnique(SortInts(s), r);
  }

  /**
    `quicksort(arr, low, high)`: sorts `[low, high]` when it holds at least
    two elements.  The recursive calls may receive an empty range
    (`high == low - 1`), which is why that is allowed.
   */
  method QuickSort(a: seq<int>, low: int, high: int) returns (b: seq<int>)
    requires 0 <= low <= high + 1 <= |a|
    ensures SortedRange(a, b, low, high)
    decreases high - low
  {
    if low < high {
      var pivotIndex :| low <= pivotIndex <= high;
      var p;
      b, p := PartitionAt(a, low, high, pivotIndex);
      var c := QuickSort(b, low, p - 1);
      var d := QuickSort(c, p + 1, high);
      QuickSortStep(a, b, c, d, low, high, p);
      b := d;
    } else {
      assert low == high || low == high + 1;
      b := a;
    }
  }

  /**
    `partition(arr, low, high)` with the random draw `pivotIndex`: the pivot
    is swapped to `high`, then a Lomuto pass places it at the returned
    position with the smaller-or-equal elements before it and the larger
    ones after it.
   */
  method PartitionAt(a: seq<int>, low: int, high: int, pivotIndex: int) returns (b: seq<int>, p: int)
    requires 0 <= low <= pivotIndex <= high < |a|
    ensures PartitionedAt(a, b, low, high, p)
    ensures b[p] == a[pivotIndex]
  {
    var swapped := Swap(a, pivotIndex, high);
    SwapSegment(a, low, high + 1, pivotIndex, high);
    b, p := Partition(swapped, low, high);
  }

  /** The two recursive calls of `quicksort` after a partition leave `[low, high]` sorted. */
  lemma QuickSortStep(a: seq<int>, b: seq<int>, c: seq<int>, d: seq<int>, low: int, high: int, p: int)
    requires PartitionedAt(a, b, low, high, p)
    requires SortedRange(b, c, low, p - 1)
    requires SortedRange(c, d, p + 1, high)
    ensures SortedRange(a, d, low, high)
  {
    var pivot := b[p];
    var lo, hi := d[low..p], d[p + 1..high + 1];
    assert c[p + 1..high + 1] == b[p + 1..high + 1];
    assert lo == c[low..p];
    assert c[p] == pivot && d[p] == pivot;
    assert AllAtMost(lo, pivot) by {
      forall k | 0 <= k < |lo| ensures lo[k] <= pivot {
        assert lo[k] in multiset(b[low..p]);
      }
    }
    assert AllAbove(hi, pivot) by {
      forall k | 0 <= k < |hi| ensures hi[k] > pivot {
        assert hi[k] in multiset(b[p + 1..high + 1]);
      }
    }
    SortedAroundPivot(lo, pivot, hi);
    assert d[low..high + 1] == lo + [pivot] + hi;
    assert b[low..high + 1] == b[low..p] + [pivot] + b[p + 1..high + 1];
  }

  /** `IsSorted`: true for length at most one, otherwise a forward scan for a pair out of order. */
  method IsSorted(s: seq<int>) returns (r: bool)
    ensures r <==> Sorted(s)
  {
    AdjacentSorted(s);
    if |s| <= 1 {
      return true;
    }
    var i := 1;
    while i < |s|
      invariant 1 <= i <= |s|
      invariant forall k :: 0 < k < i ==> s[k - 1] <= s[k]
    {
      if s[i] < s[i - 1] {
        return false;
      }
      i := i + 1;
    }
    return true;
  }
}

=== FILE: pairs.dfy ===
/**
  The two-field `Pair` of pair/pair.go and `PairsToMap`, which turns a
  slice of pairs into a map, the later pair winning on a repeated key.
 */
module Pairs {

  datatype Pair<A, B> = Pair(a: A, b: B)

  /** `PairOf(a, b)`. */
  function PairOf<A, B>(a: A, b: B): (p: Pair<A, B>)
    ensures p.a == a && p.b == b
  {
    Pair(a, b)
  }

  /** `Unwrap`: the two held values. */
  function Unwrap<A, B>(p: Pair<A, B>): (r: (A, B))
    ensures PairOf(r.0, r.1) == p
  {
    (p.a, p.b)
  }

  /** Unwrapping a pair just built gives back its two arguments. */
  lemma UnwrapPairOf<A, B>(a: A, b: B)
    ensures Unwrap(PairOf(a, b)) == (a, b)
  {
  }

  /** `i` is the last position of `s` whose pair has key `k`. */
  ghost predicate LastWith<K, V>(s: seq<Pair<K, V>>, k: K, i: int)
  {
    0 <= i < |s| && s[i].a == k && forall j :: i < j < |s| ==> s[j].a != k
  }

  /** The keys the pairs of `s` carry. */
  function KeysOf<K, V>(s: seq<Pair<K, V>>): set<K>
  {
    set i | 0 <= i < |s| :: s[i].a
  }

  /**
    `PairsToMap`: a new map into which every pair is written in slice
    order.  Its keys are exactly the pairs' keys, and each holds the value
    of the last pair with that key.
   */
  method PairsToMap<K(==), V>(s: seq<Pair<K, V>>) returns (r: map<K, V>)
    ensures r.Keys == KeysOf(s)
    ensures forall k :: k in r ==> exists i :: LastWith(s, k, i) && r[k] == s[i].b
    ensures |s| == 0 ==> r == map[]
    ensures |r| <= |s|
  {
    r := map[];
    var n := 0;
    while n < |s|
      invariant 0 <= n <= |s|
      invariant r == Collect(s[..n])
    {
      var kv := Unwrap(s[n]);
      assert s[..n + 1][..n] == s[..n];
      r := r[kv.0 := kv.1];
      n := n + 1;
    }
    assert s[..n] == s;
    CollectWritten(s);
    if |s| == 0 {
      NoKeysEmpty(r);
    }
  }

  /** The map left by writing the pairs of `s` in order into an empty map. */
  function Collect<K, V>(s: seq<Pair<K, V>>): map<K, V>
  {
    if |s| == 0 then map[]
    else Collect(s[..|s| - 1])[s[|s| - 1].a := s[|s| - 1].b]
  }

  lemma {:induction false} CollectWritten<K, V>(s: seq<Pair<K, V>>)
    ensures Written(s, Collect(s))
  {
    if |s| == 0 {
      assert KeysOf(s) == {};
    } else {
      var u := s[..|s| - 1];
      CollectWritten(u);
      WrittenSnoc(u, s[|s| - 1], Collect(u));
      assert u + [s[|s| - 1]] == s;
    }
  }

  lemma NoKeysEmpty<K, V>(r: map<K, V>)
    requires r.Keys == {}
    ensures r == map[]
  {
  }

  /** `r` is what writing the pairs of `t` in order leaves. */
  ghost predicate Written<K, V>(t: seq<Pair<K, V>>, r: map<K, V>)
  {
    && r.Keys == KeysOf(t)
    && LastWriters(t, r)
    && |r| <= |t|
  }

  /** Every key of `r` holds the value of the last pair of `t` with that key. */
  ghost predicate LastWriters<K, V>(t: seq<Pair<K, V>>, r: map<K, V>)
  {
    forall k :: k in r ==> exists i :: LastWith(t, k, i) && r[k] == t[i].b
  }

  /** One turn of the loop of `PairsToMap`: writing pair `p` after the pairs of `u`. */
  lemma WrittenSnoc<K, V>(u: seq<Pair<K, V>>, p: Pair<K, V>, r: map<K, V>)
    requires Written(u, r)
    ensures Written(u + [p], r[p.a := p.b])
  {
    var r' := r[p.a := p.b];
    KeysOfSnoc(u, p);
    LastWritersSnoc(u, p, r);
    assert r'.Keys == r.Keys + {p.a};
    assert |r'| <= |r| + 1 by {
      if p.a in r {
        assert r'.Keys == r.Keys;
      }
    }
  }

  lemma KeysOfSnoc<K, V>(u: seq<Pair<K, V>>, p: Pair<K, V>)
    ensures KeysOf(u + [p]) == KeysOf(u) + {p.a}
  {
    var t := u + [p];
    assert t[|u|] == p;
    assert forall i :: 0 <= i < |u| ==> t[i] == u[i];
  }

  /** Writing `p` keeps every other key's last writer, and makes `p` the last writer of its own key. */
  lemma LastWritersSnoc<K, V>(u: seq<Pair<K, V>>, p: Pair<K, V>, r: map<K, V>)
    requires LastWriters(u, r)
    ensures LastWriters(u + [p], r[p.a := p.b])
  {
    var t := u + [p];
    var r' := r[p.a := p.b];
    forall key | key in r'
      ensures exists i :: LastWith(t, key, i) && r'[key] == t[i].b
    {
      if key == p.a {
        assert LastWith(t, key, |u|) && t[|u|] == p;
      } else {
        var i :| LastWith(u, key, i) && r[key] == u[i].b;
        assert LastWith(t, key, i) && t[i] == u[i];
      }
    }
  }

  /** A key written by two pairs ends up with the later value: `[(k, x), (k, y)]` maps `k` to `y`. */
  lemma LaterPairWins<K, V>(s: seq<Pair<K, V>>, k: K, i: int, r: map<K, V>)
    requires LastWith(s, k, i)
    requires forall key :: key in r ==> exists j :: LastWith(s, key, j) && r[key] == s[j].b
    ensures k in r ==> r[k] == s[i].b
  {
    if k in r {
      var j :| LastWith(s, k, j) && r[k] == s[j].b;
      assert i == j;
    }
  }
}

=== FILE: queries.dfy ===
/**
  Membership, equality and search on a `List[T]` (list/reflective.go).
  Only the branches for comparable element types are modelled, with Dafny
  equality standing for Go's `==`; the `reflect.DeepEqual` branches are not
  part of this model.
 */
module ListQueries {

  import opened Errors
  import Slices

  /** The list method `singleContains`: false on an empty list, otherwise a scan for an equal element. */
  function SingleContains<T(==)>(l: seq<T>, item: T): (r: bool)
    ensures r <==> item in l
  {
    if |l| == 0 then false
    else l[0] == item || SingleContains(l[1..], item)
  }

  /** `Contains(items...)`: on an empty list, true exactly for no items; otherwise every item occurs. */
  function Contains<T(==)>(l: seq<T>, items: seq<T>): (r: bool)
    ensures |l| == 0 ==> (r <==> |items| == 0)
    ensures r <==> forall k :: 0 <= k < |items| ==> items[k] in l
  {
    if |l| == 0 then
      assert |items| > 0 ==> items[0] !in l;
      |items| == 0
    else ContainsAll(l, items)
  }

  /** The loop of `Contains`: stops at the first item that does not occur. */
  function ContainsAll<T(==)>(l: seq<T>, items: seq<T>): (r: bool)
    ensures r <==> forall k :: 0 <= k < |items| ==> items[k] in l
  {
    if |items| == 0 then true
    else SingleContains(l, items[0]) && ContainsAll(l, items[1..])
  }

  /** `ContainsAny(items...)`: false on an empty list or for no items; otherwise some item occurs. */
  function ContainsAny<T(==)>(l: seq<T>, items: seq<T>): (r: bool)
    ensures |l| == 0 || |items| == 0 ==> !r
    ensures r <==> exists k :: 0 <= k < |items| && items[k] in l
  {
    if |l| == 0 then false
    else ContainsSome(l, items)
  }

  /** The loop of `ContainsAny`: stops at the first item that occurs. */
  function ContainsSome<T(==)>(l: seq<T>, items: seq<T>): (r: bool)
    ensures r <==> exists k :: 0 <= k < |items| && items[k] in l
  {
    if |items| == 0 then false
    else SingleContains(l, items[0]) || ContainsSome(l, items[1..])
  }

  /** The list methods and the free functions of list/listfunctions.go answer membership questions alike. */
  lemma ContainsAgreesWithSliceFunctions<T>(l: seq<T>, items: seq<T>)
    ensures Contains(l, items) == Slices.Contains(l, items)
    ensures ContainsAny(l, items) == Slices.ContainsAny(l, items)
  {
  }

  /** `equalsFunc`: same length and the comparator holds at every index. */
  function EqualsFunc<T>(l: seq<T>, other: seq<T>, f: (T, T) -> bool): (r: bool)
    ensures r <==> |l| == |other| && forall k :: 0 <= k < |l| ==> f(l[k], other[k])
  {
    if |l| != |other| then false
    else PairwiseFrom(l, other, f, 0)
  }

  /** The comparator holds at every index from `i` on. */
  function PairwiseFrom<T>(l: seq<T>, other: seq<T>, f: (T, T) -> bool, i: nat): (r: bool)
    requires |l| == |other| && i <= |l|
    ensures r <==> forall k :: i <= k < |l| ==> f(l[k], other[k])
    decreases |l| - i
  {
    if i == |l| then true
    else f(l[i], other[i]) && PairwiseFrom(l, other, f, i + 1)
  }

  /**
    `Equals(other, comparator...)`: false on a length mismatch, true for two
    empty lists; then the first comparator given, or else `==` at every
    index.
   */
  function Equals<T(==)>(l: seq<T>, other: seq<T>, comparators: seq<(T, T) -> bool>): (r: bool)
    ensures |l| != |other| ==> !r
    ensures |l| == 0 && |other| == 0 ==> r
    ensures |comparators| > 0 ==> (r <==> EqualsFunc(l, other, comparators[0]))
    ensures |comparators| == 0 ==> (r <==> |l| == |other| && forall k :: 0 <= k < |l| ==> l[k] == other[k])
  {
    if |l| != |other| then false
    else if |l| == 0 && |other| == 0 then true
    else if |comparators| == 0 then PairwiseEqual(l, other)
    else EqualsFunc(l, other, comparators[0])
  }

  /** The comparable branch of `Equals`: `==` at every index of two lists of equal length. */
  function PairwiseEqual<T(==)>(l: seq<T>, other: seq<T>): (r: bool)
    requires |l| == |other|
    ensures r <==> forall k :: 0 <= k < |l| ==> l[k] == other[k]
  {
    if |l| == 0 then true
    else l[0] == other[0] && PairwiseEqual(l[1..], other[1..])
  }

  /** Without a comparator `Equals` is list equality, and passing `==` as the comparator changes nothing. */
  lemma EqualsIsEquality<T>(l: seq<T>, other: seq<T>)
    ensures Equals(l, other, []) <==> l == other
    ensures Equals(l, other, [(x: T, y: T) => x == y]) == Equals(l, other, [])
  {
  }

  /** `indexOfFunc`: the first index whose element satisfies the predicate, or `(-1, false)`. */
  function IndexOfFunc<T>(l: seq<T>, p: T -> bool): (r: (int, bool))
    ensures r.1 <==> exists k :: 0 <= k < |l| && p(l[k])
    ensures r.1 ==> 0 <= r.0 < |l| && p(l[r.0]) && forall k :: 0 <= k < r.0 ==> !p(l[k])
    ensures !r.1 ==> r.0 == -1
  {
    if |l| == 0 then (-1, false)
    else if p(l[0]) then (0, true)
    else
      var (i, ok) := IndexOfFunc(l[1..], p);
      if ok then (i + 1, true) else (-1, false)
  }

  /** `IndexOf` for a comparable item: `(-1, false)` on an empty list, else the first index holding an equal element. */
  method IndexOf<T(==)>(l: seq<T>, item: T) returns (index: int, found: bool)
    ensures found <==> item in l
    ensures found ==> 0 <= index < |l| && l[index] == item && item !in l[..index]
    ensures !found ==> index == -1
    ensures (index, found) == IndexOfFunc(l, (x: T) => x == item)
  {
    if |l| == 0 {
      return -1, false;
    }
    var i := 0;
    while i < |l|
      invariant 0 <= i <= |l|
      invariant item !in l[..i]
    {
      if l[i] == item {
        return i, true;
      }
      assert l[..i + 1] == l[..i] + [l[i]];
      i := i + 1;
    }
    assert l[..i] == l;
    return -1, false;
  }
}

=== FILE: selection.dfy ===
/**
  Order statistics by Lomuto partitioning with the rightmost element as
  pivot (`partition` and `quickSelect` of list/helpers.go).  The Go code
  works in place on a slice; here each call receives the slice and returns
  it rearranged, together with its answer.
 */
module Selection {

  import opened Seqs
  import opened Sorting

  /** `b` agrees with `a` outside the inclusive range `[lo, hi]`. */
  predicate SameOutside(a: seq<int>, b: seq<int>, lo: int, hi: int)
    requires |a| == |b|
  {
    forall k :: 0 <= k < |a| && !(lo <= k <= hi) ==> b[k] == a[k]
  }

  /**
    Lomuto partition of `a[left..right]` around the old `a[right]`: returns
    its final position `p`, everything in `[left, p)` is at most the pivot,
    everything in `(p, right]` is above it, the range is permuted and the
    rest of the slice is untouched.
   */
  method Partition(a: seq<int>, left: int, right: int) returns (b: seq<int>, p: int)
    requires 0 <= left <= right < |a|
    ensures |b| == |a|
    ensures left <= p <= right
    ensures b[p] == a[right]
    ensures forall k :: left <= k < p ==> b[k] <= b[p]
    ensures forall k :: p < k <= right ==> b[k] > b[p]
    ensures multiset(b[left..right + 1]) == multiset(a[left..right + 1])
    ensures SameOutside(a, b, left, right)
  {
    var pivot := a[right];
    b := a;
    var i := left;
    var j := left;
    while j < right
      invariant left <= i <= j <= right
      invariant PartitionInvariant(a, b, left, right, i, j, pivot)
    {
      if b[j] <= pivot {
        SwapKeepsInvariant(a, b, left, right, i, j, pivot);
        b := Swap(b, i, j);
        i := i + 1;
      }
      j := j + 1;
    }
    PlacePivot(a, b, left, right, i, pivot);
    b := Swap(b, i, right);
    p := i;
  }

  /** The closing swap of the Lomuto loop puts the pivot between the two sides. */
  lemma PlacePivot(a: seq<int>, b: seq<int>, left: int, right: int, i: int, pivot: int)
    requires 0 <= left <= i <= right < |a|
    requires PartitionInvariant(a, b, left, right, i, right, pivot)
    ensures PartitionedAt(a, Swap(b, i, right), left, right, i)
    ensures Swap(b, i, right)[i] == pivot
  {
    SwapSegment(b, left, right + 1, i, right);
  }

  /** The state of the Lomuto loop after scanning `[left, j)`, with `[left, i)` the low side. */
  predicate PartitionInvariant(a: seq<int>, b: seq<int>, left: int, right: int, i: int, j: int, pivot: int)
    requires 0 <= left <= i <= j <= right < |a|
  {
    && |b| == |a|
    && b[right] == pivot
    && (forall k :: left <= k < i ==> b[k] <= pivot)
    && (forall k :: i <= k < j ==> b[k] > pivot)
    && multiset(b[left..right + 1]) == multiset(a[left..right + 1])
    && SameOutside(a, b, left, right)
  }

  lemma SwapKeepsInvariant(a: seq<int>, b: seq<int>, left: int, right: int, i: int, j: int, pivot: int)
    requires 0 <= left <= i <= j < right < |a|
    requires PartitionInvariant(a, b, left, right, i, j, pivot)
    requires b[j] <= pivot
    ensures PartitionInvariant(a, Swap(b, i, j), left, right, i + 1, j + 1, pivot)
  {
    SwapSegment(b, left, right + 1, i, j);
  }

  /**
    `quickSelect(arr, left, right, k)`: the element that the sorted
    `a[left..right]` holds at position `k`, recursing only into the side
    of the pivot that contains `k`.
   */
  method QuickSelect(a: seq<int>, left: int, right: int, k: int) returns (b: seq<int>, r: int)
    requires 0 <= left <= k <= right < |a|
    ensures Selected(a, b, left, right, k, r)
    decreases right - left, 2
  {
    if left == right {
      assert a[left..right + 1] == [a[left]];
      return a, a[left];
    }
    var p;
    b, p := Partition(a, left, right);
    b, r := SelectAroundPivot(a, b, left, right, p, k);
  }

  /** The branch of `quickSelect` taken after partitioning `a` into `b` around position `p`. */
  method SelectAroundPivot(a: seq<int>, b: seq<int>, left: int, right: int, p: int, k: int)
    returns (c: seq<int>, r: int)
    requires PartitionedAt(a, b, left, right, p) && left <= k <= right
    ensures Selected(a, c, left, right, k, r)
    decreases right - left, 1
  {
    if k == p {
      c, r := b, b[k];
      SelectedAtPivot(a, b, left, right, p);
    } else if k < p {
      c, r := SelectBelowPivot(a, b, left, right, p, k);
    } else {
      c, r := SelectAbovePivot(a, b, left, right, p, k);
    }
  }

  /** The recursion into the low side, left of the pivot. */
  method SelectBelowPivot(a: seq<int>, b: seq<int>, left: int, right: int, p: int, k: int)
    returns (c: seq<int>, r: int)
    requires PartitionedAt(a, b, left, right, p) && left <= k < p
    ensures Selected(a, c, left, right, k, r)
    decreases right - left, 0
  {
    c, r := QuickSelect(b, left, p - 1, k);
    SelectedBelowPivot(a, b, c, left, right, p, k, r);
  }

  /** The recursion into the high side, right of the pivot. */
  method SelectAbovePivot(a: seq<int>, b: seq<int>, left: int, right: int, p: int, k: int)
    returns (c: seq<int>, r: int)
    requires PartitionedAt(a, b, left, right, p) && p < k <= right
    ensures Selected(a, c, left, right, k, r)
    decreases right - left, 0
  {
    c, r := QuickSelect(b, p + 1, right, k);
    SelectedAbovePivot(a, b, c, left, right, p, k, r);
  }

  /** The facts `SelectAroundPivot` knows about `b` after partitioning. */
  predicate PartitionedAt(a: seq<int>, b: seq<int>, left: int, right: int, p: int)
  {
    && 0 <= left <= p <= right < |a| == |b|
    && (forall i :: left <= i < p ==> b[i] <= b[p])
    && (forall i :: p < i <= right ==> b[i] > b[p])
    && multiset(b[left..right + 1]) == multiset(a[left..right + 1])
    && SameOutside(a, b, left, right)
  }

  /** What a `quickSelect` call on `[lo, hi]` of `b` promises about its answers `c` and `r`. */
  predicate Selected(b: seq<int>, c: seq<int>, lo: int, hi: int, k: int, r: int)
  {
    && 0 <= lo <= k <= hi < |b| == |c|
    && r == SortInts(b[lo..hi + 1])[k - lo]
    && multiset(c[lo..hi + 1]) == multiset(b[lo..hi + 1])
    && SameOutside(b, c, lo, hi)
  }

  lemma SelectedAtPivot(a: seq<int>, b: seq<int>, left: int, right: int, p: int)
    requires PartitionedAt(a, b, left, right, p)
    ensures Selected(a, b, left, right, p, b[p])
  {
    PivotSplit(a, b, left, right, p);
    var low := SortInts(b[left..p]);
    assert |low| == p - left;
  }

  lemma SelectedBelowPivot(a: seq<int>, b: seq<int>, c: seq<int>, left: int, right: int, p: int, k: int, r: int)
    requires PartitionedAt(a, b, left, right, p) && k < p
    requires Selected(b, c, left, p - 1, k, r)
    ensures Selected(a, c, left, right, k, r)
  {
    assert r == SortInts(a[left..right + 1])[k - left] by {
      PivotSplit(a, b, left, right, p);
      var low, high := SortInts(b[left..p]), SortInts(b[p + 1..right + 1]);
      assert b[left..p - 1 + 1] == b[left..p];
      assert |low| == p - left;
      var whole := low + [b[p]] + high;
      assert whole[k - left] == low[k - left];
    }
    PermuteInside(a, b, c, left, right, left, p - 1);
  }

  lemma SelectedAbovePivot(a: seq<int>, b: seq<int>, c: seq<int>, left: int, right: int, p: int, k: int, r: int)
    requires PartitionedAt(a, b, left, right, p) && p < k
    requires Selected(b, c, p + 1, right, k, r)
    ensures Selected(a, c, left, right, k, r)
  {
    assert r == SortInts(a[left..right + 1])[k - left] by {
      PivotSplit(a, b, left, right, p);
      var low, high := SortInts(b[left..p]), SortInts(b[p + 1..right + 1]);
      assert |low| == p - left;
      var whole := low + [b[p]] + high;
      assert whole[k - left] == high[k - (p + 1)];
    }
    PermuteInside(a, b, c, left, right, p + 1, right);
  }

  /** After partitioning, the sorted range is the sorted low side, the pivot, then the sorted high side. */
  lemma PivotSplit(a: seq<int>, b: seq<int>, left: int, right: int, p: int)
    requires 0 <= left <= p <= right < |a| == |b|
    requires forall k :: left <= k < p ==> b[k] <= b[p]
    requires forall k :: p < k <= right ==> b[k] > b[p]
    requires multiset(b[left..right + 1]) == multiset(a[left..right + 1])
    ensures SortInts(a[left..right + 1]) == SortInts(b[left..p]) + [b[p]] + SortInts(b[p + 1..right + 1])
  {
    var lo, hi := b[left..p], b[p + 1..right + 1];
    assert b[left..right + 1] == lo + [b[p]] + hi;
    SortAroundPivot(lo, b[p], hi);
    SortIntsPermutation(a[left..right + 1], b[left..right + 1]);
  }

  /**
    Permuting the sub-range `[lo, hi]` of a permutation of `[left, right]`
    (and touching nothing else) is again a permutation of `[left, right]`.
   */
  lemma PermuteInside(a: seq<int>, b: seq<int>, c: seq<int>, left: int, right: int, lo: int, hi: int)
    requires |a| == |b| == |c|
    requires 0 <= left <= lo && lo <= hi + 1 && hi <= right < |a|
    requires multiset(b[left..right + 1]) == multiset(a[left..right + 1])
    requires SameOutside(a, b, left, right)
    requires multiset(c[lo..hi + 1]) == multiset(b[lo..hi + 1])
    requires SameOutside(b, c, lo, hi)
    ensures multiset(c[left..right + 1]) == multiset(a[left..right + 1])
    ensures SameOutside(a, c, left, right)
  {
    assert c[left..right + 1] == c[left..lo] + c[lo..hi + 1] + c[hi + 1..right + 1];
    assert b[left..right + 1] == b[left..lo] + b[lo..hi + 1] + b[hi + 1..right + 1];
    assert c[left..lo] == b[left..lo];
    assert c[hi + 1..right + 1] == b[hi + 1..right + 1];
  }
}

=== FILE: seqs.dfy ===
/**
  Reference definitions over sequences that the List and Set models are
  specified against: element sets, duplicate freedom, reversal, filtering,
  first matches, flattening, deleting a set of positions, keeping first
  occurrences, and cutting into chunks.
 */
module Seqs {

  /** The set of values a sequence holds. */
  function Elems<T>(s: seq<T>): set<T>
  {
    set x | x in s
  }

  /** No value occurs twice. */
  predicate NoDup<T(==)>(s: seq<T>)
  {
    forall i, j :: 0 <= i < j < |s| ==> s[i] != s[j]
  }

  lemma NoDupSnoc<T>(s: seq<T>, x: T)
    requires NoDup(s) && x !in s
    ensures NoDup(s + [x])
  {
  }

  /** In a duplicate-free sequence every value occurs at most once. */
  lemma {:induction false} NoDupCount<T>(a: seq<T>, x: T)
    requires NoDup(a)
    ensures multiset(a)[x] == if x in a then 1 else 0
  {
    if |a| > 0 {
      var n := |a| - 1;
      NoDupCount(a[..n], x);
      assert a == a[..n] + [a[n]];
      assert a[n] !in a[..n];
    }
  }

  /**
    The elements of `s`, each once, in an arbitrary order: the shape of a Go
    `for k := range m` loop that appends every key of a map.
   */
  method Enumerate<T>(s: set<T>) returns (r: seq<T>)
    ensures NoDup(r) && Elems(r) == s
    ensures |r| == |s|
  {
    r := [];
    var rest := s;
    while rest != {}
      invariant rest <= s
      invariant NoDup(r) && Elems(r) == s - rest
      invariant |r| == |s - rest|
      decreases |rest|
    {
      var item :| item in rest;
      NoDupSnoc(r, item);
      assert Elems(r + [item]) == Elems(r) + {item};
      assert s - (rest - {item}) == (s - rest) + {item};
      r := r + [item];
      rest := rest - {item};
    }
  }

  /** A duplicate-free sequence holding the values of `s` holds each of them exactly once. */
  lemma NoDupCounts<T>(r: seq<T>, s: seq<T>)
    requires NoDup(r) && Elems(r) == Elems(s)
    ensures forall x :: multiset(r)[x] == if x in s then 1 else 0
  {
    forall x ensures multiset(r)[x] == if x in s then 1 else 0 {
      NoDupCount(r, x);
      assert x in r <==> x in Elems(r);
      assert x in s <==> x in Elems(s);
    }
  }

  /** Two duplicate-free sequences holding the same values are permutations of each other. */
  lemma NoDupMultiset<T>(a: seq<T>, b: seq<T>)
    requires NoDup(a) && NoDup(b) && Elems(a) == Elems(b)
    ensures multiset(a) == multiset(b)
  {
    forall x ensures multiset(a)[x] == multiset(b)[x] {
      NoDupCount(a, x);
      NoDupCount(b, x);
      assert x in a <==> x in Elems(a);
      assert x in b <==> x in Elems(b);
    }
  }

  /** Two equal positions make their value occur at least twice. */
  lemma TwoOccurrences<T>(b: seq<T>, i: int, j: int)
    requires 0 <= i < j < |b|
    ensures b[i] == b[j] ==> multiset(b)[b[j]] >= 2
  {
    assert b == b[..j] + [b[j]] + b[j + 1..];
    assert b[i] == b[..j][i];
  }

  /** A permutation of a duplicate-free sequence is duplicate-free. */
  lemma NoDupPermutation<T>(a: seq<T>, b: seq<T>)
    requires NoDup(a) && multiset(a) == multiset(b)
    ensures NoDup(b)
  {
    forall i, j | 0 <= i < j < |b| ensures b[i] != b[j] {
      NoDupCount(a, b[j]);
      TwoOccurrences(b, i, j);
    }
  }

  /** Permutations hold the same values. */
  lemma MultisetElems<T>(a: seq<T>, b: seq<T>)
    requires multiset(a) == multiset(b)
    ensures Elems(a) == Elems(b)
  {
    forall x ensures x in a <==> x in b {
      assert x in a <==> x in multiset(a);
      assert x in b <==> x in multiset(b);
    }
  }

  /** The sequence read back to front. */
  function Reversed<T>(s: seq<T>): (r: seq<T>)
    ensures |r| == |s|
    ensures forall i :: 0 <= i < |s| ==> r[i] == s[|s| - 1 - i]
  {
    if |s| == 0 then [] else Reversed(s[1..]) + [s[0]]
  }

  lemma ReversedElems<T>(s: seq<T>)
    ensures Elems(Reversed(s)) == Elems(s)
  {
    var r := Reversed(s);
    forall x | x in s ensures x in r {
      var i :| 0 <= i < |s| && s[i] == x;
      assert r[|s| - 1 - i] == x;
    }
  }

  /** The elements satisfying `p`, in their original order. */
  function Keep<T>(s: seq<T>, p: T -> bool): (r: seq<T>)
    ensures |r| <= |s|
    ensures forall i :: 0 <= i < |r| ==> r[i] in s && p(r[i])
    ensures forall i :: 0 <= i < |s| && p(s[i]) ==> s[i] in r
  {
    if |s| == 0 then []
    else if p(s[0]) then [s[0]] + Keep(s[1..], p)
    else Keep(s[1..], p)
  }

  lemma {:induction false} KeepAppend<T>(a: seq<T>, b: seq<T>, p: T -> bool)
    ensures Keep(a + b, p) == Keep(a, p) + Keep(b, p)
  {
    if |a| == 0 {
      assert a + b == b;
    } else {
      assert (a + b)[1..] == a[1..] + b;
      KeepAppend(a[1..], b, p);
    }
  }

  /** Keeping some elements of a duplicate-free sequence leaves it duplicate-free. */
  lemma {:induction false} KeepNoDup<T>(s: seq<T>, p: T -> bool)
    requires NoDup(s)
    ensures NoDup(Keep(s, p))
  {
    if |s| > 0 {
      KeepNoDup(s[1..], p);
      assert s[0] !in s[1..];
    }
  }

  /** A concatenation is duplicate-free exactly when both parts are and they share no value. */
  lemma NoDupConcat<T>(a: seq<T>, b: seq<T>)
    ensures NoDup(a + b) <==> NoDup(a) && NoDup(b) && Elems(a) !! Elems(b)
  {
    var c := a + b;
    if NoDup(c) {
      assert forall i :: 0 <= i < |b| ==> c[|a| + i] == b[i];
      assert forall i :: 0 <= i < |a| ==> c[i] == a[i];
      forall i, j | 0 <= i < j < |b| ensures b[i] != b[j] {
        assert c[|a| + i] != c[|a| + j];
      }
    }
    if NoDup(a) && NoDup(b) && Elems(a) !! Elems(b) {
      forall i, j | 0 <= i < j < |c| ensures c[i] != c[j] {
        if j < |a| {
          assert c[i] == a[i] && c[j] == a[j];
        } else if i >= |a| {
          assert c[i] == b[i - |a|] && c[j] == b[j - |a|];
        } else {
          assert c[i] == a[i] && c[j] == b[j - |a|];
          assert c[i] in Elems(a) && c[j] in Elems(b);
        }
      }
    }
  }

  /** The first index whose element satisfies `p`, or -1 when none does. */
  function FirstIndex<T>(s: seq<T>, p: T -> bool): (r: int)
    ensures -1 <= r < |s|
    ensures r >= 0 ==> p(s[r]) && forall j :: 0 <= j < r ==> !p(s[j])
    ensures r == -1 <==> forall j :: 0 <= j < |s| ==> !p(s[j])
  {
    if |s| == 0 then -1
    else if p(s[0]) then 0
    else
      var k := FirstIndex(s[1..], p);
      if k == -1 then -1 else k + 1
  }

  /** In-order concatenation of a sequence of sequences. */
  function Flatten<T>(c: seq<seq<T>>): seq<T>
  {
    if |c| == 0 then [] else c[0] + Flatten(c[1..])
  }

  /** Sum of the lengths of the parts. */
  function TotalLength<T>(c: seq<seq<T>>): nat
  {
    if |c| == 0 then 0 else |c[0]| + TotalLength(c[1..])
  }

  lemma {:induction false} FlattenLength<T>(c: seq<seq<T>>)
    ensures |Flatten(c)| == TotalLength(c)
  {
    if |c| > 0 {
      FlattenLength(c[1..]);
    }
  }

  lemma {:induction false} FlattenSnoc<T>(c: seq<seq<T>>, x: seq<T>)
    ensures Flatten(c + [x]) == Flatten(c) + x
  {
    if |c| == 0 {
      assert c + [x] == [x];
    } else {
      assert (c + [x])[1..] == c[1..] + [x];
      FlattenSnoc(c[1..], x);
    }
  }

  /** Flattening distributes over concatenation of the outer sequence. */
  lemma {:induction false} FlattenConcat<T>(a: seq<seq<T>>, b: seq<seq<T>>)
    ensures Flatten(a + b) == Flatten(a) + Flatten(b)
    decreases |b|
  {
    if |b| == 0 {
      assert a + b == a;
    } else {
      var n := |b| - 1;
      FlattenConcat(a, b[..n]);
      assert a + b == (a + b[..n]) + [b[n]];
      assert b == b[..n] + [b[n]];
      FlattenSnoc(a + b[..n], b[n]);
      FlattenSnoc(b[..n], b[n]);
    }
  }

  /**
    The elements of `l` whose positions are NOT in `S`, in their original
    order: "delete the positions `S` from `l`, all at once".
   */
  function Survivors<T>(l: seq<T>, S: set<int>): seq<T>
  {
    if |l| == 0 then []
    else Survivors(l[..|l| - 1], S) + (if |l| - 1 in S then [] else [l[|l| - 1]])
  }

  /** Deleting only positions below `k` leaves the suffix from `k` intact. */
  lemma {:induction false} SurvivorsSuffix<T>(l: seq<T>, S: set<int>, k: int)
    requires 0 <= k <= |l|
    requires forall j :: j in S ==> j < k
    ensures Survivors(l, S) == Survivors(l[..k], S) + l[k..]
    decreases |l| - k
  {
    if k < |l| {
      var n := |l| - 1;
      SurvivorsSuffix(l[..n], S, k);
      assert l[..n][..k] == l[..k];
      assert l[..n][k..] + [l[n]] == l[k..];
    } else {
      assert l[..k] == l;
    }
  }

  /** Only membership of the positions that exist matters. */
  lemma {:induction false} SurvivorsAgree<T>(l: seq<T>, S: set<int>, S': set<int>)
    requires forall j :: 0 <= j < |l| ==> (j in S <==> j in S')
    ensures Survivors(l, S) == Survivors(l, S')
  {
    if |l| > 0 {
      SurvivorsAgree(l[..|l| - 1], S, S');
    }
  }

  /** Deleting no existing position is the identity. */
  lemma SurvivorsNone<T>(l: seq<T>, S: set<int>)
    requires forall j :: 0 <= j < |l| ==> j !in S
    ensures Survivors(l, S) == l
  {
    SurvivorsAgree(l, S, {});
    SurvivorsSuffix(l, {}, 0);
  }

  /**
    Deleting the largest position `i` first and then the rest from the
    shortened sequence is the same as deleting them all at once.
   */
  lemma RemoveLargestFirst<T>(l: seq<T>, S: set<int>, i: int)
    requires 0 <= i < |l| && i in S
    requires forall j :: j in S ==> j <= i
    ensures Survivors(l, S) == Survivors(l[..i] + l[i + 1..], S - {i})
  {
    var l' := l[..i] + l[i + 1..];
    SurvivorsSuffix(l, S, i + 1);
    assert l[..i + 1][..i] == l[..i];
    assert Survivors(l[..i + 1], S) == Survivors(l[..i], S);
    SurvivorsSuffix(l', S - {i}, i);
    assert l'[..i] == l[..i];
    assert l'[i..] == l[i + 1..];
    SurvivorsAgree(l[..i], S - {i}, S);
  }

  /** Number of positions in `[0, n)` that belong to `S`. */
  function CountBelow(S: set<int>, n: nat): nat
  {
    if n == 0 then 0 else CountBelow(S, n - 1) + (if n - 1 in S then 1 else 0)
  }

  lemma {:induction false} SurvivorsLength<T>(l: seq<T>, S: set<int>)
    ensures |Survivors(l, S)| == |l| - CountBelow(S, |l|)
  {
    if |l| > 0 {
      SurvivorsLength(l[..|l| - 1], S);
    }
  }

  /** For a set of positions inside `[0, n)` the count is its cardinality. */
  lemma {:induction false} CountBelowCard(S: set<int>, n: nat)
    requires forall j :: j in S ==> 0 <= j < n
    ensures CountBelow(S, n) == |S|
  {
    if n > 0 {
      var S' := S - {n - 1};
      CountBelowCard(S', n - 1);
      assert CountBelow(S', n - 1) == CountBelow(S, n - 1) by {
        CountBelowAgree(S', S, n - 1);
      }
      if n - 1 in S {
        assert S == S' + {n - 1};
        assert |S| == |S'| + 1;
      } else {
        assert S == S';
      }
    } else {
      assert forall j :: j in S ==> false;
      assert S == {};
    }
  }

  lemma {:induction false} CountBelowAgree(S: set<int>, S': set<int>, n: nat)
    requires forall j :: 0 <= j < n ==> (j in S <==> j in S')
    ensures CountBelow(S, n) == CountBelow(S', n)
  {
    if n > 0 {
      CountBelowAgree(S, S', n - 1);
    }
  }

  /** The first occurrence of every value, in original order. */
  function Dedup<T(==)>(s: seq<T>): (r: seq<T>)
    ensures NoDup(r)
    ensures Elems(r) == Elems(s)
    ensures |r| <= |s|
  {
    if |s| == 0 then []
    else
      var d := Dedup(s[..|s| - 1]);
      var x := s[|s| - 1];
      assert Elems(s) == Elems(s[..|s| - 1]) + {x} by {
        assert s == s[..|s| - 1] + [x];
      }
      if x in d then d else d + [x]
  }

  lemma DedupOfNoDup<T>(s: seq<T>)
    requires NoDup(s)
    ensures Dedup(s) == s
  {
    if |s| > 0 {
      DedupOfNoDup(s[..|s| - 1]);
      assert s[|s| - 1] !in s[..|s| - 1];
      assert s[..|s| - 1] + [s[|s| - 1]] == s;
    }
  }

  /** The positions of `s` holding a value already seen before them. */
  ghost function Repeats<T>(s: seq<T>): set<int>
  {
    set p | 0 <= p < |s| && s[p] in s[..p]
  }

  /** `i` is the first position of `s` holding `x`. */
  ghost predicate FirstOccurrence<T>(s: seq<T>, x: T, i: int)
  {
    0 <= i < |s| && s[i] == x && forall j :: 0 <= j < i ==> s[j] != x
  }

  /** Keeping the first occurrence of every value is deleting every position that repeats an earlier value. */
  lemma {:induction false} DedupDropsRepeats<T>(s: seq<T>)
    ensures Dedup(s) == Survivors(s, Repeats(s))
  {
    if |s| > 0 {
      var n := |s| - 1;
      var u := s[..n];
      DedupDropsRepeats(u);
      var R := Repeats(s);
      var R' := Repeats(u);
      forall j | 0 <= j < |u|
        ensures j in R <==> j in R'
      {
        assert u[..j] == s[..j];
      }
      SurvivorsAgree(u, R', R);
      assert s[..|s| - 1] == u;
      assert n in R <==> s[n] in Elems(Dedup(u));
    }
  }

  /** A value first seen at `p` in a prefix is first seen at `p` in the whole sequence, and conversely. */
  lemma FirstOccurrencePrefix<T>(s: seq<T>, n: int, x: T, p: int)
    requires 0 <= n <= |s| && x in s[..n]
    ensures FirstOccurrence(s, x, p) <==> FirstOccurrence(s[..n], x, p)
  {
    assert forall k :: 0 <= k < n ==> s[..n][k] == s[k];
  }

  /** `Dedup` lists the values in the order of their first occurrences. */
  lemma {:induction false} DedupKeepsFirstOrder<T>(s: seq<T>, i: int, j: int, p: int, q: int)
    requires 0 <= i < j < |Dedup(s)|
    requires FirstOccurrence(s, Dedup(s)[i], p) && FirstOccurrence(s, Dedup(s)[j], q)
    ensures p < q
  {
    var n := |s| - 1;
    var u := s[..n];
    var d := Dedup(u);
    assert s[..|s| - 1] == u;
    assert Dedup(s)[i] == d[i] && d[i] in Elems(u);
    FirstOccurrencePrefix(s, n, d[i], p);
    if j < |d| {
      assert Dedup(s)[j] == d[j] && d[j] in Elems(u);
      FirstOccurrencePrefix(s, n, d[j], q);
      DedupKeepsFirstOrder(u, i, j, p, q);
    } else {
      assert Dedup(s)[j] == s[n] && s[n] !in Elems(d);
      assert forall k :: 0 <= k < n ==> u[k] == s[k];
    }
  }

  /**
    Consecutive chunks of `size` elements, the last one possibly shorter:
    the Go loop `for i := 0; i < len(l); i += size`.
   */
  function Chunks<T>(s: seq<T>, size: int): seq<seq<T>>
    requires size > 0
    decreases |s|
  {
    if |s| == 0 then []
    else
      var end := if size > |s| then |s| else size;
      [s[..end]] + Chunks(s[end..], size)
  }

  /** The chunks concatenate back to the sequence; each holds 1 to `size` elements, all but the last exactly `size`. */
  lemma {:induction false} ChunksSpec<T>(s: seq<T>, size: int)
    requires size > 0
    ensures Flatten(Chunks(s, size)) == s
    ensures forall k :: 0 <= k < |Chunks(s, size)| ==> 1 <= |Chunks(s, size)[k]| <= size
    ensures forall k :: 0 <= k < |Chunks(s, size)| - 1 ==> |Chunks(s, size)[k]| == size
    decreases |s|
  {
    if |s| > 0 {
      var end := if size > |s| then |s| else size;
      ChunksSpec(s[end..], size);
      assert s[..end] + s[end..] == s;
      var c := Chunks(s, size);
      assert c[1..] == Chunks(s[end..], size);
    }
  }

  /** Exchange two positions: `s[i], s[j] = s[j], s[i]`. */
  function Swap<T>(s: seq<T>, i: int, j: int): (r: seq<T>)
    requires 0 <= i < |s| && 0 <= j < |s|
    ensures |r| == |s| && r[i] == s[j] && r[j] == s[i]
    ensures forall k :: 0 <= k < |s| && k != i && k != j ==> r[k] == s[k]
    ensures multiset(r) == multiset(s)
  {
    s[i := s[j]][j := s[i]]
  }

  /** A swap inside `[lo, hi)` permutes that segment and nothing else. */
  lemma SwapSegment<T>(s: seq<T>, lo: int, hi: int, i: int, j: int)
    requires 0 <= lo <= i < hi <= |s| && lo <= j < hi
    ensures multiset(Swap(s, i, j)[lo..hi]) == multiset(s[lo..hi])
  {
    assert Swap(s, i, j)[lo..hi] == Swap(s[lo..hi], i - lo, j - lo);
  }
}

=== FILE: sequence.dfy ===
/**
  `Sequence(args...)` of sequence/sequence.go, a Python-style integer range.
  The Go function sends its values over a channel from a goroutine; here
  the result is the sequence of values it sends, in order.
 */
module Sequence {

  import opened Errors

  /**
    The argument decoding: `(stop)`, `(start, stop)` or `(start, stop,
    step)`, with `start` defaulting to 0 and `step` to 1; any other count
    of arguments sends nothing.
   */
  function Decode(args: seq<int>): (r: Option<(int, int, int)>)
    ensures r.None? <==> |args| == 0 || |args| > 3
    ensures |args| == 1 ==> r == Some((0, args[0], 1))
    ensures |args| == 2 ==> r == Some((args[0], args[1], 1))
    ensures |args| == 3 ==> r == Some((args[0], args[1], args[2]))
  {
    match |args|
    case 1 => Some((0, args[0], 1))
    case 2 => Some((args[0], args[1], 1))
    case 3 => Some((args[0], args[1], args[2]))
    case _ => None
  }

  /** The arithmetic progression from `start` by `step` of the values below `stop`; nothing for a non-positive step. */
  function Range(start: int, stop: int, step: int): (r: seq<int>)
    decreases stop - start
  {
    if step <= 0 || start >= stop then []
    else [start] + Range(start + step, stop, step)
  }

  /**
    `Range` starts at `start`, climbs by exactly `step`, stays below `stop`
    and stops at the last such value; it is empty exactly when there is
    nothing to send.
   */
  lemma {:induction false} RangeShape(start: int, stop: int, step: int)
    ensures |Range(start, stop, step)| == 0 <==> step <= 0 || start >= stop
    ensures |Range(start, stop, step)| > 0 ==> Range(start, stop, step)[0] == start
    ensures forall k :: 0 <= k < |Range(start, stop, step)| ==> start <= Range(start, stop, step)[k] < stop
    ensures forall k :: 0 < k < |Range(start, stop, step)| ==>
      Range(start, stop, step)[k] == Range(start, stop, step)[k - 1] + step
    ensures |Range(start, stop, step)| > 0 ==>
      Range(start, stop, step)[|Range(start, stop, step)| - 1] + step >= stop
    decreases stop - start
  {
    if step > 0 && start < stop {
      var rest := Range(start + step, stop, step);
      RangeShape(start + step, stop, step);
      var r := [start] + rest;
      assert forall k :: 0 < k < |r| ==> r[k] == rest[k - 1];
      if |rest| > 1 {
        assert forall k :: 1 < k < |r| ==> r[k] == r[k - 1] + step;
      }
    }
  }

  /** The values sent by `Sequence(args...)`. */
  function Yield(args: seq<int>): seq<int>
  {
    match Decode(args)
    case None => []
    case Some((start, stop, step)) => Range(start, stop, step)
  }

  /**
    `Sequence(args...)`: decodes the arguments, returns at once for a
    non-positive step with `start <= stop`, and otherwise sends `start`,
    `start + step`, … while below `stop`.
   */
  method Sequence(args: seq<int>) returns (sent: seq<int>)
    ensures sent == Yield(args)
  {
    sent := [];
    var start, stop, step;
    match |args| {
      case 1 => start, stop, step := 0, args[0], 1;
      case 2 => start, stop, step := args[0], args[1], 1;
      case 3 => start, stop, step := args[0], args[1], args[2];
      case _ => return;
    }
    if step <= 0 && start <= stop {
      return;
    }
    var i := start;
    while i < stop
      invariant step <= 0 ==> i == start && start > stop
      invariant sent + Range(i, stop, step) == Range(start, stop, step)
      decreases stop - i
    {
      sent := sent + [i];
      i := i + step;
    }
  }

  /** With one argument `n` the values are `0, 1, …, n - 1`. */
  lemma {:induction false} YieldOneArgument(n: int)
    ensures |Yield([n])| == if n > 0 then n else 0
    ensures forall k :: 0 <= k < |Yield([n])| ==> Yield([n])[k] == k
  {
    UnitRange(0, n);
  }

  /** With two arguments the values are `start, start + 1, …, stop - 1`. */
  lemma YieldTwoArguments(start: int, stop: int)
    ensures |Yield([start, stop])| == if start < stop then stop - start else 0
    ensures forall k :: 0 <= k < |Yield([start, stop])| ==> Yield([start, stop])[k] == start + k
  {
    UnitRange(start, stop);
  }

  lemma {:induction false} UnitRange(start: int, stop: int)
    ensures |Range(start, stop, 1)| == if start < stop then stop - start else 0
    ensures forall k :: 0 <= k < |Range(start, stop, 1)| ==> Range(start, stop, 1)[k] == start + k
    decreases stop - start
  {
    if start < stop {
      UnitRange(start + 1, stop);
    }
  }

  /** No arguments, more than three, or a non-positive step: nothing is sent. */
  lemma YieldNothing(args: seq<int>)
    ensures |args| == 0 || |args| > 3 ==> Yield(args) == []
    ensures |args| == 3 && args[2] <= 0 ==> Yield(args) == []
  {
  }
}

=== FILE: slices.dfy ===
/**
  The free functions over Go slices: membership, folding, flattening,
  mapping, sorting, searching, order statistics and duplicate removal
  (list/listfunctions.go and its later revision list/functions.go, which
  repeats most of them word for word).  Ordering functions are instantiated
  at `int`.  Every loop of the Go code is a method here, proved against a
  reference definition.
 */
module Slices {

  import opened Seqs
  import opened Sorting
  import opened Selection

  /** `singleContains`: some element equals `value`. */
  function SingleContains<T(==)>(list: seq<T>, value: T): (r: bool)
    ensures r <==> value in list
  {
    if |list| == 0 then false
    else list[0] == value || SingleContains(list[1..], value)
  }

  /** `Contains(list, values...)`: every value occurs; vacuously true for no values. */
  function Contains<T(==)>(list: seq<T>, values: seq<T>): (r: bool)
    ensures r <==> forall i :: 0 <= i < |values| ==> values[i] in list
  {
    if |values| == 0 then true
    else SingleContains(list, values[0]) && Contains(list, values[1..])
  }

  /** `ContainsAny(list, values...)`: some value occurs; false for no values. */
  function ContainsAny<T(==)>(list: seq<T>, values: seq<T>): (r: bool)
    ensures r <==> exists i :: 0 <= i < |values| && values[i] in list
  {
    if |values| == 0 then false
    else SingleContains(list, values[0]) || ContainsAny(list, values[1..])
  }

  /** Left fold, the reference for `Reduce`. */
  function FoldLeft<T, U>(s: seq<T>, acc: U, f: (U, T) -> U): U
  {
    if |s| == 0 then acc else FoldLeft(s[1..], f(acc, s[0]), f)
  }

  /** Folding one more element applies the reducer once more, to the fold so far. */
  lemma {:induction false} FoldLeftSnoc<T, U>(s: seq<T>, x: T, acc: U, f: (U, T) -> U)
    ensures FoldLeft(s + [x], acc, f) == f(FoldLeft(s, acc, f), x)
  {
    if |s| == 0 {
      assert s + [x] == [x];
    } else {
      assert (s + [x])[1..] == s[1..] + [x];
      FoldLeftSnoc(s[1..], x, f(acc, s[0]), f);
    }
  }

  /** `Reduce`: the loop `result = reducer(result, item)` over the slice. */
  method Reduce<T, U>(s: seq<T>, initial: U, reducer: (U, T) -> U) returns (r: U)
    ensures |s| == 0 ==> r == initial
    ensures r == FoldLeft(s, initial, reducer)
  {
    r := initial;
    var i := 0;
    while i < |s|
      invariant 0 <= i <= |s|
      invariant r == FoldLeft(s[..i], initial, reducer)
    {
      FoldLeftSnoc(s[..i], s[i], initial, reducer);
      assert s[..i + 1] == s[..i] + [s[i]];
      r := reducer(r, s[i]);
      i := i + 1;
    }
    assert s[..i] == s;
  }

  /** `Flatten`: appends every part in turn. */
  method Flatten<T>(c: seq<seq<T>>) returns (r: seq<T>)
    ensures r == Seqs.Flatten(c)
    ensures |r| == TotalLength(c)
  {
    r := [];
    var i := 0;
    while i < |c|
      invariant 0 <= i <= |c|
      invariant r == Seqs.Flatten(c[..i])
    {
      FlattenSnoc(c[..i], c[i]);
      assert c[..i + 1] == c[..i] + [c[i]];
      r := r + c[i];
      i := i + 1;
    }
    assert c[..i] == c;
    FlattenLength(c);
  }

  /** The images of the elements, in order. */
  function Images<T, U>(s: seq<T>, f: T -> U): seq<U>
  {
    seq(|s|, i requires 0 <= i < |s| => f(s[i]))
  }

  /** `Map`: `result[i] = iteratee(collection[i])`. */
  method Map<T, U>(s: seq<T>, f: T -> U) returns (r: seq<U>)
    ensures |r| == |s|
    ensures forall i :: 0 <= i < |s| ==> r[i] == f(s[i])
  {
    r := [];
    var i := 0;
    while i < |s|
      invariant 0 <= i <= |s| && |r| == i
      invariant forall k :: 0 <= k < i ==> r[k] == f(s[k])
    {
      r := r + [f(s[i])];
      i := i + 1;
    }
  }

  /** `FlatMap`: appends the outputs of `f` for each element in turn. */
  method FlatMap<T, U>(s: seq<T>, f: T -> seq<U>) returns (r: seq<U>)
    ensures r == Seqs.Flatten(Images(s, f))
  {
    r := [];
    var i := 0;
    while i < |s|
      invariant 0 <= i <= |s|
      invariant r == Seqs.Flatten(Images(s[..i], f))
    {
      assert Images(s[..i + 1], f) == Images(s[..i], f) + [f(s[i])];
      FlattenSnoc(Images(s[..i], f), f(s[i]));
      r := r + f(s[i]);
      i := i + 1;
    }
    assert s[..i] == s;
  }

  /**
    `IsSorted`: true for length at most one, otherwise the verdict of
    `slices.IsSorted`, which scans the neighbouring pairs from the back.
   */
  method IsSorted(s: seq<int>) returns (r: bool)
    ensures r <==> Sorted(s)
  {
    AdjacentSorted(s);
    if |s| <= 1 {
      return true;
    }
    var i := |s| - 1;
    while i > 0
      invariant 0 <= i < |s|
      invariant forall k :: i < k < |s| ==> s[k - 1] <= s[k]
    {
      if s[i] < s[i - 1] {
        return false;
      }
      i := i - 1;
    }
    return true;
  }

  /**
    `Sort`: nothing happens to an empty or already sorted slice; otherwise
    `slices.Sort` leaves the sorted permutation, which is unique, so the
    reference sort stands for it.
   */
  method Sort(s: seq<int>) returns (r: seq<int>)
    ensures Sorted(r) && multiset(r) == multiset(s)
    ensures Sorted(s) ==> r == s
    ensures r == SortInts(s)
  {
    if |s| == 0 {
      return s;
    }
    var sorted := IsSorted(s);
    if sorted {
      SortIntsOfSorted(s);
      return s;
    }
    SortIntsSpec(s);
    r := SortInts(s);
  }

  /** `Min` (`slices.Min`, which panics on an empty slice): the smallest element, the head of the sorted slice. */
  method Min(s: seq<int>) returns (r: int)
    requires |s| > 0
    ensures r in s && forall i :: 0 <= i < |s| ==> r <= s[i]
    ensures r == SortInts(s)[0]
  {
    r := s[0];
    var i := 1;
    while i < |s|
      invariant 1 <= i <= |s|
      invariant r in s[..i] && forall k :: 0 <= k < i ==> r <= s[k]
    {
      if s[i] < r {
        r := s[i];
      }
      i := i + 1;
    }
    assert s[..i] == s;
    LeastIsSortedHead(s, r);
  }

  /** `Max` (`slices.Max`, which panics on an empty slice): the largest element, the last of the sorted slice. */
  method Max(s: seq<int>) returns (r: int)
    requires |s| > 0
    ensures r in s && forall i :: 0 <= i < |s| ==> s[i] <= r
    ensures r == SortInts(s)[|s| - 1]
  {
    r := s[0];
    var i := 1;
    while i < |s|
      invariant 1 <= i <= |s|
      invariant r in s[..i] && forall k :: 0 <= k < i ==> s[k] <= r
    {
      if s[i] > r {
        r := s[i];
      }
      i := i + 1;
    }
    assert s[..i] == s;
    GreatestIsSortedLast(s, r);
  }

  lemma LeastIsSortedHead(s: seq<int>, m: int)
    requires m in s && forall i :: 0 <= i < |s| ==> m <= s[i]
    ensures |SortInts(s)| > 0 && SortInts(s)[0] == m
  {
    var t := SortInts(s);
    SortIntsSpec(s);
    assert t[0] in multiset(s);
    assert m in multiset(t);
    SortedHeadBelow(t, m);
  }

  lemma GreatestIsSortedLast(s: seq<int>, m: int)
    requires m in s && forall i :: 0 <= i < |s| ==> s[i] <= m
    ensures |SortInts(s)| > 0 && SortInts(s)[|s| - 1] == m
  {
    var t := SortInts(s);
    SortIntsSpec(s);
    assert t[|t| - 1] in multiset(s);
    assert m in multiset(t);
    var j :| 0 <= j < |t| && t[j] == m;
  }

  /** `Find`: the first index holding `value`, or -1. */
  method Find<T(==)>(s: seq<T>, value: T) returns (r: int)
    ensures -1 <= r < |s|
    ensures r >= 0 ==> s[r] == value && forall j :: 0 <= j < r ==> s[j] != value
    ensures r == -1 <==> value !in s
  {
    var i := 0;
    while i < |s|
      invariant 0 <= i <= |s|
      invariant forall j :: 0 <= j < i ==> s[j] != value
    {
      if s[i] == value {
        return i;
      }
      i := i + 1;
    }
    return -1;
  }

  /**
    `slices.BinarySearch` on a sorted slice: the first position whose
    element is not below `value`, and whether it holds `value`.
   */
  method LowerBound(s: seq<int>, value: int) returns (i: int, found: bool)
    requires Sorted(s)
    ensures 0 <= i <= |s|
    ensures forall k :: 0 <= k < i ==> s[k] < value
    ensures forall k :: i <= k < |s| ==> s[k] >= value
    ensures found <==> i < |s| && s[i] == value
  {
    i := 0;
    var j := |s|;
    while i < j
      invariant 0 <= i <= j <= |s|
      invariant forall k :: 0 <= k < i ==> s[k] < value
      invariant forall k :: j <= k < |s| ==> s[k] >= value
    {
      var h := (i + j) / 2;
      if s[h] < value {
        i := h + 1;
      } else {
        j := h;
      }
    }
    found := i < |s| && s[i] == value;
  }

  /**
    `BinarySearch`: -1 for an empty slice or an absent value; otherwise the
    first position of `value` in the sorted slice (the slice sorted, when the
    input is not sorted).
   */
  method BinarySearch(s: seq<int>, value: int) returns (r: int)
    ensures r == -1 <==> value !in s
    ensures r >= 0 ==> r < |s| && SortInts(s)[r] == value
    ensures r >= 0 ==> forall k :: 0 <= k < r ==> SortInts(s)[k] < value
  {
    if |s| == 0 {
      return -1;
    }
    var t := s;
    var sorted := IsSorted(s);
    if !sorted {
      t := Sort(s);
    } else {
      SortIntsOfSorted(s);
    }
    SortIntsSpec(s);
    assert t == SortInts(s);
    var i, found := LowerBound(t, value);
    assert value in s <==> value in t by {
      assert value in s <==> value in multiset(s);
      assert value in t <==> value in multiset(t);
    }
    if found {
      return i;
    }
    return -1;
  }

  /**
    `Median`: zero for an empty slice; otherwise the element the sorted
    slice holds at `n/2` for odd `n` and at the lower middle `n/2 - 1` for
    even `n`, found by `quickSelect` on a private copy.
   */
  method Median(s: seq<int>) returns (r: int)
    ensures |s| == 0 ==> r == 0
    ensures |s| % 2 == 1 ==> r == SortInts(s)[|s| / 2]
    ensures |s| > 0 && |s| % 2 == 0 ==> r == SortInts(s)[|s| / 2 - 1]
  {
    if |s| == 0 {
      return 0;
    }
    var arr := s;
    var n := |arr|;
    assert arr[0..n - 1 + 1] == s;
    if n % 2 == 1 {
      var _, middle := QuickSelect(arr, 0, n - 1, n / 2);
      return middle;
    }
    var arr', left := QuickSelect(arr, 0, n - 1, n / 2 - 1);
    var _, _ := QuickSelect(arr', 0, n - 1, n / 2);
    return left;
  }

  /** The even example of the lower-middle rule: `[1, 2, 3, 4]` has median 2. */
  lemma MedianOfFour()
    ensures SortInts([1, 2, 3, 4])[4 / 2 - 1] == 2
  {
    SortIntsOfSorted([1, 2, 3, 4]);
  }

  /** The odd example: `[5, 3, 1, 4, 2]` has median 3. */
  lemma MedianOfFive()
    ensures SortInts([5, 3, 1, 4, 2])[5 / 2] == 3
  {
    SortIntsCons(5, [3, 1, 4, 2]);
    SortIntsCons(3, [1, 4, 2]);
    SortIntsCons(1, [4, 2]);
    SortIntsCons(4, [2]);
    assert SortInts([4, 2]) == [2, 4];
    assert SortInts([1, 4, 2]) == [1, 2, 4];
    assert SortInts([3, 1, 4, 2]) == [1, 2, 3, 4];
  }

  lemma SortIntsCons(x: int, s: seq<int>)
    ensures SortInts([x] + s) == InsertSorted(x, SortInts(s))
  {
    assert ([x] + s)[1..] == s;
  }

  /**
    `RemoveDuplicates` of list/listfunctions.go: a slice of length at most
    one is left alone; otherwise the values are collected into a Go map and
    read back in the map's (unspecified) iteration order, so each distinct
    value appears exactly once.
   */
  method RemoveDuplicates<T(==)>(s: seq<T>) returns (r: seq<T>)
    ensures |s| <= 1 ==> r == s
    ensures NoDup(r) && Elems(r) == Elems(s)
    ensures forall x :: multiset(r)[x] == if x in s then 1 else 0
  {
    if |s| <= 1 {
      return s;
    }
    var seen: set<T> := {};
    var i := 0;
    while i < |s|
      invariant 0 <= i <= |s|
      invariant seen == Elems(s[..i])
    {
      assert s[..i + 1] == s[..i] + [s[i]];
      seen := seen + {s[i]};
      i := i + 1;
    }
    assert s[..i] == s;
    r := Enumerate(seen);
    NoDupCounts(r, s);
  }

  /**
    `RemoveDuplicates` of list/functions.go: appends each value the result
    does not hold yet, so it keeps first occurrences in their original order.
   */
  method RemoveDuplicatesOrdered<T(==)>(s: seq<T>) returns (r: seq<T>)
    ensures |s| <= 1 ==> r == s
    ensures r == Dedup(s)
    ensures r == Survivors(s, Repeats(s))
    ensures forall i, j, p, q :: 0 <= i < j < |r| && FirstOccurrence(s, r[i], p) && FirstOccurrence(s, r[j], q) ==> p < q
  {
    if |s| <= 1 {
      assert Dedup(s) == s;
      return s;
    }
    r := [];
    var i := 0;
    while i < |s|
      invariant 0 <= i <= |s|
      invariant r == Dedup(s[..i])
    {
      assert s[..i + 1][..i] == s[..i];
      if !SingleContains(r, s[i]) {
        r := r + [s[i]];
      }
      i := i + 1;
    }
    assert s[..i] == s;
    DedupDropsRepeats(s);
    forall i, j, p, q | 0 <= i < j < |r| && FirstOccurrence(s, r[i], p) && FirstOccurrence(s, r[j], q)
      ensures p < q
    {
      DedupKeepsFirstOrder(s, i, j, p, q);
    }
  }
}

=== FILE: sorting.dfy ===
/**
  The ordering vocabulary of the library, instantiated at `int`: what
  "sorted" means, a reference sort (insertion sort) that the sorting and
  selection algorithms are proved against, and the fact that a sorted
  permutation is unique, which is what makes "the k-th element of the sorted
  input" a well-defined answer for every algorithm here.
 */
module Sorting {

  import opened Seqs

  /** Non-decreasing: every earlier element is at most every later one. */
  predicate Sorted(s: seq<int>)
  {
    forall i, j :: 0 <= i < j < |s| ==> s[i] <= s[j]
  }

  /** Strictly decreasing, the shape of a formatted batch of indices. */
  predicate StrictlyDecreasing(s: seq<int>)
  {
    forall i, j :: 0 <= i < j < |s| ==> s[i] > s[j]
  }

  /** Every element of `s` is at most `x`. */
  predicate AllAtMost(s: seq<int>, x: int)
  {
    forall k :: 0 <= k < |s| ==> s[k] <= x
  }

  /** Every element of `s` is greater than `x`. */
  predicate AllAbove(s: seq<int>, x: int)
  {
    forall k :: 0 <= k < |s| ==> s[k] > x
  }

  /** Every neighbouring pair in order: the check `slices.IsSorted` and `IsSorted` perform. */
  predicate AdjacentInOrder(s: seq<int>)
  {
    forall k :: 0 < k < |s| ==> s[k - 1] <= s[k]
  }

  /** Neighbouring pairs in order is the same as sorted. */
  lemma {:induction false} AdjacentSorted(s: seq<int>)
    ensures AdjacentInOrder(s) <==> Sorted(s)
  {
    if AdjacentInOrder(s) && |s| > 1 {
      var t := s[1..];
      assert AdjacentInOrder(t) by {
        forall k | 0 < k < |t| ensures t[k - 1] <= t[k] {
          assert t[k - 1] == s[k] && t[k] == s[k + 1];
        }
      }
      AdjacentSorted(t);
      forall j | 0 < j < |s| ensures s[0] <= s[j] {
        assert s[1] == t[0] && s[j] == t[j - 1];
      }
      SortedCons(s[0], t);
      assert s == [s[0]] + t;
    }
  }

  /** Insert `x` before the first element that is not below it. */
  function InsertSorted(x: int, s: seq<int>): (r: seq<int>)
    ensures |r| == |s| + 1
  {
    if |s| == 0 then [x]
    else if x <= s[0] then [x] + s
    else [s[0]] + InsertSorted(x, s[1..])
  }

  lemma {:induction false} InsertSortedSpec(x: int, s: seq<int>)
    requires Sorted(s)
    ensures Sorted(InsertSorted(x, s))
    ensures multiset(InsertSorted(x, s)) == multiset(s) + multiset{x}
  {
    InsertSortedMultiset(x, s);
    InsertSortedSorted(x, s);
  }

  lemma {:induction false} InsertSortedMultiset(x: int, s: seq<int>)
    ensures multiset(InsertSorted(x, s)) == multiset(s) + multiset{x}
  {
    if |s| > 0 && x > s[0] {
      InsertSortedMultiset(x, s[1..]);
      assert s == [s[0]] + s[1..];
    }
  }

  lemma {:induction false} InsertSortedSorted(x: int, s: seq<int>)
    requires Sorted(s)
    ensures Sorted(InsertSorted(x, s))
  {
    if |s| == 0 {
    } else if x <= s[0] {
      SortedCons(x, s);
    } else {
      var t := InsertSorted(x, s[1..]);
      InsertSortedSorted(x, s[1..]);
      InsertSortedMultiset(x, s[1..]);
      forall k | 0 <= k < |t| ensures s[0] <= t[k] {
        assert t[k] in multiset(s[1..]) + multiset{x};
      }
      SortedCons(s[0], t);
    }
  }

  /** Putting a lower bound in front of a sorted sequence keeps it sorted. */
  lemma SortedCons(x: int, t: seq<int>)
    requires Sorted(t)
    requires forall k :: 0 <= k < |t| ==> x <= t[k]
    ensures Sorted([x] + t)
  {
    var r := [x] + t;
    forall i, j | 0 <= i < j < |r| ensures r[i] <= r[j] {
      if i > 0 {
        assert r[i] == t[i - 1] && r[j] == t[j - 1];
      }
    }
  }

  /**
    Reference sort (insertion sort).  Its meaning, the sorted permutation of
    `s`, is stated by `SortIntsSpec`; it is kept out of this function's own
    contract so that the many specifications mentioning it stay cheap.
   */
  function SortInts(s: seq<int>): (r: seq<int>)
    ensures |r| == |s|
  {
    if |s| == 0 then [] else InsertSorted(s[0], SortInts(s[1..]))
  }

  lemma {:induction false} SortIntsSpec(s: seq<int>)
    ensures Sorted(SortInts(s))
    ensures multiset(SortInts(s)) == multiset(s)
  {
    if |s| > 0 {
      SortIntsSpec(s[1..]);
      InsertSortedSpec(s[0], SortInts(s[1..]));
      assert s == [s[0]] + s[1..];
    }
  }

  /** Two sorted sequences with the same elements are equal. */
  lemma {:induction false} SortedUnique(a: seq<int>, b: seq<int>)
    requires Sorted(a) && Sorted(b)
    requires multiset(a) == multiset(b)
    ensures a == b
    decreases |a|
  {
    assert |a| == |multiset(a)| == |multiset(b)| == |b|;
    if |a| > 0 {
      assert a[0] == b[0] by {
        assert a[0] in multiset(a) && b[0] in multiset(b);
        SortedHeadBelow(b, a[0]);
        SortedHeadBelow(a, b[0]);
      }
      assert multiset(a[1..]) == multiset(b[1..]) by {
        MultisetTail(a);
        MultisetTail(b);
      }
      SortedTail(a);
      SortedTail(b);
      SortedUnique(a[1..], b[1..]);
      assert a == [a[0]] + a[1..];
      assert b == [b[0]] + b[1..];
    }
  }

  /** The head of a sorted sequence is at most every element it holds. */
  lemma SortedHeadBelow(s: seq<int>, x: int)
    requires Sorted(s) && x in multiset(s)
    ensures |s| > 0 && s[0] <= x
  {
    var i :| 0 <= i < |s| && s[i] == x;
  }

  lemma SortedTail(s: seq<int>)
    requires Sorted(s) && |s| > 0
    ensures Sorted(s[1..])
  {
  }

  lemma MultisetTail(s: seq<int>)
    requires |s| > 0
    ensures multiset(s[1..]) == multiset(s) - multiset{s[0]}
  {
    assert s == [s[0]] + s[1..];
  }

  /** Sorting depends only on the multiset of the input. */
  lemma SortIntsPermutation(s: seq<int>, t: seq<int>)
    requires multiset(s) == multiset(t)
    ensures SortInts(s) == SortInts(t)
  {
    SortIntsSpec(s);
    SortIntsSpec(t);
    SortedUnique(SortInts(s), SortInts(t));
  }

  /** The reference sort leaves sorted input as it is. */
  lemma SortIntsOfSorted(s: seq<int>)
    requires Sorted(s)
    ensures SortInts(s) == s
  {
    SortIntsSpec(s);
    SortedUnique(SortInts(s), s);
  }

  /** A pivot split: the sorted whole is the sorted low part, the pivot, then the sorted high part. */
  lemma SortAroundPivot(lo: seq<int>, pivot: int, hi: seq<int>)
    requires AllAtMost(lo, pivot) && AllAbove(hi, pivot)
    ensures SortInts(lo + [pivot] + hi) == SortInts(lo) + [pivot] + SortInts(hi)
  {
    var sl, sh := SortInts(lo), SortInts(hi);
    SortIntsSpec(lo);
    SortIntsSpec(hi);
    forall k | 0 <= k < |sl| ensures sl[k] <= pivot {
      assert sl[k] in multiset(lo);
    }
    forall k | 0 <= k < |sh| ensures sh[k] > pivot {
      assert sh[k] in multiset(hi);
    }
    var r := sl + [pivot] + sh;
    SortedAroundPivot(sl, pivot, sh);
    assert multiset(r) == multiset(lo + [pivot] + hi);
    SortIntsSpec(lo + [pivot] + hi);
    SortedUnique(SortInts(lo + [pivot] + hi), r);
  }

  lemma SortedAroundPivot(lo: seq<int>, pivot: int, hi: seq<int>)
    requires Sorted(lo) && Sorted(hi)
    requires AllAtMost(lo, pivot) && AllAbove(hi, pivot)
    ensures Sorted(lo + [pivot] + hi)
  {
    var r := lo + [pivot] + hi;
    forall i, j | 0 <= i < j < |r| ensures r[i] <= r[j] {
      if j < |lo| {
        assert r[i] == lo[i] && r[j] == lo[j];
      } else if i > |lo| {
        assert r[i] == hi[i - |lo| - 1] && r[j] == hi[j - |lo| - 1];
      } else if i < |lo| {
        assert r[i] == lo[i];
        if j > |lo| {
          assert r[j] == hi[j - |lo| - 1];
        }
      } else if j > |lo| {
        assert r[j] == hi[j - |lo| - 1];
      }
    }
  }

  /** Sorted with no repeated value means strictly increasing, so the reversal strictly decreases. */
  lemma SortedDistinctReversed(s: seq<int>)
    requires Sorted(s)
    requires NoDup(s)
    ensures StrictlyDecreasing(Reversed(s))
  {
  }
}
